=== FILE: README.md ===
# speech-to-cli in Dafny

A model of speech-to-cli, a push-to-talk dictation daemon. While a
configured key is held, the daemon records from the microphone. When the key
is released, or a maximum duration passes, it:

- stops the recorder;
- writes the audio to a temporary 16-bit PCM WAV file;
- sends the file to OpenAI's transcription API;
- optionally releases the push-to-talk key;
- types the transcript into the focused window;
- deletes the file.

The model covers these parts of the repository:

- The packaged daemon in `src/speech_to_cli`:
  - configuration from the environment and its command-line overrides;
  - the Linux (evdev plus `xdotool`) and macOS (pynput) platform handlers;
  - the recorder and the WAV writer;
  - the transcriber;
  - the daemon's handlers.
- The older single-file daemon in `main.py` and its root `config.py`.
- The `.env` key handling of the Tk dashboard in `scripts/dashboard.py`.
- The feature registry in `features.py`.

Every Python call that can raise becomes a function returning
`Result` (`Ok` or `Raised(exception)`). Collaborators the model cannot see are
passed in as data describing what they do:

- the sound device: `StreamOutcome`, plus the blocks it delivers;
- the file system: `SaveOutcome` and `EnvFile`;
- the OpenAI client: `Response`;
- the `xdotool` commands and the keyboard controller: `CallOutcome`;
- evdev devices and `select`: `DeviceInfo` and `LoopStep`/`Turn`;
- the clock: a `now: real` argument.

A handler call returns the state after it, plus the calls it made as a
non-ghost trace of `Effect`s. The properties are stated about that trace:

- the file is always unlinked once it was saved;
- the upload carries the configured model and language;
- text is typed only when the transcript is non-empty;
- recordings are never finalized twice.

Modules follow the source. `PyStr` holds the Python `str` and `int()`
behaviour the code relies on: `strip`, `lower`/`upper`, `splitlines`,
`"\n".join`, `replace` and `int(str(n))`. `Base` holds `Option`, `Result` and
the exception classes. `Effects` holds the call trace.

Two notes on the code as written:

- The device discovery (`main.py` lines 127-148, and the same tests in
  `platforms/linux.py` lines 34-58) keeps a device when it lists the
  push-to-talk code, and otherwise when it has any `EV_KEY` entry. A device
  that lists the code has an `EV_KEY` entry, so the first test is subsumed
  by the second: the kept devices are exactly the opened devices with an
  `EV_KEY` entry (`Evdev.SelectedIffKeyDevice`). The model follows the code.
- In `scripts/dashboard.py` line 210, the two quote literals of the
  quote-stripping condition form one triple-quoted string. The line
  therefore tests only `value.startswith(") and value.endswith(")`, a
  single prefix test, and makes no `endswith` call. This is listed under
  "## Findings" below: `Dashboard.UnquoteAsWritten` models the line as
  written, and the rest of the model uses the quote stripping the line
  evidently means, with the quote mark as a parameter of `Dashboard.Unquote`
  and `Dashboard.LoadApiKey`.

## Model

| member | source | states |
|---|---|---|
| Features.IsValidExactly | features.py:9-11 | A feature name is valid exactly when it is "dashboard"; the check is case-sensitive, so "Dashboard" and the empty name are rejected |
| Features.AllListsValidFeatures | features.py:5-11 | `all()` lists exactly the valid features, once each |
| Config.DefaultPttKey | src/speech_to_cli/config.py:12-20 | The default key is the evdev name of right Shift on Linux and pynput's `shift_r` on every other platform |
| Config.DefaultPttKeysym | src/speech_to_cli/config.py:23-27 | A default keysym to release exists only on Linux, and it is `Shift_R` |
| Config.LevelByName | src/speech_to_cli/config.py:73-74 | Each level name of `logging`, in any case (CRITICAL and FATAL, ERROR, WARNING and WARN, INFO, DEBUG, NOTSET), gives its level; any name that is not one of them falls back to INFO |
| Config.OverrideKeysym | src/speech_to_cli/config.py:61-62 | "none" in any case clears the keysym; any other non-empty value is kept verbatim; an unset or empty variable keeps the default |
| Config.FromEnv | src/speech_to_cli/config.py:53-78 | `from_env` raises ValueError exactly when the sample rate or maximum duration is not an integer; otherwise each field comes from its variable when that variable is set and non-empty, else from the default |
| Config.FromEnvDefaults | src/speech_to_cli/config.py:30-51 | With none of its variables set, the configuration is the declared defaults (Enter on, gpt-4o-transcribe, 16000 Hz, 60 s, transcripts not logged) |
| Config.FromEnvSeesSettingsOnly | src/speech_to_cli/config.py:53-78 | Two environments that agree on which variables are set, and on their values, give the same configuration |
| Config.EmptyMeansUnset | src/speech_to_cli/config.py:56-78 | A variable set to the empty string has the same effect as an absent one |
| Config.TrueWords | src/speech_to_cli/config.py:63-64 | A boolean variable is true exactly for "true" or "yes" in any ASCII case, or "1" |
| Config.FromEnvRoundTrip | src/speech_to_cli/config.py:54-78 | Reading back the environment written for any configuration the environment can express gives that configuration, on every platform |
| Cli.ApplyArgs | src/speech_to_cli/cli.py:82-93 | Each given option replaces only its own field; `--enter/--no-enter` applies whenever given, even as false; `--verbose` selects DEBUG; `--log-transcripts` can only switch logging on; the audio settings and keysym stay as the environment set them |
| Cli.NoArgsKeepConfig | src/speech_to_cli/cli.py:82-93 | No options, or only empty string options, leave the configuration unchanged |
| Cli.ApplyArgsIdempotent | src/speech_to_cli/cli.py:82-93 | Applying the same options a second time changes nothing |
| Cli.ExplicitFalseOverrides | src/speech_to_cli/cli.py:84-85 | `--no-enter` turns Enter off even when the environment turned it on |
| Cli.MainExit | src/speech_to_cli/cli.py:79-121 | A bad integer setting escapes; a missing or empty API key returns 1 before any daemon is built; otherwise the daemon gets the layered configuration; `main` returns 0 exactly when `run` returned or a `KeyboardInterrupt` escaped it, calls `stop` only on that interrupt, and lets any other exception of `run` escape |
| Platforms.CallbackConvention | src/speech_to_cli/platforms/__init__.py:10 | The callback argument `True` means key down and `False` key up, in both directions |
| Platforms.GetPlatformHandler | src/speech_to_cli/platforms/__init__.py:51-70 | linux, darwin and win32 get their own handlers; any other platform raises NotImplementedError |
| Platforms.DefaultPttKey | src/speech_to_cli/platforms/__init__.py:73-82 | The default key name is KEY_PAUSE on Linux, f13 on macOS and pause elsewhere |
| Evdev.ResolveKeycode | src/speech_to_cli/platforms/linux.py:27-32 | A key name resolves exactly when evdev's table knows it, to that table's code; otherwise ValueError |
| Evdev.SelectedIffKeyDevice | src/speech_to_cli/platforms/linux.py:44-56 | The device test passes exactly for devices with an `EV_KEY` entry, whichever code they list |
| Evdev.Kept | src/speech_to_cli/platforms/linux.py:34-58 | Only listed devices that open and have an `EV_KEY` entry are kept, and no more of them than were listed |
| Evdev.DiscoverDevices | src/speech_to_cli/platforms/linux.py:34-58 | One pass over the listed paths yields exactly the reference selection, in listing order |
| Evdev.KeptExactly | main.py:127-148 | A device is kept exactly when it is listed, opens and has an `EV_KEY` entry; so any device that lists the push-to-talk key is kept |
| Evdev.Transition | src/speech_to_cli/platforms/linux.py:109-112 | Event value 1 means press and 0 means release; any other value (autorepeat) means nothing |
| Evdev.HandleEvent | src/speech_to_cli/platforms/linux.py:100-112 | The callback runs exactly for `EV_KEY` events of the push-to-talk code with value 0 or 1 while a callback is set, and receives whether the key went down |
| Evdev.FilteredRunIsSilent | src/speech_to_cli/platforms/linux.py:100-112 | A run of events of other types, other codes or autorepeat values produces no callback |
| Evdev.FdMap | src/speech_to_cli/platforms/linux.py:65 | The descriptor map covers every kept device's descriptor and maps each descriptor to a kept device with that descriptor |
| Evdev.FdMapEmpty | src/speech_to_cli/platforms/linux.py:65-71 | The descriptor map is empty exactly when no device was kept |
| Xdotool.TypeThenEnter | src/speech_to_cli/platforms/linux.py:128-140 | The type command always runs first; Return follows exactly when the type command succeeded and Enter is wanted |
| Xdotool.TypedTextIsLastArgument | src/speech_to_cli/platforms/linux.py:130-132 | The transcript is passed unchanged, as the last argument of `xdotool type --delay 0 --clearmodifiers` |
| Linux.NewHandler | src/speech_to_cli/platforms/linux.py:19-25 | A new handler has no devices, no key, no callback and is not running |
| Linux.Cleanup | src/speech_to_cli/platforms/linux.py:118-126 | Every device is closed once, in order, and the device list and descriptor map are emptied |
| Linux.ReadDevice | src/speech_to_cli/platforms/linux.py:88-94 | Reading one batch calls back exactly as the reference filtering of its events says, in order, until a call raises `OSError`: that call is the last one of the batch, and the batch reports that it ended early exactly when such a call was reached |
| Linux.ServePoll | src/speech_to_cli/platforms/linux.py:83-94 | A ready descriptor without a device, or one whose read fails, adds no callback; the others add their events' callbacks in order, each batch cut after a callback that raised `OSError`, and the next descriptor is still served |
| Linux.ExitIndexIs | src/speech_to_cli/platforms/linux.py:82 | The loop ends at the first turn that is not a poll |
| Linux.ServePolls | src/speech_to_cli/platforms/linux.py:82-94 | Polls are served in order up to the first turn that is not a poll, and the callbacks are exactly those of the polls served |
| Linux.EventLoop | src/speech_to_cli/platforms/linux.py:79-98 | Callbacks come exactly from the polls before the loop ends, each batch cut after a callback that raised `OSError` while the loop goes on. When `stop_listening` or an interrupt ends the loop, the devices are closed and only an interrupt leaves the flag set |
| Linux.StartListening | src/speech_to_cli/platforms/linux.py:60-77 | An unknown key name raises ValueError before anything changes. With no devices it returns without entering the loop. Otherwise it serves the kept devices and closes all of them when the loop ends |
| Linux.StopListening | src/speech_to_cli/platforms/linux.py:114-116 | Only the running flag changes, and it is cleared |
| Linux.StopEndsLoop | src/speech_to_cli/platforms/linux.py:82-98 | When the flag is cleared after any number of polls, the loop ends at that point by the stop: the callbacks are exactly those of the polls before it and no later turn is served |
| Linux.Keysym | src/speech_to_cli/platforms/linux.py:145 | The derived keysym is no longer than the key name and has no upper-case letter |
| Linux.KeysymOfPrefixedName | src/speech_to_cli/platforms/linux.py:145 | A name `KEY_<rest>` gives the lower-cased rest |
| Linux.KeysymIdempotent | src/speech_to_cli/platforms/linux.py:145 | Deriving the keysym from a derived keysym changes nothing |
| Linux.ReleaseKey | src/speech_to_cli/platforms/linux.py:142-152 | Exactly one `xdotool keyup` of the derived keysym runs; its failure is only logged |
| Linux.TypeText | src/speech_to_cli/platforms/linux.py:128-140 | The type command runs first; Return runs exactly when typing succeeded and Enter is wanted; nothing raises |
| MacOS.KeyMapIsLowerCase | src/speech_to_cli/platforms/macos.py:16-46 | Every key of the table is its own lower-case form, so the lower-cased lookup finds it |
| MacOS.SortedKeyNamesAreTheKeys | src/speech_to_cli/platforms/macos.py:78-81 | The names listed in the error message are exactly the table's keys |
| MacOS.SortedKeyNamesIncrease | src/speech_to_cli/platforms/macos.py:80 | The listed names are in strictly increasing code-point order, as `sorted` of distinct keys gives them |
| MacOS.ResolveKey | src/speech_to_cli/platforms/macos.py:60-81 | Lookup order: table by lower-cased name, then one character as a key code keeping its case, then the `Key` enumeration; ValueError, listing the table's keys, exactly when all three fail |
| MacOS.ResolveIgnoresCase | src/speech_to_cli/platforms/macos.py:62-66 | Table names resolve the same whatever their ASCII case |
| MacOS.SingleCharacterKeepsCase | src/speech_to_cli/platforms/macos.py:68-70 | A single character outside the table becomes a key code with that exact character |
| MacOS.MatchesKey | src/speech_to_cli/platforms/macos.py:83-96 | A missing key never matches; equal keys match; two key codes match exactly when their characters agree; a special key matches only itself |
| MacOS.MatchesKeySymmetric | src/speech_to_cli/platforms/macos.py:83-96 | Matching is symmetric |
| MacOS.NewHandler | src/speech_to_cli/platforms/macos.py:52-58 | A new handler has no listener, no target and no callback |
| MacOS.OnPress | src/speech_to_cli/platforms/macos.py:98-101 | The callback receives `True` exactly when the key matches the target and a callback is registered |
| MacOS.OnRelease | src/speech_to_cli/platforms/macos.py:103-106 | The callback receives `False` exactly when the key matches the target and a callback is registered |
| MacOS.StartListening | src/speech_to_cli/platforms/macos.py:108-128 | The key name is stored first. An unresolvable name raises ValueError with no listener. Otherwise the target, callback and listener are set |
| MacOS.StopListening | src/speech_to_cli/platforms/macos.py:138-142 | The listener is dropped, and the result says whether there was one |
| MacOS.StopListeningIdempotent | src/speech_to_cli/platforms/macos.py:135-142 | A second stop finds no listener and changes nothing |
| MacOS.TargetKeyRoundTrip | src/speech_to_cli/platforms/macos.py:98-128 | After a successful start, the target key's press and release reach the callback as `True` and `False` |
| MacOS.TypeText | src/speech_to_cli/platforms/macos.py:144-155 | The text is typed first; Enter is pressed only after typing succeeded and when asked, and released only after the press succeeded |
| MacOS.ReleaseKey | src/speech_to_cli/platforms/macos.py:157-163 | A resolvable name gets exactly one release of its key; an unknown name gets none |
| Audio.NewRecorder | src/speech_to_cli/audio.py:19-26 | A new recorder is idle, with nothing captured and no start time |
| Audio.Start | src/speech_to_cli/audio.py:33-53 | A second start changes nothing. From idle, the frames are cleared and the start time set. Recording is reported unless the constructor raised, and an exception escapes unless the stream started |
| Audio.Capture | src/speech_to_cli/audio.py:41-44 | A callback appends its block at the end and changes nothing else |
| Audio.CaptureAll | src/speech_to_cli/audio.py:41-44 | A run of callbacks appends its blocks in arrival order |
| Audio.HasReachedMaxDuration | src/speech_to_cli/audio.py:55-59 | Never while idle; while recording, exactly when at least the maximum number of seconds has passed |
| Audio.FlattenLength | src/speech_to_cli/audio.py:80 | The concatenated audio has as many rows as all captured blocks together |
| Audio.FlattenKeepsOrder | src/speech_to_cli/audio.py:80 | Each block sits, unchanged, right after the rows of the blocks captured before it |
| Audio.Stop | src/speech_to_cli/audio.py:61-83 | Stopping an idle recorder returns nothing. Stopping always leaves it idle, with no start time and no frames. It returns audio exactly when a block was captured, with as many rows as were captured |
| Audio.StopKeepsArrivalOrder | src/speech_to_cli/audio.py:61-83 | The returned audio holds every captured block at its arrival position |
| Audio.SessionReturnsCapturedAudio | src/speech_to_cli/audio.py:33-83 | Start, capture, stop returns exactly the captured blocks' rows in order, or nothing when none arrived |
| Audio.StopIsIdempotent | src/speech_to_cli/audio.py:61-64 | Stopping a second time returns nothing and changes nothing |
| Wav.Clip | src/speech_to_cli/audio.py:100 | Samples are clipped to [-1, 1] and unchanged inside it |
| Wav.ToPcm | src/speech_to_cli/audio.py:100-101 | A sample becomes an integer in [-32767, 32767]: the scaled clipped value truncated toward zero |
| Wav.PcmRow | src/speech_to_cli/audio.py:100-101 | Each row converts sample by sample |
| Wav.EncodeRoundTrip | src/speech_to_cli/audio.py:114 | The payload bytes decode, as 16-bit little-endian samples, to exactly the PCM samples |
| Wav.SampleRoundTrip | src/speech_to_cli/audio.py:114 | A 16-bit sample survives two's-complement little-endian encoding |
| Wav.SaveWav | src/speech_to_cli/audio.py:86-114 | The header carries the given channels and rate with sample width 2, and the payload decodes to the clipped, scaled, truncated samples, two bytes each |
| Wav.PayloadSize | src/speech_to_cli/audio.py:99-114 | For audio with one sample per channel in every row, the payload is rows × channels × 2 bytes and the frame count equals the rows |
| Transcription.Transcribe | src/speech_to_cli/transcription.py:28-66 | Every API failure, missing text and whitespace-only text gives ""; otherwise the text without surrounding whitespace |
| Transcription.TranscriptIsStripped | src/speech_to_cli/transcription.py:66 | A transcript is already stripped |
| Daemon.NewDaemon | src/speech_to_cli/daemon.py:21-39 | The recorder and transcriber take their parameters from the configuration; the daemon starts idle, not running and without a platform handler |
| Daemon.Inject | src/speech_to_cli/daemon.py:79-85 | With a keysym the key is released first. The transcript is typed, last, with the configured Enter setting, unless the release raised. An exception escapes exactly when the release or the typing raised |
| Daemon.InjectWithoutKeysym | src/speech_to_cli/daemon.py:79-85 | Without a keysym the only injection is the typing, which raises exactly when the typing fails |
| Daemon.Finalize | src/speech_to_cli/daemon.py:63-93 | The recorder is stopped first and left idle, and nothing else of the daemon changes. Without audio there is nothing more |
| Daemon.FinalizeCleansUp | src/speech_to_cli/daemon.py:63-93 | The temporary file exists exactly when saving got past creating it. It is unlinked, as the last call, exactly when the save succeeded, whatever the upload, release or typing did |
| Daemon.FinalizeRequest | src/speech_to_cli/daemon.py:70-78 | The transcriber is called exactly when the file was saved, with the configured model and language (whether it then uploads is the transcriber's business) |
| Daemon.FinalizeInjections | src/speech_to_cli/daemon.py:76-85 | Input is injected only when the file was saved, the transcript is non-empty and a platform is set. The injection is then the keysym release, if configured, and one typing of the transcript unless the release raised |
| Daemon.AfterSaveLeavesRecorder | src/speech_to_cli/daemon.py:69-93 | After saving, a finalize makes no recorder call |
| Daemon.AfterSaveInjections | src/speech_to_cli/daemon.py:76-89 | The injections of the saved part of a finalize are exactly the release and typing calls, and nothing from the save, upload or unlink |
| Daemon.FinalizeRaises | src/speech_to_cli/daemon.py:63-93 | An exception escapes a finalize exactly when there was audio and the save failed, or the release or the typing raised |
| Daemon.OnKeyDown | src/speech_to_cli/daemon.py:48-55 | Nothing happens while recording. Otherwise exactly one start call is made, and its exception is logged, never raised |
| Daemon.OnKeyUp | src/speech_to_cli/daemon.py:57-61 | Nothing at all happens while idle (no stop, save, upload or typing); otherwise one finalize; the recorder is idle afterwards |
| Daemon.OnKeyEvent | src/speech_to_cli/daemon.py:41-46 | `True` goes to key-down and `False` to key-up |
| Daemon.WatchdogTick | src/speech_to_cli/daemon.py:95-103 | The duration loop does nothing once stopped; while running it finalizes exactly when recording has reached the maximum duration |
| Daemon.AudioCallback | src/speech_to_cli/audio.py:41-52 | Blocks are appended only while a started stream exists; a callback makes no other call |
| Daemon.RunStart | src/speech_to_cli/daemon.py:105-108 | An unsupported platform raises NotImplementedError before the handler is set or the daemon marked running |
| Daemon.RunExit | src/speech_to_cli/daemon.py:122-125 | Whatever ended the listener, `running` is cleared and nothing else changes |
| Daemon.StopDaemon | src/speech_to_cli/daemon.py:127-131 | `running` is cleared, and the listener is stopped exactly when a platform handler exists |
| Daemon.StepMarks | src/speech_to_cli/daemon.py:41-103 | A handler call records a session start exactly when it turns an idle recorder into a recording one, and a session end exactly when it turns a recording one idle |
| Daemon.FinalizeMarks | src/speech_to_cli/daemon.py:63-67 | A finalize of a recording recorder ends one session; of an idle one, nothing |
| Daemon.NoDoubleFinalize | src/speech_to_cli/daemon.py:41-103 | For sequential interleavings of key events, watchdog ticks and audio callbacks, starting idle and going on after a handler raised (the Linux loop catches `OSError`, a failing tick ends only the watchdog thread): sessions open and close strictly alternately, and the recorder is recording exactly when one is open. So no recording is finalized twice |
| Daemon.AfterFinalizeIsQuiet | src/speech_to_cli/daemon.py:57-103 | After a finalize, a following key-up or watchdog tick does nothing |
| Daemon.FinalizeHappyPath | src/speech_to_cli/daemon.py:63-93 | A successful session, without a keysym, makes exactly these calls in order: stop; create the file; write channels, rate and rows × channels × 2 bytes; upload with model and language; type the stripped transcript with the Enter setting; unlink |
| Legacy.New | main.py:97-125 | An unknown key name raises ValueError. Otherwise the daemon holds the key's code, the discovered devices indexed by descriptor, and a recorder and settings taken from the root configuration |
| Legacy.LegacyTranscribe | main.py:236-256 | Every failure, missing text and whitespace-only text gives ""; otherwise the stripped text |
| Legacy.LegacyTranscribeAgrees | main.py:236-256 | The older transcription gives the same text as the packaged transcriber |
| Legacy.TypeText | main.py:258-276 | A configured keysym is released first. The type command follows, then Return exactly when typing succeeded and Enter is configured. Only `xdotool` commands run |
| Legacy.RootSettingsSendNoKeyup | config.py:3-13 | The root configuration defines no keysym, so typing starts with the type command |
| Legacy.Finalize | main.py:201-214 | The recorder ends idle. Without audio nothing else happens. Among the modelled failures, an exception escapes exactly when there was audio and writing the file failed. Otherwise the file is unlinked last |
| Legacy.AfterSaveParts | main.py:205-214 | An empty transcript types nothing; a non-empty one is typed right after the upload |
| Legacy.FinalizeTypesOnlyText | main.py:201-214 | A finalize runs an `xdotool` command exactly when it had audio, saved it and got a non-empty transcript |
| Legacy.FinalizeTypesTranscript | main.py:201-276 | Without a keysym, the first command types the transcript, right after the upload |
| Legacy.OnKeyDown | main.py:183-189 | Nothing happens while recording; otherwise one start call, whose exception is caught |
| Legacy.OnKeyUp | main.py:191-194 | Nothing happens while idle; otherwise one finalize |
| Legacy.CheckDuration | main.py:196-199 | A finalize happens exactly when recording and the maximum duration is reached |
| Legacy.HandleEvent | main.py:173-181 | Only `EV_KEY` events of the push-to-talk code act: value 1 is key-down, 0 is key-up, other values nothing |
| Legacy.ReadBatch | main.py:161-162 | An empty read changes nothing |
| Legacy.ReadBatchRaisedIsFinal | main.py:160-166 | Once a handler raised, the rest of the read is not handled: further events change neither the state nor the calls |
| Legacy.ReadBatchAppend | main.py:161-162 | Until a handler raises, a read is its two parts handled one after the other, the second from the state the first left, with the calls of both in order |
| Legacy.FilteredBatchIsSilent | main.py:173-181 | A read with no key-down or key-up of the push-to-talk code changes nothing and calls nothing |
| Legacy.ServeReady | main.py:157-167 | A descriptor without a device, or a failed read, changes nothing; an `OSError` while handling is caught and never escapes |
| Legacy.ServePoll | main.py:157-167 | Serving a `select` result never raises |
| Legacy.RunTurn | main.py:154-167 | Each turn checks the duration before polling; an exception from that check ends the turn with nothing polled |
| Legacy.EndedLoopIsFinal | main.py:153-171 | Once the loop has ended, later turns change nothing |
| Legacy.Closes | main.py:278-283 | Every device is closed once, in order |
| Legacy.Run | main.py:150-171 | With no devices `run` returns at once and closes nothing. Otherwise it turns until an interrupt or an exception, then closes every device. The devices and key code never change |
| Legacy.SameDevices | main.py:150-199 | Handling events never changes the devices, the descriptor map or the key code |
| Legacy.EnsureApiKey | main.py:286-290 | The key is returned exactly when `OPENAI_API_KEY` is set and non-empty; otherwise RuntimeError |
| Legacy.RunMain | main.py:293-313 | A missing key returns 1 before anything else happens; an unknown key name escapes; with no devices `main` returns 0 without a call. With devices, the calls are those of the daemon's turns followed, once the loop ended, by the close of every device; `main` returns 0 exactly when the loop ended without an exception, an `OSError` escapes exactly when a turn raised, and the run is still listening exactly when the turns ran out first |
| Dashboard.KeyLine | scripts/dashboard.py:227-234 | The assignment line is the `OPENAI_API_KEY=` prefix followed by the key |
| Dashboard.SplitAfterPrefix | scripts/dashboard.py:208-209 | On an assignment line the split at the first '=' keeps everything after the prefix, including later '=' signs |
| Dashboard.Unquote | scripts/dashboard.py:210-211 | A value of two or more characters with the quote mark at both ends becomes the value without its first and last character, a shorter such value becomes empty, and any other value is unchanged |
| Dashboard.UnquoteQuoted | scripts/dashboard.py:210-211 | Wrapping any value in a one-character quote mark and stripping the quotes gives the value back |
| Dashboard.UnquoteAsWritten | scripts/dashboard.py:210-211 | As written, a value loses its first and last character only when it starts with the text `) and value.endswith(`; any other value is unchanged |
| Dashboard.AsWrittenKeepsQuotes | scripts/dashboard.py:210-211 | As written, a value wrapped in any quote mark other than `)` keeps its quotes, where the intended stripping returns the inner value |
| Dashboard.ScanLineAssigns | scripts/dashboard.py:204-211 | A line is read as an assignment exactly when, stripped, it starts with the prefix; blank and comment lines never do |
| Dashboard.FindKeyFirst | scripts/dashboard.py:204-212 | The first assigning line decides the value |
| Dashboard.FindKeyNone | scripts/dashboard.py:204-215 | The scan finds nothing exactly when no line assigns |
| Dashboard.LoadApiKey | scripts/dashboard.py:199-215 | A missing or unreadable file, or one without an assignment, gives ""; otherwise the first assignment's value |
| Dashboard.NewLines | scripts/dashboard.py:218-234 | Every line that starts with the prefix becomes the new assignment. Every other line stays, verbatim and in place. One assignment is appended when none matched |
| Dashboard.NewLinesHaveKey | scripts/dashboard.py:226-234 | The new assignment is always among the written lines |
| Dashboard.FileText | scripts/dashboard.py:236-238 | The written text starts with the joined lines and, when non-empty, ends with a newline |
| Dashboard.WriteApiKey | scripts/dashboard.py:217-240 | Writing raises OSError exactly when the file cannot be read or written; otherwise it writes the rewritten lines |
| Dashboard.WrittenTextIsTerminated | scripts/dashboard.py:226-240 | Whatever was in the file, the written text is non-empty and ends with a newline |
| Dashboard.Reread | scripts/dashboard.py:236-238 | Lines without breaks, the last non-empty, are split back into the same lines |
| Dashboard.RereadTrailingEmpty | scripts/dashboard.py:236-238 | When the last line is empty, reading back drops exactly that line |
| Dashboard.KeyLineValue | scripts/dashboard.py:204-211 | The assignment line of a trimmed, unquoted key is read back as that key |
| Dashboard.ScanFindsKey | scripts/dashboard.py:204-212 | Lines that are each the key's assignment or not an assignment, with at least one assignment, scan to the key |
| Dashboard.NewLinesShape | scripts/dashboard.py:226-234 | When no existing line is an assignment in disguise (leading whitespace), the rewritten lines are each the new assignment or not an assignment |
| Dashboard.RereadKeepsKey | scripts/dashboard.py:199-240 | Reading back written lines keeps the key's assignment, and it stays the only assignment |
| Dashboard.WriteThenLoad | scripts/dashboard.py:199-240 | Writing a trimmed, unquoted key without line breaks and then loading it gives the key back, whatever else the file held, unless a line assigns it behind leading whitespace |
| Dashboard.SaveApiKey | scripts/dashboard.py:141-151 | A blank entry asks for a key and writes nothing. Otherwise the stripped entry is written, and the key counts as saved exactly when the file was readable and writable |
| Dashboard.StartRecording | scripts/dashboard.py:97-107 | An existing daemon is reused; a blank entry stops before anything else; a failed write stops before any daemon is built; otherwise the stripped key is written first |
| Dashboard.SaveThenLoad | scripts/dashboard.py:141-151 | A saved entry loads back as the entry without its surrounding whitespace |
| PyStr.Strip | src/speech_to_cli/transcription.py:66 | `strip()` yields a contiguous slice of the input whose cut-off prefix and suffix are all whitespace and whose own ends are not whitespace; it is empty exactly for whitespace-only input |
| PyStr.StripIdempotent | src/speech_to_cli/transcription.py:66 | Stripping twice is stripping once |
| PyStr.LowerEqualIff | src/speech_to_cli/platforms/macos.py:62 | Two strings lower-case alike exactly when they agree up to ASCII case |
| PyStr.SplitTerminated | scripts/dashboard.py:236-238 | `splitlines` gives back lines that were each terminated with a newline |
| PyStr.ParseIntRoundTrip | src/speech_to_cli/config.py:69-72 | `int(str(n)) == n` for every integer |

## Left out

- Audio hardware, the OpenAI client, `xdotool`, pynput and evdev are not modelled. What they do is a parameter of the operations that model their failures: the stream's start, the save, the upload's response, the release and typing calls, the delivered blocks, the listed devices and the ready descriptors. Calls without such a parameter are taken to succeed; the lines below name them.
- Threads are left out. The watchdog thread, the listener thread and the sound driver's callback share the recorder without a lock, and the model covers only sequential interleavings of whole handler calls (`Daemon.NoDoubleFinalize`). The joins with timeouts and the `sleep(0.1)` pacing are left out.
- Floating point: samples and timestamps are Dafny `real`s, so float32 rounding is not modelled. The conversion to `int16` is modelled as truncation toward zero, after the clip to [-1, 1] that keeps every value in range.
- Logging is left out, and so are `configure_logging` in both entry points, log formats and the transcript logging switch beyond its value in the configuration. Messages that are only logged do not appear in the trace.
- Argument parsing (`argparse`) and `.env` loading (`load_dotenv`) are left out: `Cli.MainExit` and `Legacy.RunMain` start from the parsed options and the environment after loading.
- The Windows handler and `packaging/windows/build.py` are not part of this model. `Platforms.GetPlatformHandler` only says that `win32` selects it.
- The dashboard's Tk widgets, its log redirection and its button states are left out. So are the calls it makes on the daemon after building it (`start_recording`, `stop_recording` and `stop_listening`), which the older daemon class does not define. `Dashboard.StartRecording` ends where the daemon would be built.
- PyStr.Lower: `lower()`/`upper()` change ASCII letters only. Python also folds other letters, which no key name or setting in the code uses.
- PyStr.ParseInt: `int()` accepts ASCII digits only, not other Unicode decimal digits.
- Evdev.ResolveKeycode: evdev's name-to-code table is a parameter, not the kernel's list of constants.
- MacOS.ResolveKey: the members of pynput's `Key` enumeration are a parameter. The sorted listing in the error message is given as data; that it holds exactly the table's keys (`MacOS.SortedKeyNamesAreTheKeys`) in strictly increasing order (`MacOS.SortedKeyNamesIncrease`) is proved.
- MacOS.MatchesKey: key equality is structural equality of the modelled key (its name, or its virtual-key number and character). pynput's own equality of key objects is not modelled.
- Audio.Stop: `stream.stop()` and `stream.close()` are taken to succeed, in both recorders. A failing one (a `PortAudioError`) would leave the stream stored and escape the finalize before any save; that exception is not an `OSError`, so the Linux loop would not catch it either. This path is not modelled.
- MacOS.StartListening: building and starting `keyboard.Listener` are taken to succeed; their failure, which would escape `start_listening` before the `try`, is not modelled. The model stops at the blocking `join`. Its `KeyboardInterrupt` handling and the `stop_listening` of the `finally` are covered by `MacOS.StopListening` and `MacOS.StopListeningIdempotent`.
- Config.LevelByName: only the level names of `logging` are modelled. Another upper-case attribute of the module (`BASIC_FORMAT`, `_STYLES`) is returned by `getattr` as a non-level, and `root.setLevel` then raises inside `configure_logging`, before the API-key check; the model maps such names to INFO instead.
- Linux.EventLoop: `select` timeouts and the loop's schedule are given as a finite list of turns. When the list ends first, the loop is reported still running.
- Linux.ReadDevice: a callback is assumed to raise only `OSError` (the daemon's key-up handler fails that way when `save_wav` fails). Another exception from the callback would leave the loop through its `finally` cleanup and end the listener thread; that path is not modelled.
- Legacy.Run: likewise, a loop still running when its list of turns ends closes nothing.
- Legacy.RunMain: an exception that escapes the older daemon's loop is taken to be the `OSError` of a failed save; the model has no other source of one.
- Legacy.TypeText: like the packaged handler, only the `FileNotFoundError` and `CalledProcessError` that `_type_text` catches are modelled, as a failing call. Another exception from `subprocess.run` (a `PermissionError` for a non-executable `xdotool`, a `ValueError` for text with a NUL) would escape `Legacy.Finalize` after the unlink; that path is not modelled, so Legacy.Finalize raises only when writing the file failed.
- Linux.TypeText: only the `FileNotFoundError` and `CalledProcessError` the code catches are modelled, as a failing call; other exceptions from `subprocess.run` are not.
- Daemon.Finalize: the temporary file that `save_wav` leaks when writing fails is part of the trace (`Daemon.FinalizeCleansUp`); a failing unlink is only logged in the source, so it does not appear.
- Dashboard.LoadApiKey: decoding errors of the `.env` file (`UnicodeDecodeError`) are not modelled. The file is missing, unreadable (`OSError`) or text.
- Dashboard.Unquote: the quote mark is a parameter, because line 210 of `scripts/dashboard.py` names no single quote mark (see "## Findings").
- Dashboard.WriteApiKey: rewriting is not idempotent in general. A final empty line of the file is merged into the final newline (`Dashboard.RereadTrailingEmpty`), so the proved round trip is on the key, not on the whole file.

## Findings

| source | as written | input that shows it | evidently intended | confidence | as-written member | corrected member |
|---|---|---|---|---|---|---|
| scripts/dashboard.py:210-211 | The condition `value.startswith(''') and value.endswith('''):` holds one triple-quoted literal, so it tests only whether the value starts with `) and value.endswith(` | The `.env` line `OPENAI_API_KEY='sk-1'` gives the value `'sk-1'`, which keeps its quotes | A value that starts and ends with a quote mark loses both quote marks | high, not executed | Dashboard.AsWrittenKeepsQuotes | Dashboard.Unquote |

=== FILE: audio.dfy ===
/** The audio recorder: idle or recording, the list of captured blocks and
    the start time. The sound device is a collaborator; how opening its
    stream turns out is a parameter (`StreamOutcome`), and each callback the
    driver makes is one `Capture`. */
module Audio {
  import opened Base

  /** One captured frame: one sample per channel. */
  type Row = seq<real>

  /** One callback's `indata`: a block of rows. */
  type Block = seq<Row>

  /** The input stream handle, with the parameters it was opened with. */
  datatype Stream = Stream(sampleRate: int, channels: int, started: bool)

  datatype Recorder = Recorder(
    sampleRate: int,
    channels: int,
    maxSeconds: int,
    frames: seq<Block>,
    stream: Option<Stream>,
    startTime: Option<real>)

  /** `AudioRecorder(sample_rate, channels, max_seconds)`: idle, nothing captured. */
  function NewRecorder(sampleRate: int, channels: int, maxSeconds: int): (r: Recorder)
    ensures !Recording(r) && r.frames == [] && r.startTime.None?
  {
    Recorder(sampleRate, channels, maxSeconds, [], None, None)
  }

  /** The `recording` property: a stream object is present. */
  predicate Recording(r: Recorder) {
    r.stream.Some?
  }

  /** The recorder's fixed parameters agree. */
  predicate SameSettings(a: Recorder, b: Recorder) {
    a.sampleRate == b.sampleRate && a.channels == b.channels && a.maxSeconds == b.maxSeconds
  }

  /** How opening the input stream turns out: it starts; the constructor
      raises; or the constructor succeeds and `start()` raises. */
  datatype StreamOutcome = StreamStarts | ConstructFails | StartFails

  datatype StartResult = StartResult(rec: Recorder, raised: bool)

  /** `start()`. While recording it changes nothing. From idle it empties
      the frames and records `now` before building the stream; when the
      constructor raises no stream is kept, and when only the stream's own
      `start()` raises the stream object is already stored, so the recorder
      reports recording although no audio will arrive. */
  function Start(r: Recorder, now: real, outcome: StreamOutcome): (res: StartResult)
    ensures Recording(r) ==> res == StartResult(r, false)
    ensures !Recording(r) ==> res.rec.frames == [] && res.rec.startTime == Some(now)
    ensures !Recording(r) ==> (Recording(res.rec) <==> !outcome.ConstructFails?)
    ensures !Recording(r) ==> (res.raised <==> !outcome.StreamStarts?)
    ensures SameSettings(r, res.rec)
    ensures !Recording(r) && Recording(res.rec) ==>
      res.rec.stream.value.sampleRate == r.sampleRate && res.rec.stream.value.channels == r.channels
  {
    if Recording(r) then StartResult(r, false)
    else
      var r1 := r.(frames := [], startTime := Some(now));
      match outcome
      case ConstructFails => StartResult(r1, true)
      case StartFails => StartResult(r1.(stream := Some(Stream(r.sampleRate, r.channels, false))), true)
      case StreamStarts => StartResult(r1.(stream := Some(Stream(r.sampleRate, r.channels, true))), false)
  }

  /** The stream callback: a copy of the block goes to the end of the frame
      list; nothing else changes. */
  function Capture(r: Recorder, block: Block): (r': Recorder)
    ensures r'.frames == r.frames + [block]
    ensures r'.stream == r.stream && r'.startTime == r.startTime && SameSettings(r, r')
  {
    r.(frames := r.frames + [block])
  }

  /** A run of callbacks, in arrival order. */
  function CaptureAll(r: Recorder, blocks: seq<Block>): (r': Recorder)
    ensures r'.frames == r.frames + blocks
    ensures r'.stream == r.stream && r'.startTime == r.startTime && SameSettings(r, r')
    decreases |blocks|
  {
    if blocks == [] then r
    else CaptureAll(Capture(r, blocks[0]), blocks[1..])
  }

  /** `has_reached_max_duration()` at wall-clock time `now`. */
  function HasReachedMaxDuration(r: Recorder, now: real): (reached: bool)
    ensures !Recording(r) || r.startTime.None? ==> !reached
    ensures Recording(r) && r.startTime.Some? ==>
      (reached <==> now - r.startTime.value >= r.maxSeconds as real)
  {
    if !Recording(r) || r.startTime.None? then false
    else now - r.startTime.value >= r.maxSeconds as real
  }

  /** `np.concatenate(frames, axis=0)`: the rows of every block, block after block. */
  function Flatten(frames: seq<Block>): seq<Row> {
    if frames == [] then [] else Flatten(frames[..|frames| - 1]) + frames[|frames| - 1]
  }

  /** Sum of the row counts of the blocks. */
  function TotalRows(frames: seq<Block>): nat {
    if frames == [] then 0 else TotalRows(frames[..|frames| - 1]) + |frames[|frames| - 1]|
  }

  lemma {:induction false} FlattenLength(frames: seq<Block>)
    ensures |Flatten(frames)| == TotalRows(frames)
  {
    if frames != [] {
      FlattenLength(frames[..|frames| - 1]);
    }
  }

  /** Block `b` occupies the rows after those of the blocks before it:
      concatenation keeps arrival order. */
  lemma {:induction false} FlattenKeepsOrder(frames: seq<Block>, b: int)
    requires 0 <= b < |frames|
    ensures TotalRows(frames[..b]) + |frames[b]| <= |Flatten(frames)|
    ensures Flatten(frames)[TotalRows(frames[..b])..TotalRows(frames[..b]) + |frames[b]|] == frames[b]
  {
    var n := |frames|;
    var init := frames[..n - 1];
    var before := Flatten(init);
    assert Flatten(frames) == before + frames[n - 1];
    FlattenLength(init);
    if b == n - 1 {
      assert frames[..b] == init;
      SliceAfter(before, frames[n - 1]);
    } else {
      assert init[..b] == frames[..b];
      assert init[b] == frames[b];
      FlattenKeepsOrder(init, b);
      SliceBefore(before, frames[n - 1], TotalRows(frames[..b]), TotalRows(frames[..b]) + |frames[b]|);
    }
  }

  lemma SliceBefore(a: seq<Row>, c: seq<Row>, lo: nat, hi: nat)
    requires lo <= hi <= |a|
    ensures (a + c)[lo..hi] == a[lo..hi]
  {
  }

  lemma SliceAfter(a: seq<Row>, c: seq<Row>)
    ensures (a + c)[|a|..|a| + |c|] == c
  {
  }

  /** `audio` is the blocks' rows, each block at its arrival position. */
  predicate InArrivalOrder(frames: seq<Block>, audio: seq<Row>) {
    && |audio| == TotalRows(frames)
    && forall b :: 0 <= b < |frames| ==>
         && TotalRows(frames[..b]) + |frames[b]| <= |audio|
         && audio[TotalRows(frames[..b])..TotalRows(frames[..b]) + |frames[b]|] == frames[b]
  }

  lemma FlattenInArrivalOrder(frames: seq<Block>)
    ensures InArrivalOrder(frames, Flatten(frames))
  {
    FlattenLength(frames);
    forall b | 0 <= b < |frames|
      ensures TotalRows(frames[..b]) + |frames[b]| <= |Flatten(frames)|
      ensures Flatten(frames)[TotalRows(frames[..b])..TotalRows(frames[..b]) + |frames[b]|] == frames[b]
    {
      FlattenKeepsOrder(frames, b);
    }
  }

  datatype StopResult = StopResult(rec: Recorder, audio: Option<seq<Row>>)

  /** `stop()`. While idle it returns nothing and changes nothing. While
      recording it always drops the stream and the start time; it returns
      nothing when no block was captured, and otherwise the captured rows in
      order, emptying the frame list. */
  function Stop(r: Recorder): (res: StopResult)
    ensures !Recording(r) ==> res == StopResult(r, None)
    ensures Recording(r) ==> !Recording(res.rec) && res.rec.startTime.None? && res.rec.frames == []
    ensures Recording(r) ==> (res.audio.None? <==> r.frames == [])
    ensures res.audio.Some? ==> |res.audio.value| == TotalRows(r.frames)
    ensures SameSettings(r, res.rec)
  {
    if !Recording(r) then StopResult(r, None)
    else
      var r1 := r.(stream := None, startTime := None);
      if r.frames == [] then StopResult(r1, None)
      else
        FlattenLength(r.frames);
        StopResult(r1.(frames := []), Some(Flatten(r.frames)))
  }

  /** The audio `stop()` returns is every captured block, each at its
      arrival position. */
  lemma StopKeepsArrivalOrder(r: Recorder)
    ensures Stop(r).audio.Some? ==> InArrivalOrder(r.frames, Stop(r).audio.value)
  {
    if Stop(r).audio.Some? {
      FlattenInArrivalOrder(r.frames);
    }
  }

  /** A whole session: start from idle with a working stream, capture some
      blocks, stop. The result is exactly the captured blocks in arrival
      order, or nothing when there were none, and the recorder is idle. */
  lemma SessionReturnsCapturedAudio(r: Recorder, now: real, blocks: seq<Block>)
    requires !Recording(r)
    ensures var started := Start(r, now, StreamStarts).rec;
            var stopped := Stop(CaptureAll(started, blocks));
            && !Recording(stopped.rec)
            && stopped.audio == (if blocks == [] then None else Some(Flatten(blocks)))
  {
    var started := Start(r, now, StreamStarts).rec;
    assert started.frames == [];
    assert CaptureAll(started, blocks).frames == blocks;
  }

  /** Stopping twice: the second call finds the recorder idle and returns nothing. */
  lemma StopIsIdempotent(r: Recorder)
    ensures Stop(Stop(r).rec).audio.None?
    ensures Stop(Stop(r).rec).rec == Stop(r).rec
  {
  }
}

=== FILE: base.dfy ===
/** Shared result types. A Python call that may raise is modelled as a
    function returning a `Result`; the exception classes the core raises or
    catches are the constructors of `Exception`. */
module Base {

  datatype Option<+T> = None | Some(value: T)

  /** The Python exceptions that cross a function boundary in the core. */
  datatype Exception =
    | ValueError(msg: string)
    | NotImplementedError(msg: string)
    | RuntimeError(msg: string)
    | OSError
    | KeyboardInterrupt
    | OtherError

  datatype Result<+T> = Ok(value: T) | Raised(exc: Exception)

  /** Outcome of one call into a collaborator the model cannot see. */
  datatype CallOutcome = Returns | Fails
}

=== FILE: cli.dfy ===
/** The command-line entry point: layering the parsed options on top of the
    environment configuration, and the API-key gate that decides the exit
    code. Argument parsing itself is the parser library's business; the model
    starts from its result. */
module Cli {
  import opened Base
  import opened Config

  /** What the argument parser produced. A flag that was not given is
      `None` (or `false` for the two store-true switches). */
  datatype Args = Args(
    key: Option<string>,
    pressEnter: Option<bool>,
    model: Option<string>,
    language: Option<string>,
    verbose: bool,
    logTranscripts: bool)

  const NoArgs: Args := Args(None, None, None, None, false, false)

  /** Python truthiness of an optional string option. */
  predicate Given(o: Option<string>) {
    o.Some? && o.value != ""
  }

  /** The override block of `main()`: each option replaces its field only when
      given; `--enter/--no-enter` overrides whenever it is not `None`;
      `--verbose` selects DEBUG and `--log-transcripts` can only switch
      transcript logging on. */
  function ApplyArgs(c: Config, a: Args): (r: Config)
    ensures r.pttKey == (if Given(a.key) then a.key.value else c.pttKey)
    ensures r.pressEnter == (if a.pressEnter.Some? then a.pressEnter.value else c.pressEnter)
    ensures r.model == (if Given(a.model) then a.model.value else c.model)
    ensures r.language == (if Given(a.language) then a.language.value else c.language)
    ensures r.logLevel == (if a.verbose then Debug else c.logLevel)
    ensures r.logTranscripts == (c.logTranscripts || a.logTranscripts)
    ensures r.pttKeysym == c.pttKeysym && r.sampleRate == c.sampleRate
    ensures r.channels == c.channels && r.maxRecordSeconds == c.maxRecordSeconds
    ensures r.logFormat == c.logFormat
  {
    c.(pttKey := if Given(a.key) then a.key.value else c.pttKey,
       pressEnter := if a.pressEnter.Some? then a.pressEnter.value else c.pressEnter,
       model := if Given(a.model) then a.model.value else c.model,
       language := if Given(a.language) then a.language.value else c.language,
       logLevel := if a.verbose then Debug else c.logLevel,
       logTranscripts := if a.logTranscripts then true else c.logTranscripts)
  }

  /** No options leave the configuration as the environment made it, and
      an empty string option counts as not given. */
  lemma NoArgsKeepConfig(c: Config, a: Args)
    requires !Given(a.key) && a.pressEnter.None? && !Given(a.model) && !Given(a.language)
    requires !a.verbose && !a.logTranscripts
    ensures ApplyArgs(c, a) == c
  {
  }

  /** Layering the same options twice gives what layering them once gave:
      each given option has already replaced its field. */
  lemma ApplyArgsIdempotent(c: Config, a: Args)
    ensures ApplyArgs(ApplyArgs(c, a), a) == ApplyArgs(c, a)
  {
  }

  /** `--no-enter` really turns Enter off even when the environment turned it on. */
  lemma ExplicitFalseOverrides(c: Config)
    requires c.pressEnter
    ensures !ApplyArgs(c, NoArgs.(pressEnter := Some(false))).pressEnter
  {
  }

  /** How the daemon's blocking `run()` ended: it returned, or an exception
      escaped it (`KeyboardInterrupt` among them). */
  datatype RunOutcome = RunReturned | RunRaised(exc: Exception)

  /** A run that `main()`'s `except KeyboardInterrupt` catches. */
  predicate Interrupted(run: RunOutcome) {
    run.RunRaised? && run.exc.KeyboardInterrupt?
  }

  /** What `main()` did: its return value, the configuration of the daemon
      it built (if any) and whether `stop()` was called on it; or an exception
      that escaped. */
  datatype MainOutcome =
    | Exited(code: int, daemon: Option<Config>, stopCalled: bool)
    | Crashed(exc: Exception)

  /** `main()` after argument parsing and `.env` loading: `env` is the
      environment at that point and `run` says how `daemon.run()` ended. */
  function MainExit(a: Args, env: Env, platform: string, run: RunOutcome): (r: MainOutcome)
    ensures FromEnv(env, platform).Raised? ==> r == Crashed(FromEnv(env, platform).exc)
    ensures FromEnv(env, platform).Ok? && !IsSet(env, "OPENAI_API_KEY") ==> r == Exited(1, None, false)
    ensures r.Exited? && r.code == 1 ==> r.daemon.None?
    ensures r.Exited? && r.daemon.Some? ==>
      FromEnv(env, platform).Ok? && r.daemon.value == ApplyArgs(FromEnv(env, platform).value, a)
    ensures r.Exited? ==> r.code == 0 || r.code == 1
    ensures r.Exited? && r.code == 0 <==>
      FromEnv(env, platform).Ok? && IsSet(env, "OPENAI_API_KEY") && (run.RunReturned? || Interrupted(run))
    ensures r.Exited? && r.stopCalled <==> r.Exited? && r.code == 0 && Interrupted(run)
    ensures FromEnv(env, platform).Ok? && IsSet(env, "OPENAI_API_KEY") && run.RunRaised? && !Interrupted(run) ==>
      r == Crashed(run.exc)
  {
    match FromEnv(env, platform)
    case Raised(e) => Crashed(e)
    case Ok(c) =>
      if !IsSet(env, "OPENAI_API_KEY") then Exited(1, None, false)
      else
        var config := ApplyArgs(c, a);
        match run
        case RunReturned => Exited(0, Some(config), false)
        case RunRaised(e) => if e.KeyboardInterrupt? then Exited(0, Some(config), true) else Crashed(e)
  }
}

=== FILE: config.dfy ===
/** Application configuration: the platform defaults, the `Config` record
    and how `Config.from_env` overrides it from the process environment. */
module Config {
  import opened Base
  import opened PyStr

  /** Numeric levels of the standard `logging` module. */
  const NotSet: int := 0
  const Debug: int := 10
  const Info: int := 20
  const Warning: int := 30
  const Error: int := 40
  const Critical: int := 50

  const DefaultModel: string := "gpt-4o-transcribe"
  const DefaultLanguage: string := "en"
  const DefaultSampleRate: int := 16000
  const DefaultChannels: int := 1
  const DefaultMaxSeconds: int := 60
  const DefaultLogFormat: string := "%(message)s"

  datatype Config = Config(
    pttKey: string,
    pttKeysym: Option<string>,
    pressEnter: bool,
    model: string,
    language: string,
    sampleRate: int,
    channels: int,
    maxRecordSeconds: int,
    logLevel: int,
    logFormat: string,
    logTranscripts: bool)

  /** The environment as seen by `os.getenv`: a name maps to its value. */
  type Env = map<string, string>

  /** `get_default_ptt_key()` for a `sys.platform` value: the evdev name of
      right Shift on Linux, the pynput name of right Shift everywhere else. */
  function DefaultPttKey(platform: string): (key: string)
    ensures platform == "linux" ==> key == "KEY_RIGHTSHIFT"
    ensures platform != "linux" ==> key == "shift_r"
  {
    if platform == "linux" then "KEY_RIGHTSHIFT"
    else if platform == "darwin" then "shift_r"
    else if platform == "win32" then "shift_r"
    else "shift_r"
  }

  /** `get_default_ptt_keysym()`: only Linux releases a key by keysym. */
  function DefaultPttKeysym(platform: string): (keysym: Option<string>)
    ensures keysym.Some? <==> platform == "linux"
    ensures keysym.Some? ==> keysym.value == "Shift_R"
  {
    if platform == "linux" then Some("Shift_R") else None
  }

  /** `Config()` with every field at its declared default. */
  function Defaults(platform: string): Config {
    Config(DefaultPttKey(platform), DefaultPttKeysym(platform), true, DefaultModel,
           DefaultLanguage, DefaultSampleRate, DefaultChannels, DefaultMaxSeconds,
           Info, DefaultLogFormat, false)
  }

  /** The walrus test `if value := os.getenv(name)`: the variable is present
      and not the empty string. */
  predicate IsSet(env: Env, name: string) {
    name in env && env[name] != ""
  }

  /** The boolean words accepted after lower-casing. */
  predicate IsTrueWord(value: string) {
    Lower(value) in {"true", "1", "yes"}
  }

  /** The upper-case names under which `logging` defines a level. */
  const LevelNames: set<string> := {"CRITICAL", "FATAL", "ERROR", "WARNING", "WARN", "INFO", "DEBUG", "NOTSET"}

  /** `getattr(logging, name.upper(), logging.INFO)` restricted to the level
      names the `logging` module defines: each names its level and any other
      name falls back to INFO. */

  function LevelByName(name: string): (level: int)
    ensures level in {NotSet, Debug, Info, Warning, Error, Critical}
    ensures Upper(name) in {"CRITICAL", "FATAL"} ==> level == Critical
    ensures Upper(name) == "ERROR" ==> level == Error
    ensures Upper(name) in {"WARNING", "WARN"} ==> level == Warning
    ensures Upper(name) == "INFO" ==> level == Info
    ensures Upper(name) == "DEBUG" ==> level == Debug
    ensures Upper(name) == "NOTSET" ==> level == NotSet
    ensures Upper(name) !in LevelNames ==> level == Info
  {
    var u := Upper(name);
    if u == "CRITICAL" || u == "FATAL" then Critical
    else if u == "ERROR" then Error
    else if u == "WARNING" || u == "WARN" then Warning
    else if u == "INFO" then Info
    else if u == "DEBUG" then Debug
    else if u == "NOTSET" then NotSet
    else Info
  }

  function OverrideText(env: Env, name: string, current: string): (v: string)
    ensures IsSet(env, name) ==> v == env[name]
    ensures !IsSet(env, name) ==> v == current
  {
    if IsSet(env, name) then env[name] else current
  }

  function OverrideFlag(env: Env, name: string, current: bool): (v: bool)
    ensures IsSet(env, name) ==> (v <==> IsTrueWord(env[name]))
    ensures !IsSet(env, name) ==> v == current
  {
    if IsSet(env, name) then IsTrueWord(env[name]) else current
  }

  function OverrideInt(env: Env, name: string, current: int): (v: Result<int>)
    ensures !IsSet(env, name) ==> v == Ok(current)
    ensures IsSet(env, name) ==> v == ParseInt(env[name])
  {
    if IsSet(env, name) then ParseInt(env[name]) else Ok(current)
  }

  /** `SPEECH_PTT_KEYSYM`: "none" in any case clears the keysym, any other
      non-empty value is taken verbatim. */
  function OverrideKeysym(env: Env, current: Option<string>): (v: Option<string>)
    ensures !IsSet(env, "SPEECH_PTT_KEYSYM") ==> v == current
    ensures IsSet(env, "SPEECH_PTT_KEYSYM") ==>
      (v.None? <==> Lower(env["SPEECH_PTT_KEYSYM"]) == "none")
    ensures v.Some? && IsSet(env, "SPEECH_PTT_KEYSYM") ==> v.value == env["SPEECH_PTT_KEYSYM"]
  {
    if IsSet(env, "SPEECH_PTT_KEYSYM") then
      var k := env["SPEECH_PTT_KEYSYM"];
      if Lower(k) != "none" then Some(k) else None
    else current
  }

  function OverrideLevel(env: Env, current: int): (v: int)
    ensures !IsSet(env, "SPEECH_LOG_LEVEL") ==> v == current
    ensures IsSet(env, "SPEECH_LOG_LEVEL") ==> v == LevelByName(env["SPEECH_LOG_LEVEL"])
  {
    if IsSet(env, "SPEECH_LOG_LEVEL") then LevelByName(env["SPEECH_LOG_LEVEL"]) else current
  }

  /** `Config.from_env()`: start from the defaults and override each field
      whose variable is set and non-empty. A sample rate or maximum duration
      that is not an integer raises `ValueError`. */
  function FromEnv(env: Env, platform: string): (r: Result<Config>)
    ensures r.Raised? <==>
      OverrideInt(env, "SPEECH_SAMPLE_RATE", DefaultSampleRate).Raised? ||
      OverrideInt(env, "SPEECH_MAX_SECONDS", DefaultMaxSeconds).Raised?
    ensures r.Raised? ==> r.exc.ValueError?
    ensures r.Ok? ==> r.value.channels == DefaultChannels
    ensures r.Ok? ==> r.value.logFormat == DefaultLogFormat
    ensures r.Ok? ==> r.value.pttKey == OverrideText(env, "SPEECH_PTT_KEY", DefaultPttKey(platform))
    ensures r.Ok? ==> r.value.pttKeysym == OverrideKeysym(env, DefaultPttKeysym(platform))
    ensures r.Ok? ==> r.value.pressEnter == OverrideFlag(env, "SPEECH_PRESS_ENTER", true)
    ensures r.Ok? ==> r.value.model == OverrideText(env, "SPEECH_MODEL", DefaultModel)
    ensures r.Ok? ==> r.value.language == OverrideText(env, "SPEECH_LANGUAGE", DefaultLanguage)
    ensures r.Ok? ==> r.value.sampleRate == OverrideInt(env, "SPEECH_SAMPLE_RATE", DefaultSampleRate).value
    ensures r.Ok? ==> r.value.maxRecordSeconds == OverrideInt(env, "SPEECH_MAX_SECONDS", DefaultMaxSeconds).value
    ensures r.Ok? ==> r.value.logLevel == OverrideLevel(env, Info)
    ensures r.Ok? ==> r.value.logTranscripts == OverrideFlag(env, "SPEECH_LOG_TRANSCRIPTS", false)
  {
    var d := Defaults(platform);
    var rate := OverrideInt(env, "SPEECH_SAMPLE_RATE", d.sampleRate);
    if rate.Raised? then Raised(rate.exc)
    else
      var maxSeconds := OverrideInt(env, "SPEECH_MAX_SECONDS", d.maxRecordSeconds);
      if maxSeconds.Raised? then Raised(maxSeconds.exc)
      else
        Ok(d.(pttKey := OverrideText(env, "SPEECH_PTT_KEY", d.pttKey),
              pttKeysym := OverrideKeysym(env, d.pttKeysym),
              pressEnter := OverrideFlag(env, "SPEECH_PRESS_ENTER", d.pressEnter),
              model := OverrideText(env, "SPEECH_MODEL", d.model),
              language := OverrideText(env, "SPEECH_LANGUAGE", d.language),
              sampleRate := rate.value,
              maxRecordSeconds := maxSeconds.value,
              logLevel := OverrideLevel(env, d.logLevel),
              logTranscripts := OverrideFlag(env, "SPEECH_LOG_TRANSCRIPTS", d.logTranscripts)))
  }

  /** The variables `from_env` reads. */
  const SpeechVariables: set<string> := {
    "SPEECH_PTT_KEY", "SPEECH_PTT_KEYSYM", "SPEECH_PRESS_ENTER", "SPEECH_MODEL",
    "SPEECH_LANGUAGE", "SPEECH_SAMPLE_RATE", "SPEECH_MAX_SECONDS", "SPEECH_LOG_LEVEL",
    "SPEECH_LOG_TRANSCRIPTS"}

  /** With none of its variables set, `from_env` yields the defaults. */
  lemma FromEnvDefaults(env: Env, platform: string)
    requires forall name :: name in SpeechVariables ==> !IsSet(env, name)
    ensures FromEnv(env, platform) == Ok(Defaults(platform))
    ensures FromEnv(env, platform).value.pressEnter
    ensures FromEnv(env, platform).value.model == "gpt-4o-transcribe"
    ensures FromEnv(env, platform).value.sampleRate == 16000
    ensures FromEnv(env, platform).value.maxRecordSeconds == 60
    ensures !FromEnv(env, platform).value.logTranscripts
  {
    assert !IsSet(env, "SPEECH_SAMPLE_RATE") && !IsSet(env, "SPEECH_MAX_SECONDS");
    assert !IsSet(env, "SPEECH_PTT_KEY") && !IsSet(env, "SPEECH_PTT_KEYSYM");
    assert !IsSet(env, "SPEECH_PRESS_ENTER") && !IsSet(env, "SPEECH_MODEL");
    assert !IsSet(env, "SPEECH_LANGUAGE") && !IsSet(env, "SPEECH_LOG_LEVEL");
    assert !IsSet(env, "SPEECH_LOG_TRANSCRIPTS");
  }

  /** Two environments that agree on which variables are set, and on the
      values of those. */
  ghost predicate SameSettings(e1: Env, e2: Env) {
    forall n :: (IsSet(e1, n) <==> IsSet(e2, n)) && (IsSet(e1, n) ==> e1[n] == e2[n])
  }

  lemma SameSetting(e1: Env, e2: Env, n: string)
    requires SameSettings(e1, e2)
    ensures (IsSet(e1, n) <==> IsSet(e2, n)) && (IsSet(e1, n) ==> e1[n] == e2[n])
  {
  }

  /** `from_env` only sees set, non-empty variables. */
  lemma FromEnvSeesSettingsOnly(e1: Env, e2: Env, platform: string)
    requires SameSettings(e1, e2)
    ensures FromEnv(e1, platform) == FromEnv(e2, platform)
  {
    var d := Defaults(platform);
    forall n | n in SpeechVariables
      ensures (IsSet(e1, n) <==> IsSet(e2, n)) && (IsSet(e1, n) ==> e1[n] == e2[n])
    {
      SameSetting(e1, e2, n);
    }
    assert OverrideInt(e1, "SPEECH_SAMPLE_RATE", d.sampleRate) == OverrideInt(e2, "SPEECH_SAMPLE_RATE", d.sampleRate);
    assert OverrideInt(e1, "SPEECH_MAX_SECONDS", d.maxRecordSeconds) == OverrideInt(e2, "SPEECH_MAX_SECONDS", d.maxRecordSeconds);
    assert OverrideText(e1, "SPEECH_PTT_KEY", d.pttKey) == OverrideText(e2, "SPEECH_PTT_KEY", d.pttKey);
    assert OverrideKeysym(e1, d.pttKeysym) == OverrideKeysym(e2, d.pttKeysym);
    assert OverrideFlag(e1, "SPEECH_PRESS_ENTER", d.pressEnter) == OverrideFlag(e2, "SPEECH_PRESS_ENTER", d.pressEnter);
    assert OverrideText(e1, "SPEECH_MODEL", d.model) == OverrideText(e2, "SPEECH_MODEL", d.model);
    assert OverrideText(e1, "SPEECH_LANGUAGE", d.language) == OverrideText(e2, "SPEECH_LANGUAGE", d.language);
    assert OverrideLevel(e1, d.logLevel) == OverrideLevel(e2, d.logLevel);
    assert OverrideFlag(e1, "SPEECH_LOG_TRANSCRIPTS", d.logTranscripts) == OverrideFlag(e2, "SPEECH_LOG_TRANSCRIPTS", d.logTranscripts);
  }

  /** A variable set to the empty string is the same as an absent one. */
  lemma EmptyMeansUnset(env: Env, name: string, platform: string)
    ensures FromEnv(env[name := ""], platform) == FromEnv(env - {name}, platform)
  {
    var e1 := env[name := ""];
    var e2 := env - {name};
    assert SameSettings(e1, e2) by {
      forall n ensures (IsSet(e1, n) <==> IsSet(e2, n)) && (IsSet(e1, n) ==> e1[n] == e2[n]) {
        if n != name {
          assert (n in e1 <==> n in env) && (n in e2 <==> n in env);
        }
      }
    }
    FromEnvSeesSettingsOnly(e1, e2, platform);
  }

  /** The boolean variables are true exactly for "true", "1" or "yes" in any
      ASCII case. */
  lemma TrueWords(value: string)
    ensures IsTrueWord(value) <==>
      EqualIgnoringCase(value, "true") || value == "1" || EqualIgnoringCase(value, "yes")
  {
    LowerEqualIff(value, "true");
    LowerEqualIff(value, "yes");
    LowerEqualIff(value, "1");
    assert Lower("true") == "true" && Lower("yes") == "yes" && Lower("1") == "1";
    if Lower(value) == "1" {
      assert |value| == 1;
      assert value[0] == '1';
    }
  }

  /** The environment that describes a configuration, one variable per
      field `from_env` reads; a missing keysym is written as "none". */
  function ToEnv(c: Config): (env: Env)
    ensures forall n :: n in env <==> n in SpeechVariables
    ensures forall n :: n in env ==> env[n] == EnvValue(c, n)
  {
    map n | n in SpeechVariables :: EnvValue(c, n)
  }

  /** The value `ToEnv` gives one variable. */
  function EnvValue(c: Config, name: string): string {
    if name == "SPEECH_PTT_KEY" then c.pttKey
    else if name == "SPEECH_PTT_KEYSYM" then (if c.pttKeysym.Some? then c.pttKeysym.value else "none")
    else if name == "SPEECH_PRESS_ENTER" then (if c.pressEnter then "true" else "false")
    else if name == "SPEECH_MODEL" then c.model
    else if name == "SPEECH_LANGUAGE" then c.language
    else if name == "SPEECH_SAMPLE_RATE" then IntToString(c.sampleRate)
    else if name == "SPEECH_MAX_SECONDS" then IntToString(c.maxRecordSeconds)
    else if name == "SPEECH_LOG_LEVEL" then LevelName(c.logLevel)
    else if c.logTranscripts then "true" else "false"
  }

  function LevelName(level: int): string {
    if level == Critical then "CRITICAL"
    else if level == Error then "ERROR"
    else if level == Warning then "WARNING"
    else if level == Debug then "DEBUG"
    else if level == NotSet then "NOTSET"
    else "INFO"
  }

  /** The configurations the environment can express. */
  predicate Expressible(c: Config) {
    && c.pttKey != ""
    && (c.pttKeysym.Some? ==> c.pttKeysym.value != "" && Lower(c.pttKeysym.value) != "none")
    && c.model != "" && c.language != ""
    && c.channels == DefaultChannels
    && c.logLevel in {NotSet, Debug, Info, Warning, Error, Critical}
    && c.logFormat == DefaultLogFormat
  }

  /** Reading back the environment written for a configuration gives that
      configuration, on every platform. */
  lemma FromEnvRoundTrip(c: Config, platform: string)
    requires Expressible(c)
    ensures FromEnv(ToEnv(c), platform) == Ok(c)
  {
    var env := ToEnv(c);
    var d := Defaults(platform);
    assert EnvValue(c, "SPEECH_SAMPLE_RATE") == IntToString(c.sampleRate);
    assert EnvValue(c, "SPEECH_MAX_SECONDS") == IntToString(c.maxRecordSeconds);
    IntRoundTrip(env, "SPEECH_SAMPLE_RATE", c.sampleRate, d.sampleRate);
    IntRoundTrip(env, "SPEECH_MAX_SECONDS", c.maxRecordSeconds, d.maxRecordSeconds);
    assert OverrideText(env, "SPEECH_PTT_KEY", d.pttKey) == c.pttKey;
    KeysymRoundTrip(c, d.pttKeysym);
    FlagRoundTrip(env, "SPEECH_PRESS_ENTER", c.pressEnter, d.pressEnter);
    FlagRoundTrip(env, "SPEECH_LOG_TRANSCRIPTS", c.logTranscripts, d.logTranscripts);
    assert OverrideText(env, "SPEECH_MODEL", d.model) == c.model;
    assert OverrideText(env, "SPEECH_LANGUAGE", d.language) == c.language;
    LevelRoundTrip(c.logLevel);
    assert OverrideLevel(env, d.logLevel) == c.logLevel;
  }

  lemma IntRoundTrip(env: Env, name: string, n: int, current: int)
    requires name in env && env[name] == IntToString(n)
    ensures OverrideInt(env, name, current) == Ok(n)
  {
    ParseIntRoundTrip(n);
    assert env[name] != "";
  }

  lemma KeysymRoundTrip(c: Config, current: Option<string>)
    requires Expressible(c)
    ensures OverrideKeysym(ToEnv(c), current) == c.pttKeysym
  {
    assert Lower("none") == "none";
  }

  lemma FlagRoundTrip(env: Env, name: string, b: bool, current: bool)
    requires name in env && env[name] == (if b then "true" else "false")
    ensures OverrideFlag(env, name, current) == b
  {
    assert Lower("true") == "true" && Lower("false") == "false";
  }

  lemma LevelRoundTrip(level: int)
    requires level in {NotSet, Debug, Info, Warning, Error, Critical}
    ensures LevelByName(LevelName(level)) == level
  {
    assert Upper("CRITICAL") == "CRITICAL" && Upper("ERROR") == "ERROR";
    assert Upper("WARNING") == "WARNING" && Upper("DEBUG") == "DEBUG";
    assert Upper("NOTSET") == "NOTSET" && Upper("INFO") == "INFO";
  }
}

=== FILE: daemon.dfy ===
/** The push-to-talk daemon: key-down starts the recorder, key-up and the
    watchdog finalize it (stop, save, transcribe, optionally release the key,
    type, delete the file). Each handler call is one atomic step from a daemon
    state to the next plus the collaborator calls it made. The watchdog thread
    and the listener share the recorder without a lock; the model only covers
    sequential interleavings of whole handler calls. */
module Daemon {
  import opened Base
  import opened Config
  import opened Audio
  import Wav
  import opened Transcription
  import opened Platforms
  import opened Effects

  datatype Daemon = Daemon(
    config: Config,
    recorder: Recorder,
    transcriber: Transcriber,
    platform: Option<HandlerKind>,
    running: bool)

  /** `PushToTalkDaemon(client, config)`: the recorder and the transcriber
      take their parameters from the configuration; no platform yet. */
  function NewDaemon(config: Config): (d: Daemon)
    ensures !Recording(d.recorder) && d.recorder.frames == []
    ensures d.recorder.sampleRate == config.sampleRate && d.recorder.channels == config.channels
    ensures d.recorder.maxSeconds == config.maxRecordSeconds
    ensures d.transcriber.model == config.model && d.transcriber.language == config.language
    ensures d.transcriber.logTranscripts == config.logTranscripts
    ensures d.platform.None? && !d.running
  {
    Daemon(config,
           NewRecorder(config.sampleRate, config.channels, config.maxRecordSeconds),
           Transcriber(config.model, config.language, config.logTranscripts),
           None, false)
  }

  /** One handler call: the state after it, the calls it made in order, and
      whether an exception escaped it. */
  datatype Step = Step(daemon: Daemon, effects: seq<Effect>, raised: bool)

  /** How `save_wav` turns out: the file is written; creating the temporary
      file raises; or writing it raises after the file exists. */
  datatype SaveOutcome = Saved | TempFileFails | WriteFails

  /** What the collaborators do during one finalize. */
  datatype World = World(
    save: SaveOutcome,
    response: Response,
    release: CallOutcome,
    typing: CallOutcome)

  /** Python truthiness of the optional keysym. */
  predicate HasKeysym(c: Config) {
    c.pttKeysym.Some? && c.pttKeysym.value != ""
  }

  /** The injection calls of a finalize whose transcript is non-empty and
      whose platform is set: the key release when a keysym is configured,
      then the typing unless the release raised; and whether an exception
      escaped. */
  function Inject(c: Config, transcript: string, w: World): (s: (seq<Effect>, bool))
    ensures |s.0| <= 2
    ensures forall k :: 0 <= k < |s.0| ==> s.0[k].ReleaseKey? || s.0[k].TypeText?
    ensures HasKeysym(c) <==> |s.0| >= 1 && s.0[0].ReleaseKey?
    ensures HasKeysym(c) ==> s.0[0] == ReleaseKey(c.pttKeysym.value)
    ensures (|s.0| >= 1 && s.0[|s.0| - 1] == TypeText(transcript, c.pressEnter)) <==>
      !(HasKeysym(c) && w.release.Fails?)
    ensures s.1 <==> if HasKeysym(c) && w.release.Fails? then true else w.typing.Fails?
  {
    var release := if HasKeysym(c) then [ReleaseKey(c.pttKeysym.value)] else [];
    if HasKeysym(c) && w.release.Fails? then (release, true)
    else (release + [TypeText(transcript, c.pressEnter)], w.typing.Fails?)
  }

  /** Without a keysym nothing is released: the injection is the one
      typing call, and it raises exactly when the typing does. */
  lemma InjectWithoutKeysym(c: Config, transcript: string, w: World)
    requires !HasKeysym(c)
    ensures Inject(c, transcript, w).0 == [TypeText(transcript, c.pressEnter)]
    ensures Inject(c, transcript, w).1 <==> w.typing.Fails?
  {
    var none: seq<Effect> := [];
    assert none + [TypeText(transcript, c.pressEnter)] == [TypeText(transcript, c.pressEnter)];
  }

  /** The audio a finalize of `d` gets from the recorder. */
  function StoppedAudio(d: Daemon): Option<seq<Row>> {
    Audio.Stop(d.recorder).audio
  }

  /** Whether a finalize of `d` under `w` reaches the typing stage. */
  predicate Injects(d: Daemon, w: World) {
    && StoppedAudio(d).Some?
    && w.save.Saved?
    && Transcribe(d.transcriber, w.response) != ""
    && d.platform.Some?
  }

  /** The calls of a saved finalize before the injection: the file is
      created, the WAV data written, and the transcription requested. */
  function SavedHead(d: Daemon, audio: seq<Row>): (h: seq<Effect>)
    ensures |h| == 3 && h[0] == TempFileCreated && h[1].WavWritten?
    ensures forall k :: 0 <= k < |h| ==> !h[k].ReleaseKey? && !h[k].TypeText?
    ensures h[2] == TranscribeRequest(d.transcriber.model, d.transcriber.language)
  {
    var wav := Wav.SaveWav(audio, d.config.sampleRate, d.config.channels);
    [TempFileCreated, WavWritten(wav.channels, wav.frameRate, |wav.data|),
     TranscribeRequest(d.transcriber.model, d.transcriber.language)]
  }

  /** The injection of a saved finalize: only when the transcript is
      non-empty and a platform is set. */
  function Injected(d: Daemon, w: World): (s: (seq<Effect>, bool))
    ensures forall k :: 0 <= k < |s.0| ==> s.0[k].ReleaseKey? || s.0[k].TypeText?
  {
    var transcript := Transcribe(d.transcriber, w.response);
    if transcript != "" && d.platform.Some? then Inject(d.config, transcript, w) else ([], false)
  }

  /** The calls of a finalize from the moment the WAV file is saved: the
      write, the upload, the injection when the transcript is non-empty and a
      platform is set, and the unlink in the cleanup block, which runs on
      every path out of the `try`; and whether an exception escaped. */
  function AfterSave(d: Daemon, audio: seq<Row>, w: World): (s: (seq<Effect>, bool))
    ensures |s.0| >= 4 && s.0[0] == TempFileCreated && s.0[|s.0| - 1] == Unlink
    ensures s.0[2] == TranscribeRequest(d.transcriber.model, d.transcriber.language)
    ensures s.1 == Injected(d, w).1
  {
    (SavedHead(d, audio) + (Injected(d, w).0 + [Unlink]), Injected(d, w).1)
  }

  /** `_finalize_recording()`. The recorder is stopped first and is idle
      afterwards; nothing else of the daemon changes. Without audio nothing
      else happens. A failure of `save_wav` escapes before the `try` block,
      so a file it already created stays behind. */
  function Finalize(d: Daemon, w: World): (s: Step)
    ensures !Recording(s.daemon.recorder)
    ensures s.daemon == d.(recorder := Audio.Stop(d.recorder).rec)
    ensures !Recording(d.recorder) ==> s == Step(d, [], false)
    ensures Recording(d.recorder) && StoppedAudio(d).None? ==> s.effects == [RecorderStop(false)] && !s.raised
    ensures Recording(d.recorder) ==> |s.effects| >= 1 && s.effects[0] == RecorderStop(StoppedAudio(d).Some?)
  {
    var stopped := Audio.Stop(d.recorder);
    var d1 := d.(recorder := stopped.rec);
    if !Recording(d.recorder) then Step(d, [], false)
    else
      match stopped.audio
      case None => Step(d1, [RecorderStop(false)], false)
      case Some(audio) =>
        match w.save
        case TempFileFails => Step(d1, [RecorderStop(true)], true)
        case WriteFails => Step(d1, [RecorderStop(true), TempFileCreated], true)
        case Saved =>
          var after := AfterSave(d, audio, w);
          Step(d1, [RecorderStop(true)] + after.0, after.1)
  }

  /** The temporary file exists once `save_wav` got past creating it; once
      the save succeeded, the file is unlinked, as the last call, whatever
      the transcription, release or typing did. A failed write leaves the
      file behind. */
  lemma FinalizeCleansUp(d: Daemon, w: World)
    ensures var s := Finalize(d, w);
      && (TempFileCreated in s.effects <==> StoppedAudio(d).Some? && !w.save.TempFileFails?)
      && (Unlink in s.effects <==> StoppedAudio(d).Some? && w.save.Saved?)
      && (StoppedAudio(d).Some? && w.save.Saved? ==> s.effects[|s.effects| - 1] == Unlink)
  {
    var s := Finalize(d, w);
    if Recording(d.recorder) && StoppedAudio(d).Some? && w.save.Saved? {
      var after := AfterSave(d, StoppedAudio(d).value, w);
      assert s.effects == [RecorderStop(true)] + after.0;
      assert s.effects[1] == TempFileCreated;
      assert s.effects[|s.effects| - 1] == after.0[|after.0| - 1];
    }
  }

  /** The upload happens exactly when the file was saved, and it carries the
      configured model and language. */
  lemma FinalizeRequest(d: Daemon, w: World)
    requires d.transcriber == Transcriber(d.config.model, d.config.language, d.config.logTranscripts)
    ensures var s := Finalize(d, w);
      TranscribeRequest(d.config.model, d.config.language) in s.effects <==> StoppedAudio(d).Some? && w.save.Saved?
  {
    var s := Finalize(d, w);
    if Recording(d.recorder) && StoppedAudio(d).Some? && w.save.Saved? {
      var after := AfterSave(d, StoppedAudio(d).value, w);
      assert s.effects == [RecorderStop(true)] + after.0;
      assert s.effects[3] == after.0[2];
    }
  }

  /** What gets injected into the focused window: nothing unless the file
      was saved, the transcript is non-empty and a platform is set; then the
      key release first when a keysym is configured, and exactly one typing
      of the transcript with the configured Enter setting unless the release
      raised. */
  lemma FinalizeInjections(d: Daemon, w: World)
    ensures Injections(Finalize(d, w).effects) ==
      if Injects(d, w) then Inject(d.config, Transcribe(d.transcriber, w.response), w).0 else []
  {
    var s := Finalize(d, w);
    if Recording(d.recorder) && StoppedAudio(d).Some? {
      match w.save
      case TempFileFails =>
        NoInjections(s.effects);
      case WriteFails =>
        NoInjections(s.effects);
      case Saved =>
        var after := AfterSave(d, StoppedAudio(d).value, w);
        assert s.effects == [RecorderStop(true)] + after.0;
        InjectionsAppend([RecorderStop(true)], after.0);
        NoInjections([RecorderStop(true)]);
        AfterSaveInjections(d, StoppedAudio(d).value, w);
        assert Injections(s.effects) == Injected(d, w).0;
    } else {
      NoInjections(s.effects);
    }
  }

  /** The saved part of a finalize makes no recorder call. */
  lemma AfterSaveLeavesRecorder(d: Daemon, audio: seq<Row>, w: World)
    ensures var e := AfterSave(d, audio, w).0;
      forall k :: 0 <= k < |e| ==> !e[k].RecorderStart? && !e[k].RecorderStop?
  {
    var head := SavedHead(d, audio);
    var injected := Injected(d, w).0;
    var e := AfterSave(d, audio, w).0;
    assert e == head + (injected + [Unlink]);
    forall k | 0 <= k < |e|
      ensures !e[k].RecorderStart? && !e[k].RecorderStop?
    {
      if k < 3 {
        assert e[k] == head[k];
      } else if k < 3 + |injected| {
        assert e[k] == injected[k - 3];
      }
    }
  }

  /** The injections of the saved part of a finalize. */
  lemma AfterSaveInjections(d: Daemon, audio: seq<Row>, w: World)
    ensures Injections(AfterSave(d, audio, w).0) == Injected(d, w).0
  {
    FramedInjections(SavedHead(d, audio), Injected(d, w).0);
  }

  /** Between calls that inject nothing and a closing unlink, the injection
      calls are exactly the middle part. */
  lemma FramedInjections(head: seq<Effect>, middle: seq<Effect>)
    requires forall k :: 0 <= k < |head| ==> !head[k].ReleaseKey? && !head[k].TypeText?
    requires forall k :: 0 <= k < |middle| ==> middle[k].ReleaseKey? || middle[k].TypeText?
    ensures Injections(head + (middle + [Unlink])) == middle
  {
    InjectionsAppend(head, middle + [Unlink]);
    InjectionsAppend(middle, [Unlink]);
    InjectionsOnly(middle);
    NoInjections(head);
    NoInjections([Unlink]);
  }

  /** Calls other than releases and typing inject nothing. */
  lemma {:induction false} NoInjections(effects: seq<Effect>)
    requires forall k :: 0 <= k < |effects| ==> !effects[k].ReleaseKey? && !effects[k].TypeText?
    ensures Injections(effects) == []
  {
    if effects != [] {
      NoInjections(effects[1..]);
    }
  }

  /** An exception escapes a finalize exactly when there was audio and the
      save failed, or the release or the typing raised. */
  lemma FinalizeRaises(d: Daemon, w: World)
    ensures Finalize(d, w).raised <==>
      StoppedAudio(d).Some? &&
      (!w.save.Saved? || (Injects(d, w) && Inject(d.config, Transcribe(d.transcriber, w.response), w).1))
  {
  }

  /** A sequence of release and typing calls is its own injection list. */
  lemma {:induction false} InjectionsOnly(effects: seq<Effect>)
    requires forall k :: 0 <= k < |effects| ==> effects[k].ReleaseKey? || effects[k].TypeText?
    ensures Injections(effects) == effects
  {
    if effects != [] {
      InjectionsOnly(effects[1..]);
    }
  }

  /** The recorder side of `_on_key_down()`, the same in both daemons:
      nothing while recording; otherwise exactly one `start()` call, whose
      exception is caught and logged. */
  function KeyDown(rec: Recorder, now: real, outcome: StreamOutcome): (r: (Recorder, seq<Effect>))
    ensures Recording(rec) ==> r == (rec, [])
    ensures !Recording(rec) ==>
      r.0 == Audio.Start(rec, now, outcome).rec && r.1 == [RecorderStart(Recording(r.0))]
  {
    if Recording(rec) then (rec, [])
    else
      var started := Audio.Start(rec, now, outcome).rec;
      (started, [RecorderStart(Recording(started))])
  }

  /** `_on_key_down()`: nothing while recording; otherwise exactly one
      `start()` call, whose exception is caught, never propagated. */
  function OnKeyDown(d: Daemon, now: real, outcome: StreamOutcome): (s: Step)
    ensures !s.raised
    ensures Recording(d.recorder) ==> s == Step(d, [], false)
    ensures !Recording(d.recorder) ==>
      s.effects == [RecorderStart(Recording(s.daemon.recorder))] &&
      s.daemon == d.(recorder := Audio.Start(d.recorder, now, outcome).rec)
  {
    var k := KeyDown(d.recorder, now, outcome);
    Step(d.(recorder := k.0), k.1, false)
  }

  /** `_on_key_up()`: nothing at all while not recording (no stop, save,
      transcription or typing); otherwise one finalize. */
  function OnKeyUp(d: Daemon, w: World): (s: Step)
    ensures !Recording(d.recorder) ==> s == Step(d, [], false)
    ensures Recording(d.recorder) ==> s == Finalize(d, w)
    ensures !Recording(s.daemon.recorder)
  {
    if !Recording(d.recorder) then Step(d, [], false) else Finalize(d, w)
  }

  /** `_on_key_event(is_pressed)`: `True` goes to key-down and `False` to
      key-up, and nothing else happens. */
  function OnKeyEvent(d: Daemon, isPressed: bool, now: real, outcome: StreamOutcome, w: World): (s: Step)
    ensures EdgeOf(isPressed) == Down ==> s == OnKeyDown(d, now, outcome)
    ensures EdgeOf(isPressed) == Up ==> s == OnKeyUp(d, w)
  {
    if isPressed then OnKeyDown(d, now, outcome) else OnKeyUp(d, w)
  }

  /** One iteration of `_duration_check_loop` at time `now`: the loop has
      ended once `running` is false; otherwise it finalizes exactly when
      recording and the maximum duration is reached. */
  function WatchdogTick(d: Daemon, now: real, w: World): (s: Step)
    ensures !d.running ==> s == Step(d, [], false)
    ensures d.running && HasReachedMaxDuration(d.recorder, now) ==> s == Finalize(d, w)
    ensures !HasReachedMaxDuration(d.recorder, now) ==> s == Step(d, [], false)
  {
    if d.running && Recording(d.recorder) && HasReachedMaxDuration(d.recorder, now)
    then Finalize(d, w)
    else Step(d, [], false)
  }

  /** The recorder's stream callback while the daemon runs: a block arrives
      only from a stream that was started. */
  function AudioCallback(d: Daemon, block: Block): (s: Step)
    ensures s.effects == [] && !s.raised
    ensures s.daemon.recorder.stream == d.recorder.stream
    ensures d.recorder.stream.Some? && d.recorder.stream.value.started ==>
      s.daemon.recorder.frames == d.recorder.frames + [block]
    ensures !(d.recorder.stream.Some? && d.recorder.stream.value.started) ==> s.daemon == d
  {
    if d.recorder.stream.Some? && d.recorder.stream.value.started
    then Step(d.(recorder := Capture(d.recorder, block)), [], false)
    else Step(d, [], false)
  }

  /** The part of `run()` before it blocks in `start_listening`: the handler
      for `platform` is built and `running` set; an unsupported platform
      raises before either happens. */
  function RunStart(d: Daemon, platform: string): (r: Result<Daemon>)
    ensures r.Raised? <==> GetPlatformHandler(platform).Raised?
    ensures r.Raised? ==> r.exc.NotImplementedError?
    ensures r.Ok? ==> r.value == d.(platform := Some(GetPlatformHandler(platform).value), running := true)
  {
    match GetPlatformHandler(platform)
    case Raised(e) => Raised(e)
    case Ok(h) => Ok(d.(platform := Some(h), running := true))
  }

  /** The `finally` block of `run()`: whatever ended the listener, `running`
      is cleared. */
  function RunExit(d: Daemon): (d': Daemon)
    ensures !d'.running
    ensures d' == d.(running := false)
  {
    d.(running := false)
  }

  /** `stop()`: `running` is cleared, and the listener is stopped only when
      a platform exists. */
  function StopDaemon(d: Daemon): (s: Step)
    ensures !s.daemon.running && !s.raised
    ensures s.daemon == d.(running := false)
    ensures s.effects == (if d.platform.Some? then [StopListening] else [])
  {
    Step(d.(running := false), if d.platform.Some? then [StopListening] else [], false)
  }

  /** One handler call the running daemon can receive. */
  datatype Event =
    | KeyEvent(isPressed: bool, now: real, outcome: StreamOutcome, world: World)
    | Tick(now: real, world: World)
    | AudioBlock(block: Block)

  function Apply(d: Daemon, e: Event): Step {
    match e
    case KeyEvent(p, now, outcome, w) => OnKeyEvent(d, p, now, outcome, w)
    case Tick(now, w) => WatchdogTick(d, now, w)
    case AudioBlock(b) => AudioCallback(d, b)
  }

  /** Handler calls one after another. An exception that escapes a handler
      does not end the run: the Linux loop catches `OSError` and goes on
      with the next poll, and a failing watchdog tick ends only its own
      thread. So every later event is still handled on the state the failed
      call left, and `raised` records that some call raised. A run in which
      a listener does stop after an exception is the replay of a shorter
      event sequence. */
  function Replay(d: Daemon, events: seq<Event>): Step
    decreases |events|
  {
    if events == [] then Step(d, [], false)
    else
      var before := Replay(d, events[..|events| - 1]);
      var s := Apply(before.daemon, events[|events| - 1]);
      Step(s.daemon, before.effects + s.effects, before.raised || s.raised)
  }

  /** Each handler call opens a session (a start that leaves the recorder
      recording) exactly when it turns an idle recorder into a recording one,
      and closes one (a stop) exactly when it turns a recording recorder
      idle; otherwise it marks nothing. */
  lemma StepMarks(d: Daemon, e: Event)
    ensures var s := Apply(d, e);
      SessionMarks(s.effects) ==
        if Recording(d.recorder) == Recording(s.daemon.recorder) then []
        else [Recording(s.daemon.recorder)]
  {
    var s := Apply(d, e);
    match e
    case KeyEvent(p, now, outcome, w) =>
      if p {
        if !Recording(d.recorder) {
          assert s.effects == [RecorderStart(Recording(s.daemon.recorder))];
          assert s.effects[1..] == [];
        }
      } else {
        FinalizeMarks(d, w);
      }
    case Tick(now, w) =>
      FinalizeMarks(d, w);
    case AudioBlock(b) =>
  }

  /** A finalize of a recording recorder marks one session end; of an idle
      one, nothing. */
  lemma FinalizeMarks(d: Daemon, w: World)
    ensures SessionMarks(Finalize(d, w).effects) == (if Recording(d.recorder) then [false] else [])
  {
    var s := Finalize(d, w);
    if Recording(d.recorder) {
      var tail := s.effects[1..];
      assert s.effects == [s.effects[0]] + tail;
      NoMarksAfterStop(d, w);
      assert SessionMarks(s.effects) == [false] + SessionMarks(tail);
    }
  }

  /** After its first call, a finalize makes no recorder calls. */
  lemma NoMarksAfterStop(d: Daemon, w: World)
    requires Recording(d.recorder)
    ensures SessionMarks(Finalize(d, w).effects[1..]) == []
  {
    var s := Finalize(d, w);
    if StoppedAudio(d).Some? && w.save.Saved? {
      var after := AfterSave(d, StoppedAudio(d).value, w);
      assert s.effects[1..] == after.0;
      AfterSaveLeavesRecorder(d, StoppedAudio(d).value, w);
      NoRecorderCalls(after.0);
    } else if StoppedAudio(d).Some? && w.save.WriteFails? {
      assert s.effects[1..] == [TempFileCreated];
    }
  }

  lemma {:induction false} NoRecorderCalls(effects: seq<Effect>)
    requires forall k :: 0 <= k < |effects| ==> !effects[k].RecorderStart? && !effects[k].RecorderStop?
    ensures SessionMarks(effects) == []
  {
    if effects != [] {
      NoRecorderCalls(effects[1..]);
    }
  }

  /** No double finalize, for sequential interleavings of whole handler
      calls: from an idle recorder, recording sessions open and close
      strictly alternately, and the recorder is recording at the end exactly
      when a session is still open. So no recording is finalized twice and
      no start happens while one is running. */
  lemma {:induction false} NoDoubleFinalize(d: Daemon, events: seq<Event>)
    requires !Recording(d.recorder)
    ensures var run := Replay(d, events);
      var marks := SessionMarks(run.effects);
      Alternating(marks) && (Recording(run.daemon.recorder) <==> |marks| % 2 == 1)
    decreases |events|
  {
    if events != [] {
      var before := Replay(d, events[..|events| - 1]);
      NoDoubleFinalize(d, events[..|events| - 1]);
      var s := Apply(before.daemon, events[|events| - 1]);
      assert Replay(d, events) == Step(s.daemon, before.effects + s.effects, before.raised || s.raised);
      StepMarks(before.daemon, events[|events| - 1]);
      SessionMarksAppend(before.effects, s.effects);
      AlternationStep(SessionMarks(before.effects), SessionMarks(s.effects),
                      Recording(before.daemon.recorder), Recording(s.daemon.recorder));
    }
  }

  /** Appending the marks of one step keeps the marks alternating and in
      step with the recorder. */
  lemma AlternationStep(m0: seq<bool>, m1: seq<bool>, before: bool, after: bool)
    requires Alternating(m0) && (before <==> |m0| % 2 == 1)
    requires m1 == if before == after then [] else [after]
    ensures Alternating(m0 + m1) && (after <==> |m0 + m1| % 2 == 1)
  {
    var m := m0 + m1;
    forall i | 0 <= i < |m|
      ensures m[i] == (i % 2 == 0)
    {
      if i < |m0| {
        assert m[i] == m0[i];
      }
    }
  }

  /** After a finalize the recorder is idle, so a following key-up or
      watchdog tick does nothing. */
  lemma AfterFinalizeIsQuiet(d: Daemon, w: World, now: real, w2: World)
    ensures var s := Finalize(d, w);
      OnKeyUp(s.daemon, w2) == Step(s.daemon, [], false) &&
      WatchdogTick(s.daemon, now, w2) == Step(s.daemon, [], false)
  {
  }

  /** A finished session with a shaped recording: the WAV writer receives
      the configured channels and rate and rows × channels × 2 payload
      bytes, the upload uses the configured model and language, and the
      transcript is typed exactly once, with the configured Enter setting,
      before the file is unlinked. */
  lemma FinalizeHappyPath(d: Daemon, w: World)
    requires Recording(d.recorder) && d.recorder.frames != []
    requires d.config.channels > 0
    requires d.transcriber == Transcriber(d.config.model, d.config.language, d.config.logTranscripts)
    requires Wav.Shaped(Flatten(d.recorder.frames), d.config.channels)
    requires w.save.Saved? && w.release.Returns? && w.typing.Returns?
    requires d.platform.Some? && !HasKeysym(d.config)
    requires w.response.Reply? && w.response.text.Some? && !PyStr.AllSpace(w.response.text.value)
    ensures var rows := |Flatten(d.recorder.frames)|;
      var text := PyStr.Strip(w.response.text.value);
      Finalize(d, w) == Step(
        d.(recorder := Audio.Stop(d.recorder).rec),
        [RecorderStop(true), TempFileCreated,
         WavWritten(d.config.channels, d.config.sampleRate, Wav.PayloadBytes(rows, d.config.channels)),
         TranscribeRequest(d.config.model, d.config.language),
         TypeText(text, d.config.pressEnter), Unlink],
        false)
  {
    var audio := Flatten(d.recorder.frames);
    var text := PyStr.Strip(w.response.text.value);
    assert StoppedAudio(d) == Some(audio);
    Wav.PayloadSize(audio, d.config.sampleRate, d.config.channels);
    var head := SavedHead(d, audio);
    var written := WavWritten(d.config.channels, d.config.sampleRate, Wav.PayloadBytes(|audio|, d.config.channels));
    assert head[1] == written;
    assert head == [TempFileCreated, written, TranscribeRequest(d.config.model, d.config.language)];
    assert Transcribe(d.transcriber, w.response) == text;
    InjectWithoutKeysym(d.config, text, w);
    var after := AfterSave(d, audio, w);
    assert after == (head + ([TypeText(text, d.config.pressEnter)] + [Unlink]), false);
    assert Finalize(d, w).effects == [RecorderStop(true)] + after.0;
  }
}

=== FILE: dashboard.dfy ===
/** The dashboard's handling of the `.env` file: reading the API key out of
    it, rewriting it with a new key, and the guards that refuse a blank key.
    The file system is a collaborator: the file's state before a call and
    whether writing it succeeds are parameters. */
module Dashboard {
  import opened Base
  import opened PyStr

  /** The `.env` file as the dashboard finds it. */
  datatype EnvFile = Missing | Unreadable | Contents(text: string)

  const KeyPrefix: string := "OPENAI_API_KEY="

  /** The line that assigns `key`. */
  function KeyLine(key: string): (line: string)
    ensures StartsWith(line, KeyPrefix) && line[|KeyPrefix|..] == key
  {
    KeyPrefix + key
  }

  /** Index of the first '=' in `s`, or `|s|` when there is none. */
  function FirstEquals(s: string): (i: nat)
    ensures i <= |s|
    ensures i < |s| ==> s[i] == '='
    ensures forall k :: 0 <= k < i ==> s[k] != '='
  {
    if s == [] then 0
    else if s[0] == '=' then 0
    else 1 + FirstEquals(s[1..])
  }

  /** `s.split("=", 1)[1]`: everything after the first '='. */
  function AfterFirstEquals(s: string): (rest: string)
    requires FirstEquals(s) < |s|
  {
    s[FirstEquals(s) + 1..]
  }

  /** The variable name contains no '=', so on an assignment line the split
      keeps everything after the prefix, later '=' signs included. */
  lemma SplitAfterPrefix(line: string)
    requires StartsWith(line, KeyPrefix)
    ensures FirstEquals(line) == |KeyPrefix| - 1
    ensures AfterFirstEquals(line) == line[|KeyPrefix|..]
  {
    assert line[..|KeyPrefix|] == KeyPrefix;
    assert line[|KeyPrefix| - 1] == '=';
    assert forall k :: 0 <= k < |KeyPrefix| - 1 ==> line[k] == KeyPrefix[k] && KeyPrefix[k] != '=';
  }

  /** `value[1:-1]` when the value starts and ends with the quote mark
      `quote`, else the value unchanged. Python's slice of a value shorter
      than two characters is empty. */
  function Unquote(value: string, quote: string): (v: string)
    ensures !(StartsWith(value, quote) && EndsWith(value, quote)) ==> v == value
    ensures StartsWith(value, quote) && EndsWith(value, quote) ==>
      |v| == (if |value| >= 2 then |value| - 2 else 0)
    ensures StartsWith(value, quote) && EndsWith(value, quote) && |value| >= 2 ==> v == value[1..|value| - 1]
    ensures StartsWith(value, quote) && EndsWith(value, quote) && |value| < 2 ==> v == ""
  {
    if StartsWith(value, quote) && EndsWith(value, quote) then
      if |value| >= 2 then value[1..|value| - 1] else ""
    else value
  }

  /** Quoting a value with a one-character mark and unquoting it gives the
      value back. */
  lemma UnquoteQuoted(inner: string, quote: string)
    requires |quote| == 1
    ensures Unquote(quote + inner + quote, quote) == inner
  {
  }

  /** The string line 210 really tests for: its quote marks open and close
      one triple-quoted literal, so the condition is a single `startswith`
      of this text and no `endswith` call is made. */
  const Line210Literal: string := ") and value.endswith("

  /** The quote stripping as line 210 is written. */
  function UnquoteAsWritten(value: string): (v: string)
    ensures StartsWith(value, Line210Literal) ==> |v| == |value| - 2
    ensures !StartsWith(value, Line210Literal) ==> v == value
  {
    if StartsWith(value, Line210Literal) then value[1..|value| - 1] else value
  }

  /** As written, a value that begins with anything but `)` (a quoted key
      among them) keeps its quotes, where the quote stripping removes them. */
  lemma AsWrittenKeepsQuotes(inner: string, quote: string)
    requires |quote| == 1 && quote[0] != ')'
    ensures UnquoteAsWritten(quote + inner + quote) == quote + inner + quote
    ensures Unquote(quote + inner + quote, quote) == inner
    ensures Unquote(quote + inner + quote, quote) != UnquoteAsWritten(quote + inner + quote)
  {
    var value := quote + inner + quote;
    assert value[0] == quote[0];
    assert !StartsWith(value, Line210Literal) by {
      if |Line210Literal| <= |value| {
        assert value[..|Line210Literal|][0] == value[0];
      }
    }
    UnquoteQuoted(inner, quote);
    assert |value| == |inner| + 2;
  }

  /** How the scan of `_load_api_key` treats one line. */
  datatype LineKind = Skipped | Assignment(value: string) | Other

  /** One line of the scan: stripped; blank and comment lines skipped; an
      assignment gives everything after the first '=', stripped and
      unquoted. */
  function ScanLine(raw: string, quote: string): (k: LineKind)
  {
    var line := Strip(raw);
    if line == "" || StartsWith(line, "#") then Skipped
    else if StartsWith(line, KeyPrefix) then
      SplitAfterPrefix(line);
      Assignment(Unquote(Strip(AfterFirstEquals(line)), quote))
    else Other
  }

  /** The scan: the value of the first assignment, if any. */
  function FindKey(lines: seq<string>, quote: string): (v: Option<string>)
    decreases |lines|
  {
    if lines == [] then None
    else
      match ScanLine(lines[0], quote)
      case Assignment(value) => Some(value)
      case _ => FindKey(lines[1..], quote)
  }

  /** A line counts for the scan when, stripped, it starts with the prefix. */
  predicate Assigns(line: string) {
    StartsWith(Strip(line), KeyPrefix)
  }

  /** The value an assigning line gives. */
  function ValueOf(line: string, quote: string): string
    requires Assigns(line)
  {
    Unquote(Strip(Strip(line)[|KeyPrefix|..]), quote)
  }

  /** Blank and comment lines are skipped, but they would not assign
      anyway: a line is an assignment exactly when it assigns. */
  lemma ScanLineAssigns(raw: string, quote: string)
    ensures ScanLine(raw, quote).Assignment? <==> Assigns(raw)
    ensures Assigns(raw) ==> ScanLine(raw, quote) == Assignment(ValueOf(raw, quote))
  {
    var line := Strip(raw);
    if Assigns(raw) {
      assert line[0] == line[..|KeyPrefix|][0] == 'O';
      assert !StartsWith(line, "#");
      SplitAfterPrefix(line);
    }
  }

  /** The scan looks for the first assigning line. */
  lemma FindKeyStep(lines: seq<string>, quote: string)
    requires lines != []
    ensures FindKey(lines, quote) ==
      if Assigns(lines[0]) then Some(ValueOf(lines[0], quote)) else FindKey(lines[1..], quote)
  {
    ScanLineAssigns(lines[0], quote);
  }

  /** The first assigning line decides the value. */
  lemma {:induction false} FindKeyFirst(lines: seq<string>, j: nat, quote: string)
    requires j < |lines| && Assigns(lines[j])
    requires forall i :: 0 <= i < j ==> !Assigns(lines[i])
    ensures FindKey(lines, quote) == Some(ValueOf(lines[j], quote))
  {
    FindKeyStep(lines, quote);
    if j == 0 {
      assert FindKey(lines, quote) == Some(ValueOf(lines[0], quote));
    } else {
      assert !Assigns(lines[0]);
      var rest := lines[1..];
      assert rest[j - 1] == lines[j];
      forall i | 0 <= i < j - 1
        ensures !Assigns(rest[i])
      {
        assert 0 <= i + 1 < j;
        assert !Assigns(lines[i + 1]);
        assert rest[i] == lines[i + 1];
      }
      FindKeyFirst(rest, j - 1, quote);
      assert FindKey(lines, quote) == FindKey(rest, quote);
    }
  }

  /** Without an assigning line the scan finds nothing, and conversely. */
  lemma {:induction false} FindKeyNone(lines: seq<string>, quote: string)
    ensures FindKey(lines, quote).None? <==> forall j :: 0 <= j < |lines| ==> !Assigns(lines[j])
  {
    if lines != [] {
      FindKeyStep(lines, quote);
      var rest := lines[1..];
      FindKeyNone(rest, quote);
      NoneAssignsStep(lines);
      if !Assigns(lines[0]) {
        assert FindKey(lines, quote) == FindKey(rest, quote);
      }
    }
  }

  /** No line of `lines` assigns. */
  predicate NoneAssigns(lines: seq<string>) {
    forall j :: 0 <= j < |lines| ==> !Assigns(lines[j])
  }

  lemma NoneAssignsStep(lines: seq<string>)
    requires lines != []
    ensures NoneAssigns(lines) <==> !Assigns(lines[0]) && NoneAssigns(lines[1..])
  {
    var rest := lines[1..];
    if !Assigns(lines[0]) && NoneAssigns(rest) {
      forall j | 1 <= j < |lines|
        ensures !Assigns(lines[j])
      {
        assert lines[j] == rest[j - 1];
      }
    }
  }

  /** `_load_api_key()`: "" for a missing or unreadable file and for a file
      without an assignment; otherwise the first assignment's value. */
  function LoadApiKey(f: EnvFile, quote: string): (key: string)
    ensures !f.Contents? ==> key == ""
    ensures f.Contents? && FindKey(SplitLines(f.text), quote).None? ==> key == ""
    ensures f.Contents? && FindKey(SplitLines(f.text), quote).Some? ==> key == FindKey(SplitLines(f.text), quote).value
  {
    match f
    case Missing => ""
    case Unreadable => ""
    case Contents(text) =>
      match FindKey(SplitLines(text), quote)
      case None => ""
      case Some(v) => v
  }

  /** Some line starts, exactly, with the prefix. */
  predicate HasKeyLine(lines: seq<string>) {
    exists j :: 0 <= j < |lines| && StartsWith(lines[j], KeyPrefix)
  }

  /** The lines `_write_api_key` writes: every line that starts with the
      prefix becomes the new assignment, every other line is kept verbatim
      and in place; when none matched, one assignment is appended. */
  function NewLines(existing: seq<string>, key: string): (lines: seq<string>)
    ensures HasKeyLine(existing) ==> |lines| == |existing|
    ensures !HasKeyLine(existing) ==> |lines| == |existing| + 1 && lines[|existing|] == KeyLine(key)
    ensures forall j :: 0 <= j < |existing| && StartsWith(existing[j], KeyPrefix) ==> lines[j] == KeyLine(key)
    ensures forall j :: 0 <= j < |existing| && !StartsWith(existing[j], KeyPrefix) ==> lines[j] == existing[j]
  {
    var replaced := seq(|existing|, j requires 0 <= j < |existing| =>
      if StartsWith(existing[j], KeyPrefix) then KeyLine(key) else existing[j]);
    if HasKeyLine(existing) then replaced else replaced + [KeyLine(key)]
  }

  /** The new assignment is among the written lines, whatever was there. */
  lemma NewLinesHaveKey(existing: seq<string>, key: string)
    ensures KeyLine(key) in NewLines(existing, key)
  {
    var lines := NewLines(existing, key);
    if HasKeyLine(existing) {
      var j :| 0 <= j < |existing| && StartsWith(existing[j], KeyPrefix);
      assert lines[j] == KeyLine(key);
    } else {
      assert lines[|existing|] == KeyLine(key);
    }
  }

  /** `"\n".join(lines)`, with a newline added when the text is non-empty
      and does not already end with one. */
  function FileText(lines: seq<string>): (text: string)
    ensures Join(lines) <= text
    ensures text != "" ==> EndsWith(text, "\n")
  {
    var text := Join(lines);
    if text != "" && !EndsWith(text, "\n") then text + "\n" else text
  }

  /** `_write_api_key(key)`: the existing lines (none when the file is
      missing) rewritten, joined and written back. Reading an unreadable
      file or writing the file raises `OSError`. */
  function WriteApiKey(f: EnvFile, key: string, write: CallOutcome): (r: Result<string>)
    ensures r.Raised? <==> f.Unreadable? || write.Fails?
    ensures r.Raised? ==> r.exc == OSError
    ensures r.Ok? ==> r.value == FileText(NewLines(if f.Contents? then SplitLines(f.text) else [], key))
  {
    if f.Unreadable? then Raised(OSError)
    else
      var existing := if f.Contents? then SplitLines(f.text) else [];
      var text := FileText(NewLines(existing, key));
      if write.Fails? then Raised(OSError) else Ok(text)
  }

  /** Whatever was in the file, the written text is non-empty and ends with
      a newline. */
  lemma WrittenTextIsTerminated(f: EnvFile, key: string)
    requires !f.Unreadable?
    ensures WriteApiKey(f, key, Returns).Ok?
    ensures WriteApiKey(f, key, Returns).value != "" && EndsWith(WriteApiKey(f, key, Returns).value, "\n")
  {
    var existing := if f.Contents? then SplitLines(f.text) else [];
    var lines := NewLines(existing, key);
    NewLinesHaveKey(existing, key);
    var j :| 0 <= j < |lines| && lines[j] == KeyLine(key);
    JoinContains(lines, j);
  }

  /** Every line shows up in the joined text, so a non-empty line makes it
      non-empty. */
  lemma {:induction false} JoinContains(lines: seq<string>, j: int)
    requires 0 <= j < |lines| && lines[j] != ""
    ensures Join(lines) != ""
  {
    var n := |lines|;
    if n > 1 {
      if j == n - 1 {
        assert |Join(lines)| >= |lines[n - 1]|;
      } else {
        JoinContains(lines[..n - 1], j);
      }
    }
  }

  /** Reading back what was written: `splitlines` gives the written lines,
      except that a final empty line merges into the final newline. */
  lemma Reread(lines: seq<string>)
    requires |lines| >= 1 && lines[|lines| - 1] != ""
    requires forall j :: 0 <= j < |lines| ==> NoLineBreak(lines[j])
    ensures SplitLines(FileText(lines)) == lines
  {
    var last := lines[|lines| - 1];
    JoinEndsWithLast(lines);
    assert Join(lines)[|Join(lines)| - 1] == last[|last| - 1];
    assert !EndsWith(Join(lines), "\n") by {
      assert !IsLineBreak(last[|last| - 1]);
    }
    JoinNewline(lines);
    SplitTerminated(lines);
  }

  /** Reading back when the last line is empty. */
  lemma RereadTrailingEmpty(lines: seq<string>)
    requires |lines| >= 2 && lines[|lines| - 1] == ""
    requires forall j :: 0 <= j < |lines| ==> NoLineBreak(lines[j])
    ensures SplitLines(FileText(lines)) == lines[..|lines| - 1]
  {
    var init := lines[..|lines| - 1];
    JoinTrailingEmpty(lines);
    if init != [] {
      JoinNewline(init);
    }
    SplitTerminated(init);
  }

  /** A line that does not start with the prefix but does once stripped:
      an assignment behind leading whitespace, which the rewrite does not
      replace but the scan reads. */
  predicate HiddenAssignment(line: string) {
    !StartsWith(line, KeyPrefix) && Assigns(line)
  }

  /** An assignment line of a trimmed key is its own strip. */
  lemma KeyLineTrimmed(key: string)
    requires Trimmed(key)
    ensures Strip(KeyLine(key)) == KeyLine(key)
  {
    var line := KeyLine(key);
    assert line[0] == 'O';
    if key != [] {
      assert line[|line| - 1] == key[|key| - 1];
    }
    StripTrimmed(line);
  }

  /** The assignment line of a plain key gives back the key. */
  lemma KeyLineValue(key: string, quote: string)
    requires Trimmed(key) && !(StartsWith(key, quote) && EndsWith(key, quote))
    ensures Assigns(KeyLine(key)) && ValueOf(KeyLine(key), quote) == key
  {
    KeyLineTrimmed(key);
    StripTrimmed(key);
  }

  /** Lines each of which is either the assignment of `key` or not an
      assignment, with at least one of the former, scan to `key`. */
  lemma {:induction false} ScanFindsKey(lines: seq<string>, key: string, quote: string)
    requires Trimmed(key) && !(StartsWith(key, quote) && EndsWith(key, quote))
    requires KeyLine(key) in lines
    requires forall j :: 0 <= j < |lines| ==> lines[j] == KeyLine(key) || !Assigns(lines[j])
    ensures FindKey(lines, quote) == Some(key)
    decreases |lines|
  {
    FindKeyStep(lines, quote);
    if lines[0] == KeyLine(key) {
      KeyLineValue(key, quote);
    } else {
      assert KeyLine(key) in lines[1..];
      assert forall j :: 0 <= j < |lines[1..]| ==> lines[1..][j] == lines[j + 1];
      ScanFindsKey(lines[1..], key, quote);
    }
  }

  /** The rewritten lines: none breaks a line, and each is the new
      assignment or assigns nothing. */
  lemma NewLinesShape(existing: seq<string>, key: string)
    requires NoLineBreak(key)
    requires forall j :: 0 <= j < |existing| ==> NoLineBreak(existing[j]) && !HiddenAssignment(existing[j])
    ensures var lines := NewLines(existing, key);
      forall j :: 0 <= j < |lines| ==> NoLineBreak(lines[j]) && (lines[j] == KeyLine(key) || !Assigns(lines[j]))
  {
    var lines := NewLines(existing, key);
    assert NoLineBreak(KeyLine(key)) by {
      assert forall i :: |KeyPrefix| <= i < |KeyLine(key)| ==> KeyLine(key)[i] == key[i - |KeyPrefix|];
    }
    forall j | 0 <= j < |lines|
      ensures NoLineBreak(lines[j]) && (lines[j] == KeyLine(key) || !Assigns(lines[j]))
    {
      if j < |existing| && !StartsWith(existing[j], KeyPrefix) {
        assert lines[j] == existing[j];
      }
    }
  }

  /** Reading the written lines back keeps the new assignment and adds no
      other line. */
  lemma RereadKeepsKey(lines: seq<string>, key: string)
    requires KeyLine(key) in lines
    requires forall j :: 0 <= j < |lines| ==> NoLineBreak(lines[j]) && (lines[j] == KeyLine(key) || !Assigns(lines[j]))
    ensures var reread := SplitLines(FileText(lines));
      KeyLine(key) in reread &&
      forall j :: 0 <= j < |reread| ==> reread[j] == KeyLine(key) || !Assigns(reread[j])
  {
    var reread := SplitLines(FileText(lines));
    var n := |lines|;
    if lines[n - 1] != "" {
      Reread(lines);
      assert reread == lines;
    } else {
      RereadTrailingEmpty(lines);
      assert reread == lines[..n - 1];
      var j :| 0 <= j < n && lines[j] == KeyLine(key);
      assert KeyLine(key)[0] == 'O';
      assert j != n - 1;
      assert reread[j] == KeyLine(key);
      forall i | 0 <= i < |reread|
        ensures reread[i] == KeyLine(key) || !Assigns(reread[i])
      {
        assert reread[i] == lines[i];
      }
    }
  }

  /** Round trip: writing a key and loading it back gives the key, for a
      key without surrounding whitespace, line breaks or quote marks around
      it, when no existing line hides an assignment behind leading
      whitespace. */
  lemma WriteThenLoad(f: EnvFile, key: string, quote: string)
    requires !f.Unreadable?
    requires Trimmed(key) && NoLineBreak(key) && !(StartsWith(key, quote) && EndsWith(key, quote))
    requires f.Contents? ==> forall j :: 0 <= j < |SplitLines(f.text)| ==> !HiddenAssignment(SplitLines(f.text)[j])
    ensures WriteApiKey(f, key, Returns).Ok?
    ensures LoadApiKey(Contents(WriteApiKey(f, key, Returns).value), quote) == key
  {
    var existing := if f.Contents? then SplitLines(f.text) else [];
    var lines := NewLines(existing, key);
    NewLinesHaveKey(existing, key);
    NewLinesShape(existing, key);
    RereadKeepsKey(lines, key);
    ScanFindsKey(SplitLines(FileText(lines)), key, quote);
  }

  /** What `save_api_key` reports. */
  datatype SaveStatus = EnterKeyFirst | CouldNotSave | KeySaved(text: string)

  /** `save_api_key()` with `entry` the text of the key field: a blank
      entry is refused without touching the file; otherwise the stripped key
      is written, a write error only reported. */
  function SaveApiKey(entry: string, f: EnvFile, write: CallOutcome): (s: SaveStatus)
    ensures s == EnterKeyFirst <==> AllSpace(entry)
    ensures s.KeySaved? <==> !AllSpace(entry) && !f.Unreadable? && write.Returns?
    ensures s.KeySaved? ==> s.text == WriteApiKey(f, Strip(entry), write).value
  {
    var key := Strip(entry);
    if key == "" then EnterKeyFirst
    else
      match WriteApiKey(f, key, write)
      case Raised(_) => CouldNotSave
      case Ok(text) => KeySaved(text)
  }

  /** How `start_recording` gets past its guards, if it does. */
  datatype StartGate = AddKeyFirst | KeyNotSaved | BuildDaemon(text: string) | ReuseDaemon

  /** The guards of `start_recording()`: with a daemon already built it
      goes straight on; otherwise a blank entry stops it with no write, and
      a failed write stops it before any daemon is built. */
  function StartRecording(hasDaemon: bool, entry: string, f: EnvFile, write: CallOutcome): (g: StartGate)
    ensures hasDaemon <==> g == ReuseDaemon
    ensures g == AddKeyFirst <==> !hasDaemon && AllSpace(entry)
    ensures g.BuildDaemon? <==> !hasDaemon && !AllSpace(entry) && !f.Unreadable? && write.Returns?
    ensures g.BuildDaemon? ==> g.text == WriteApiKey(f, Strip(entry), write).value
  {
    if hasDaemon then ReuseDaemon
    else
      var key := Strip(entry);
      if key == "" then AddKeyFirst
      else
        match WriteApiKey(f, key, write)
        case Raised(_) => KeyNotSaved
        case Ok(text) => BuildDaemon(text)
  }

  /** Saving from the key field, then loading: the loaded key is the
      entry without its surrounding whitespace. */
  lemma SaveThenLoad(entry: string, f: EnvFile, quote: string)
    requires !AllSpace(entry) && !f.Unreadable?
    requires NoLineBreak(entry) && !(StartsWith(Strip(entry), quote) && EndsWith(Strip(entry), quote))
    requires f.Contents? ==> forall j :: 0 <= j < |SplitLines(f.text)| ==> !HiddenAssignment(SplitLines(f.text)[j])
    ensures SaveApiKey(entry, f, Returns).KeySaved?
    ensures LoadApiKey(Contents(SaveApiKey(entry, f, Returns).text), quote) == Strip(entry)
  {
    var key := Strip(entry);
    StripNoLineBreak(entry);
    WriteThenLoad(f, key, quote);
  }

  /** Stripping adds no line break. */
  lemma StripNoLineBreak(s: string)
    requires NoLineBreak(s)
    ensures NoLineBreak(Strip(s))
  {
    var l := LStrip(s);
    assert forall i :: 0 <= i < |l| ==> l[i] == s[|s| - |l| + i];
    var r := RStrip(l);
    assert forall i :: 0 <= i < |r| ==> r[i] == l[i];
  }
}

=== FILE: effects.dfy ===
/** The calls the core makes into collaborators it cannot see, recorded in
    order as a trace. Each step function of the daemons returns the calls it
    made; the properties are stated over those traces. */
module Effects {

  datatype Effect =
    /** `AudioRecorder.start()`; whether the recorder is recording afterwards. */
    | RecorderStart(recording: bool)
    /** `AudioRecorder.stop()` on a recording recorder; whether it returned audio. */
    | RecorderStop(gotAudio: bool)
    /** The named temporary file for the WAV data exists. */
    | TempFileCreated
    /** The `wave` writer received these parameters and this many payload bytes. */
    | WavWritten(channels: int, sampleRate: int, payloadBytes: nat)
    /** One transcription attempt: the transcriber's call, which uploads the
        file unless opening it fails first. */
    | TranscribeRequest(model: string, language: string)
    /** `PlatformHandler.release_key(key)`. */
    | ReleaseKey(key: string)
    /** `PlatformHandler.type_text(text, press_enter)`. */
    | TypeText(text: string, pressEnter: bool)
    /** `unlink(missing_ok=True)` of the temporary WAV file. */
    | Unlink
    /** `PlatformHandler.stop_listening()`. */
    | StopListening
    /** `subprocess.run(argv, check=True)`. */
    | Command(argv: seq<string>)
    /** `InputDevice.close()`. */
    | CloseDevice(path: string)

  /** The calls that inject input into the focused window, in order. */
  function Injections(effects: seq<Effect>): (r: seq<Effect>)
    ensures forall k :: 0 <= k < |r| ==> r[k].ReleaseKey? || r[k].TypeText?
    ensures |r| <= |effects|
  {
    if effects == [] then []
    else
      var rest := Injections(effects[1..]);
      if effects[0].ReleaseKey? || effects[0].TypeText? then [effects[0]] + rest else rest
  }

  lemma {:induction false} InjectionsAppend(a: seq<Effect>, b: seq<Effect>)
    ensures Injections(a + b) == Injections(a) + Injections(b)
  {
    if a == [] {
      assert a + b == b;
    } else {
      assert (a + b)[0] == a[0];
      assert (a + b)[1..] == a[1..] + b;
      InjectionsAppend(a[1..], b);
    }
  }

  /** Session boundaries: `true` for a start that left the recorder
      recording, `false` for a stop of a recording recorder. */
  function SessionMarks(effects: seq<Effect>): seq<bool>
  {
    if effects == [] then []
    else
      var rest := SessionMarks(effects[1..]);
      match effects[0]
      case RecorderStart(true) => [true] + rest
      case RecorderStop(_) => [false] + rest
      case _ => rest
  }

  lemma {:induction false} SessionMarksAppend(a: seq<Effect>, b: seq<Effect>)
    ensures SessionMarks(a + b) == SessionMarks(a) + SessionMarks(b)
  {
    if a == [] {
      assert a + b == b;
    } else {
      assert (a + b)[0] == a[0];
      assert (a + b)[1..] == a[1..] + b;
      SessionMarksAppend(a[1..], b);
    }
  }

  /** Starts and stops alternate, beginning with a start. */
  predicate Alternating(marks: seq<bool>) {
    forall i :: 0 <= i < |marks| ==> marks[i] == (i % 2 == 0)
  }
}

=== FILE: evdev.dfy ===
/** The evdev logic that the Linux handler and the older single-file daemon
    share: key-name resolution, device selection and the filtering of input
    events down to transitions of the push-to-talk key. Devices and the kernel's
    event stream are collaborators; what they report is data here. */
module Evdev {
  import opened Base

  /** `ecodes.EV_KEY`, the event type of key and button events. */
  const EvKey: int := 1

  /** A kernel input event: type, code and value (1 press, 0 release,
      2 autorepeat for keys). */
  datatype InputEvent = InputEvent(evType: int, code: int, value: int)

  /** The `EV_KEY` entry of `capabilities()`: a plain list of codes, or a
      mapping whose values are lists of codes. */
  datatype KeyCaps =
    | CodeList(codes: seq<int>)
    | CodeGroups(groups: map<int, seq<int>>)

  /** One path of `evdev.list_devices()`: whether opening it succeeds, and
      the device it opens (file descriptor and capability table). */
  datatype DeviceInfo = DeviceInfo(path: string, fd: int, opens: bool, caps: map<int, KeyCaps>)

  /** `ecodes.ecodes[key_name]`, raising `ValueError` for an unknown name;
      `table` is evdev's name-to-code table. */
  function ResolveKeycode(table: map<string, int>, keyName: string): (r: Result<int>)
    ensures keyName in table <==> r.Ok?
    ensures r.Ok? ==> r.value == table[keyName]
    ensures r.Raised? ==> r.exc.ValueError?
  {
    if keyName in table then Ok(table[keyName])
    else Raised(ValueError("Unknown key name: " + keyName))
  }

  /** The set of codes an `EV_KEY` entry lists. */
  function KeyCodes(caps: KeyCaps): set<int> {
    match caps
    case CodeList(codes) => set c | c in codes
    case CodeGroups(groups) => set g, c | g in groups && c in groups[g] :: c
  }

  /** `caps.get(EV_KEY, [])` as a set of codes. */
  function KeyCodesOf(d: DeviceInfo): set<int> {
    if EvKey in d.caps then KeyCodes(d.caps[EvKey]) else {}
  }

  /** The test applied to each opened device: it lists the push-to-talk
      code, or it has any `EV_KEY` entry at all. */
  predicate Selected(d: DeviceInfo, keyCode: int) {
    keyCode in KeyCodesOf(d) || EvKey in d.caps
  }

  /** Selection reduces to "opens and has an `EV_KEY` entry": the check for
      the code never admits a device the second check would reject. */
  lemma SelectedIffKeyDevice(d: DeviceInfo, keyCode: int)
    ensures Selected(d, keyCode) <==> EvKey in d.caps
  {
  }

  /** Reference definition of the selection: the listed devices that open
      and pass the test, in listing order. */
  function Kept(listed: seq<DeviceInfo>, keyCode: int): (kept: seq<DeviceInfo>)
    ensures |kept| <= |listed|
    ensures forall k :: 0 <= k < |kept| ==> kept[k] in listed && kept[k].opens && EvKey in kept[k].caps
  {
    if listed == [] then []
    else
      var init := Kept(listed[..|listed| - 1], keyCode);
      var d := listed[|listed| - 1];
      if d.opens && Selected(d, keyCode) then init + [d] else init
  }

  /** `_discover_devices()`: one pass over the listed paths, skipping those
      that fail to open and keeping those that pass the test, in order. */
  method DiscoverDevices(listed: seq<DeviceInfo>, keyCode: int) returns (devices: seq<DeviceInfo>)
    ensures devices == Kept(listed, keyCode)
    ensures forall k :: 0 <= k < |devices| ==> devices[k].opens && EvKey in devices[k].caps
  {
    devices := [];
    var i := 0;
    while i < |listed|
      invariant 0 <= i <= |listed|
      invariant devices == Kept(listed[..i], keyCode)
    {
      var d := listed[i];
      assert listed[..i + 1][..i] == listed[..i];
      if !d.opens {
        i := i + 1;
        continue;
      }
      if keyCode in KeyCodesOf(d) {
        devices := devices + [d];
        i := i + 1;
        continue;
      }
      if EvKey in d.caps {
        devices := devices + [d];
      }
      i := i + 1;
    }
    assert listed[..|listed|] == listed;
  }

  /** Every listed device that opens and lists the push-to-talk code is
      kept, and so is every other opened key device; nothing else is. */
  lemma {:induction false} KeptExactly(listed: seq<DeviceInfo>, keyCode: int, d: DeviceInfo)
    ensures d in Kept(listed, keyCode) <==> d in listed && d.opens && EvKey in d.caps
    ensures d in listed && d.opens && keyCode in KeyCodesOf(d) ==> d in Kept(listed, keyCode)
  {
    if listed != [] {
      var init := listed[..|listed| - 1];
      KeptExactly(init, keyCode, d);
      assert listed == init + [listed[|listed| - 1]];
    }
  }

  /** The callback argument a key event stands for: 1 is a press, 0 a
      release, anything else (autorepeat) nothing. */
  function Transition(value: int): (pressed: Option<bool>)
    ensures pressed == Some(true) <==> value == 1
    ensures pressed == Some(false) <==> value == 0
    ensures pressed.None? <==> value != 0 && value != 1
  {
    if value == 1 then Some(true) else if value == 0 then Some(false) else None
  }

  /** `_handle_event(event)`: the callback argument, if the callback is
      called; only `EV_KEY` events with the push-to-talk code count, and only
      when a callback is registered. */
  function HandleEvent(ev: InputEvent, keyCode: int, hasCallback: bool): (pressed: Option<bool>)
    ensures pressed.Some? <==> ev.evType == EvKey && ev.code == keyCode && hasCallback && (ev.value == 0 || ev.value == 1)
    ensures pressed.Some? ==> (pressed.value <==> ev.value == 1)
  {
    if ev.evType != EvKey then None
    else if ev.code != keyCode then None
    else if !hasCallback then None
    else Transition(ev.value)
  }

  /** The callback arguments a run of events produces, in order. */
  function Callbacks(events: seq<InputEvent>, keyCode: int, hasCallback: bool): (pressed: seq<bool>)
    ensures |pressed| <= |events|
  {
    if events == [] then []
    else
      var init := Callbacks(events[..|events| - 1], keyCode, hasCallback);
      match HandleEvent(events[|events| - 1], keyCode, hasCallback)
      case Some(p) => init + [p]
      case None => init
  }

  lemma {:induction false} CallbacksAppend(a: seq<InputEvent>, b: seq<InputEvent>, keyCode: int, hasCallback: bool)
    ensures Callbacks(a + b, keyCode, hasCallback) == Callbacks(a, keyCode, hasCallback) + Callbacks(b, keyCode, hasCallback)
    decreases |b|
  {
    if b == [] {
      assert a + b == a;
    } else {
      var b0 := b[..|b| - 1];
      assert (a + b)[..|a + b| - 1] == a + b0;
      assert (a + b)[|a + b| - 1] == b[|b| - 1];
      CallbacksAppend(a, b0, keyCode, hasCallback);
    }
  }

  /** Autorepeat and other keys never reach the callback: a run of events
      all of whose events are filtered out produces no callback. */
  lemma {:induction false} FilteredRunIsSilent(events: seq<InputEvent>, keyCode: int, hasCallback: bool)
    requires forall k :: 0 <= k < |events| ==>
      events[k].evType != EvKey || events[k].code != keyCode || (events[k].value != 0 && events[k].value != 1)
    ensures Callbacks(events, keyCode, hasCallback) == []
  {
    if events != [] {
      FilteredRunIsSilent(events[..|events| - 1], keyCode, hasCallback);
    }
  }

  /** `{dev.fd: dev for dev in devices}`: a later device with the same
      descriptor replaces an earlier one. */
  function FdMap(devices: seq<DeviceInfo>): (m: map<int, DeviceInfo>)
    ensures forall k :: 0 <= k < |devices| ==> devices[k].fd in m
    ensures forall fd :: fd in m ==> m[fd] in devices && m[fd].fd == fd
  {
    if devices == [] then map[]
    else
      var d := devices[|devices| - 1];
      FdMap(devices[..|devices| - 1])[d.fd := d]
  }

  /** The descriptor map is empty exactly when no device was kept. */
  lemma FdMapEmpty(devices: seq<DeviceInfo>)
    ensures FdMap(devices) == map[] <==> devices == []
  {
    if devices != [] {
      assert devices[0].fd in FdMap(devices);
    }
  }
}

=== FILE: features.dfy ===
/** The optional feature names the project recognises. */
module Features {

  const Dashboard: string := "dashboard"

  /** `Features.all()`. */
  function All(): seq<string> {
    [Dashboard]
  }

  /** `Features.is_valid(feature)`: membership in `All()`. */
  predicate IsValid(feature: string) {
    feature in All()
  }

  /** The only valid feature name is exactly "dashboard"; matching is
      case-sensitive, so "Dashboard" and "" are rejected. */
  lemma IsValidExactly(feature: string)
    ensures IsValid(feature) <==> feature == "dashboard"
    ensures IsValid("dashboard")
    ensures !IsValid("Dashboard") && !IsValid("")
  {
  }

  /** `All()` lists each valid feature exactly once, and only those. */
  lemma AllListsValidFeatures()
    ensures |All()| == 1
    ensures forall f :: f in All() <==> IsValid(f)
  {
  }
}

=== FILE: legacy.dfy ===
/** The older single-file daemon of `main.py`: evdev devices polled in one
    thread, the same recorder, a finalize that uploads with a fixed language
    and types through `xdotool` itself, and a `main` gated on the API key.
    Its settings come from the module-level constants of the root
    `config.py`. Devices, `select`, the upload and the commands are
    collaborators; what they do is given as data. */
module Legacy {
  import opened Base
  import opened PyStr
  import opened Audio
  import Wav
  import opened Transcription
  import opened Effects
  import opened Evdev
  import opened Xdotool
  import Daemon

  /** The module-level settings of the root `config.py` the daemon reads. */
  datatype Settings = Settings(
    pttKey: string,
    pressEnter: bool,
    model: string,
    sampleRate: int,
    channels: int,
    maxRecordSeconds: int,
    logTranscripts: bool,
    pttKeysym: Option<string>)

  /** The root `config.py`. It defines no `PTT_KEYSYM`, so the lookup with a
      default of `None` finds none. */
  const RootSettings: Settings :=
    Settings("KEY_RIGHTALT", true, "gpt-4o-transcribe", 16000, 1, 10, false, None)

  /** The language every upload of this daemon asks for. */
  const RequestLanguage: string := "en"

  datatype LegacyDaemon = LegacyDaemon(
    pressEnter: bool,
    model: string,
    keysym: Option<string>,
    recorder: Recorder,
    keyCode: int,
    devices: seq<DeviceInfo>,
    fdToDevice: map<int, DeviceInfo>)

  /** The daemon `PushToTalkDaemon(...)` builds once the key name resolved. */
  function Built(s: Settings, table: map<string, int>, listed: seq<DeviceInfo>): LegacyDaemon
    requires s.pttKey in table
  {
    var devices := Kept(listed, table[s.pttKey]);
    LegacyDaemon(s.pressEnter, s.model, s.pttKeysym,
                 NewRecorder(s.sampleRate, s.channels, s.maxRecordSeconds),
                 table[s.pttKey], devices, FdMap(devices))
  }

  /** `PushToTalkDaemon(...)`: the key name is resolved first (an unknown
      name raises `ValueError`), then the devices are discovered and indexed
      by descriptor. Finding none is only logged. */
  method New(s: Settings, table: map<string, int>, listed: seq<DeviceInfo>) returns (r: Result<LegacyDaemon>)
    ensures s.pttKey !in table <==> r.Raised?
    ensures r.Raised? ==> r.exc == ValueError("Unknown key name: " + s.pttKey)
    ensures r.Ok? ==>
      && r.value.keyCode == table[s.pttKey]
      && r.value.devices == Kept(listed, table[s.pttKey])
      && r.value.fdToDevice == FdMap(r.value.devices)
      && r.value.recorder == NewRecorder(s.sampleRate, s.channels, s.maxRecordSeconds)
      && r.value.pressEnter == s.pressEnter && r.value.model == s.model && r.value.keysym == s.pttKeysym
  {
    match ResolveKeycode(table, s.pttKey)
    case Raised(e) =>
      r := Raised(e);
    case Ok(code) =>
      var devices := DiscoverDevices(listed, code);
      r := Ok(LegacyDaemon(s.pressEnter, s.model, s.pttKeysym,
                           NewRecorder(s.sampleRate, s.channels, s.maxRecordSeconds),
                           code, devices, FdMap(devices)));
  }

  /** One handler call: the state after it, the calls it made, and whether
      an exception escaped it. */
  datatype Step = Step(daemon: LegacyDaemon, effects: seq<Effect>, raised: bool)

  /** What the collaborators do during one finalize: how `_write_wav` ends
      (its failures are `OSError`s), what the upload produced, and whether
      the `type` command succeeds. A failing `keyup` is only logged, so its
      outcome changes nothing. */
  datatype World = World(save: Daemon.SaveOutcome, response: Response, typed: CallOutcome)

  /** Python truthiness of the optional keysym. */
  predicate Truthy(keysym: Option<string>) {
    keysym.Some? && keysym.value != ""
  }

  /** `_transcribe(wav_path)`: any exception gives "", a response without
      text or with empty text gives "", otherwise the text stripped. */
  function LegacyTranscribe(response: Response): (text: string)
    ensures !response.Reply? || response.text.None? ==> text == ""
    ensures Trimmed(text)
    ensures text != "" <==> response.Reply? && response.text.Some? && !AllSpace(response.text.value)
    ensures text != "" ==> text == Strip(response.text.value)
  {
    if response.Reply? && response.text.Some? then Strip(response.text.value) else ""
  }

  /** The older transcription agrees with the packaged transcriber
      configured with the same model and the fixed language. */
  lemma LegacyTranscribeAgrees(model: string, logTranscripts: bool, response: Response)
    ensures LegacyTranscribe(response) == Transcribe(Transcriber(model, RequestLanguage, logTranscripts), response)
  {
  }

  /** `_type_text(text)`: a `keyup` of the configured keysym first when one
      is set (its failure only logged), then the type command, then Return
      only after the type command succeeded and when Enter is configured.
      The command failures it catches never escape. */
  function TypeText(keysym: Option<string>, text: string, pressEnter: bool, typed: CallOutcome): (effects: seq<Effect>)
    ensures 1 <= |effects| <= 3
    ensures Truthy(keysym) ==> effects[0] == Command(KeyupCommand(keysym.value))
    ensures !Truthy(keysym) ==> effects[0] == Command(TypeCommand(text))
    ensures Truthy(keysym) ==> |effects| >= 2 && effects[1] == Command(TypeCommand(text))
    ensures Command(ReturnCommand) in effects <==> pressEnter && typed.Returns?
    ensures Command(ReturnCommand) in effects ==> effects[|effects| - 1] == Command(ReturnCommand)
    ensures forall k :: 0 <= k < |effects| ==> effects[k].Command?
  {
    var keyup := if Truthy(keysym) then [Command(KeyupCommand(keysym.value))] else [];
    keyup + TypeThenEnter(text, pressEnter, typed)
  }

  /** With the root settings no `keyup` is ever sent: typing starts with
      the type command. */
  lemma RootSettingsSendNoKeyup(text: string, pressEnter: bool, typed: CallOutcome)
    ensures TypeText(RootSettings.pttKeysym, text, pressEnter, typed)[0] == Command(TypeCommand(text))
  {
  }

  /** The calls of a finalize from the moment the WAV file is written: the
      upload, the typing when the transcript is non-empty, and the unlink of
      the `finally` block. Nothing in this part raises. */
  function AfterSave(d: LegacyDaemon, audio: seq<Row>, w: World): (effects: seq<Effect>)
    ensures |effects| >= 4 && effects[0] == TempFileCreated && effects[|effects| - 1] == Unlink
    ensures effects[2] == TranscribeRequest(d.model, RequestLanguage)
  {
    var wav := Wav.SaveWav(audio, d.recorder.sampleRate, d.recorder.channels);
    var transcript := LegacyTranscribe(w.response);
    var typing := if transcript != "" then TypeText(d.keysym, transcript, d.pressEnter, w.typed) else [];
    [TempFileCreated, WavWritten(wav.channels, wav.frameRate, |wav.data|),
     TranscribeRequest(d.model, RequestLanguage)] + typing + [Unlink]
  }

  /** `_finalize_recording()`. The recorder is stopped and idle afterwards;
      without audio nothing else happens. A failing `_write_wav` raises
      before the `try`, so a file it already created stays behind;
      otherwise nothing escapes and the file is unlinked last. */
  function Finalize(d: LegacyDaemon, w: World): (s: Step)
    ensures !Recording(s.daemon.recorder)
    ensures s.daemon == d.(recorder := Audio.Stop(d.recorder).rec)
    ensures !Recording(d.recorder) ==> s == Step(d, [], false)
    ensures Recording(d.recorder) && Audio.Stop(d.recorder).audio.None? ==> s.effects == [RecorderStop(false)] && !s.raised
    ensures s.raised <==> Audio.Stop(d.recorder).audio.Some? && !w.save.Saved?
    ensures Audio.Stop(d.recorder).audio.Some? && w.save.Saved? ==>
      |s.effects| >= 5 && s.effects[|s.effects| - 1] == Unlink
  {
    var stopped := Audio.Stop(d.recorder);
    var d1 := d.(recorder := stopped.rec);
    if !Recording(d.recorder) then Step(d, [], false)
    else
      match stopped.audio
      case None => Step(d1, [RecorderStop(false)], false)
      case Some(audio) =>
        match w.save
        case TempFileFails => Step(d1, [RecorderStop(true)], true)
        case WriteFails => Step(d1, [RecorderStop(true), TempFileCreated], true)
        case Saved => Step(d1, [RecorderStop(true)] + AfterSave(d, audio, w), false)
  }

  /** Some `xdotool` command runs. */
  predicate RunsCommand(effects: seq<Effect>) {
    exists k :: 0 <= k < |effects| && effects[k].Command?
  }

  /** Whether a finalize of `d` under `w` reaches the typing stage. */
  predicate Types(d: LegacyDaemon, w: World) {
    Audio.Stop(d.recorder).audio.Some? && w.save.Saved? && LegacyTranscribe(w.response) != ""
  }

  /** The saved part of a finalize, split at the typing. */
  lemma AfterSaveParts(d: LegacyDaemon, audio: seq<Row>, w: World)
    ensures var transcript := LegacyTranscribe(w.response);
      var e := AfterSave(d, audio, w);
      && (transcript == "" ==> |e| == 4 && !RunsCommand(e))
      && (transcript != "" ==> e[3] == TypeText(d.keysym, transcript, d.pressEnter, w.typed)[0])
  {
    var transcript := LegacyTranscribe(w.response);
    var e := AfterSave(d, audio, w);
    if transcript == "" {
      assert forall k :: 0 <= k < |e| ==> !e[k].Command?;
    }
  }

  /** A call in front runs a command exactly when it is one or the rest runs one. */
  lemma RunsCommandCons(x: Effect, e: seq<Effect>)
    ensures RunsCommand([x] + e) <==> x.Command? || RunsCommand(e)
  {
    if x.Command? {
      assert ([x] + e)[0] == x;
    }
    if RunsCommand(e) {
      var k :| 0 <= k < |e| && e[k].Command?;
      assert ([x] + e)[k + 1] == e[k];
    }
    if RunsCommand([x] + e) {
      var k :| 0 <= k < |[x] + e| && ([x] + e)[k].Command?;
      if k > 0 {
        assert e[k - 1] == ([x] + e)[k];
      }
    }
  }

  /** Text is typed only when the transcript is non-empty: the finalize
      runs an `xdotool` command exactly then. */
  lemma FinalizeTypesOnlyText(d: LegacyDaemon, w: World)
    ensures RunsCommand(Finalize(d, w).effects) <==> Types(d, w)
  {
    var s := Finalize(d, w);
    var stopped := Audio.Stop(d.recorder);
    if Recording(d.recorder) && stopped.audio.Some? && w.save.Saved? {
      var after := AfterSave(d, stopped.audio.value, w);
      assert s.effects == [RecorderStop(true)] + after;
      RunsCommandCons(RecorderStop(true), after);
      AfterSaveParts(d, stopped.audio.value, w);
      if LegacyTranscribe(w.response) != "" {
        assert after[3].Command?;
      }
    } else {
      assert forall k :: 0 <= k < |s.effects| ==> !s.effects[k].Command?;
    }
  }

  /** When it types without a configured keysym, the first command types
      the transcript, right after the upload. */
  lemma FinalizeTypesTranscript(d: LegacyDaemon, w: World)
    requires Types(d, w) && !Truthy(d.keysym)
    ensures Finalize(d, w).effects[4] == Command(TypeCommand(LegacyTranscribe(w.response)))
  {
    var stopped := Audio.Stop(d.recorder);
    var after := AfterSave(d, stopped.audio.value, w);
    assert Finalize(d, w).effects == [RecorderStop(true)] + after;
    AfterSaveParts(d, stopped.audio.value, w);
  }

  /** `_on_key_down()`: nothing while recording; otherwise one `start()`,
      whose exception is caught. */
  function OnKeyDown(d: LegacyDaemon, now: real, outcome: StreamOutcome): (s: Step)
    ensures !s.raised
    ensures Recording(d.recorder) ==> s == Step(d, [], false)
    ensures !Recording(d.recorder) ==>
      s.effects == [RecorderStart(Recording(s.daemon.recorder))] &&
      s.daemon == d.(recorder := Audio.Start(d.recorder, now, outcome).rec)
  {
    var k := Daemon.KeyDown(d.recorder, now, outcome);
    Step(d.(recorder := k.0), k.1, false)
  }

  /** `_on_key_up()`: nothing while idle; otherwise one finalize. */
  function OnKeyUp(d: LegacyDaemon, w: World): (s: Step)
    ensures !Recording(d.recorder) ==> s == Step(d, [], false)
    ensures Recording(d.recorder) ==> s == Finalize(d, w)
  {
    if !Recording(d.recorder) then Step(d, [], false) else Finalize(d, w)
  }

  /** `_check_recording_duration()` at time `now`: a finalize exactly when
      recording and the maximum duration is reached. */
  function CheckDuration(d: LegacyDaemon, now: real, w: World): (s: Step)
    ensures Recording(d.recorder) && HasReachedMaxDuration(d.recorder, now) ==> s == Finalize(d, w)
    ensures !(Recording(d.recorder) && HasReachedMaxDuration(d.recorder, now)) ==> s == Step(d, [], false)
  {
    if Recording(d.recorder) && HasReachedMaxDuration(d.recorder, now) then Finalize(d, w)
    else Step(d, [], false)
  }

  /** A key event together with what the collaborators do if handling it
      starts or finalizes a recording. */
  datatype Handled = Handled(ev: InputEvent, now: real, outcome: StreamOutcome, world: World)

  /** `_handle_event(event)`: only `EV_KEY` events with the push-to-talk
      code act; value 1 is key-down, value 0 key-up, any other value
      (autorepeat) nothing. */
  function HandleEvent(d: LegacyDaemon, h: Handled): (s: Step)
    ensures h.ev.evType != EvKey || h.ev.code != d.keyCode ==> s == Step(d, [], false)
    ensures h.ev.evType == EvKey && h.ev.code == d.keyCode && h.ev.value == 1 ==> s == OnKeyDown(d, h.now, h.outcome)
    ensures h.ev.evType == EvKey && h.ev.code == d.keyCode && h.ev.value == 0 ==> s == OnKeyUp(d, h.world)
    ensures h.ev.value != 0 && h.ev.value != 1 ==> s == Step(d, [], false)
  {
    match Evdev.HandleEvent(h.ev, d.keyCode, true)
    case Some(true) => OnKeyDown(d, h.now, h.outcome)
    case Some(false) => OnKeyUp(d, h.world)
    case None => Step(d, [], false)
  }

  /** Handling one more event of a read: nothing once a handler raised,
      otherwise that event's handler on the state the read left. */
  function Then(before: Step, h: Handled): (s: Step)
    ensures before.raised ==> s == before
  {
    if before.raised then before
    else
      var s := HandleEvent(before.daemon, h);
      Step(s.daemon, before.effects + s.effects, s.raised)
  }

  /** Events of one read, handled in order; an exception ends the batch. */
  function ReadBatch(d: LegacyDaemon, events: seq<Handled>): (s: Step)
    ensures events == [] ==> s == Step(d, [], false)
  {
    if events == [] then Step(d, [], false)
    else Then(ReadBatch(d, events[..|events| - 1]), events[|events| - 1])
  }

  /** Once a handler raised, the rest of the read is not handled: events
      after the failing one change nothing. */
  lemma {:induction false} ReadBatchRaisedIsFinal(d: LegacyDaemon, e1: seq<Handled>, e2: seq<Handled>)
    requires ReadBatch(d, e1).raised
    ensures ReadBatch(d, e1 + e2) == ReadBatch(d, e1)
    decreases |e2|
  {
    if e2 == [] {
      assert e1 + e2 == e1;
    } else {
      assert (e1 + e2)[..|e1 + e2| - 1] == e1 + e2[..|e2| - 1];
      ReadBatchRaisedIsFinal(d, e1, e2[..|e2| - 1]);
    }
  }

  lemma ReadBatchSnoc(d: LegacyDaemon, events: seq<Handled>, h: Handled)
    ensures ReadBatch(d, events + [h]) == Then(ReadBatch(d, events), h)
  {
    assert (events + [h])[..|events|] == events;
  }

  /** Until a handler raises, a read is its parts handled one after the
      other: the second part starts from the state the first left, and the
      calls are the first part's followed by the second's. */
  lemma {:induction false} ReadBatchAppend(d: LegacyDaemon, e1: seq<Handled>, e2: seq<Handled>)
    requires !ReadBatch(d, e1).raised
    ensures var b1 := ReadBatch(d, e1);
      var b2 := ReadBatch(b1.daemon, e2);
      ReadBatch(d, e1 + e2) == Step(b2.daemon, b1.effects + b2.effects, b2.raised)
    decreases |e2|
  {
    var b1 := ReadBatch(d, e1);
    if e2 == [] {
      assert e1 + e2 == e1;
      assert b1.effects + [] == b1.effects;
    } else {
      var init := e2[..|e2| - 1];
      var last := e2[|e2| - 1];
      assert e1 + e2 == (e1 + init) + [last];
      assert e2 == init + [last];
      ReadBatchAppend(d, e1, init);
      ReadBatchSnoc(d, e1 + init, last);
      ReadBatchSnoc(b1.daemon, init, last);
      ThenShift(b1.effects, ReadBatch(b1.daemon, init), last);
    }
  }

  /** `Then` does not look at the calls already made. */
  lemma ThenShift(prefix: seq<Effect>, mid: Step, h: Handled)
    ensures Then(Step(mid.daemon, prefix + mid.effects, mid.raised), h)
      == var t := Then(mid, h); Step(t.daemon, prefix + t.effects, t.raised)
  {
    if !mid.raised {
      var s := HandleEvent(mid.daemon, h);
      assert prefix + mid.effects + s.effects == prefix + (mid.effects + s.effects);
    }
  }

  /** A read with no push-to-talk key-down or key-up (other event types,
      other keys, autorepeat) changes nothing and calls nothing. */
  lemma {:induction false} FilteredBatchIsSilent(d: LegacyDaemon, events: seq<Handled>)
    requires forall k :: 0 <= k < |events| ==>
      events[k].ev.evType != EvKey || events[k].ev.code != d.keyCode || (events[k].ev.value != 0 && events[k].ev.value != 1)
    ensures ReadBatch(d, events) == Step(d, [], false)
    decreases |events|
  {
    if events != [] {
      FilteredBatchIsSilent(d, events[..|events| - 1]);
      assert events[|events| - 1] == events[|events| - 1];
    }
  }

  /** What reading a ready descriptor gives: events, `BlockingIOError`, or
      another `OSError`. */
  datatype Read = Batch(events: seq<Handled>) | WouldBlock | ReadFailed

  datatype Ready = Ready(fd: int, read: Read)

  /** One ready descriptor. A descriptor without a device is skipped. The
      read and the handling of its events share one `try` whose `except
      OSError` also catches an `OSError` raised while handling, so a failing
      save ends only the current batch and the loop goes on. */
  function ServeReady(d: LegacyDaemon, r: Ready): (s: Step)
    ensures !s.raised
    ensures r.fd !in d.fdToDevice || !r.read.Batch? ==> s == Step(d, [], false)
  {
    if r.fd in d.fdToDevice && r.read.Batch? then
      var b := ReadBatch(d, r.read.events);
      Step(b.daemon, b.effects, false)
    else Step(d, [], false)
  }

  /** One `select` result, descriptor after descriptor. */
  function ServePoll(d: LegacyDaemon, ready: seq<Ready>): (s: Step)
    ensures !s.raised
  {
    if ready == [] then Step(d, [], false)
    else
      var before := ServePoll(d, ready[..|ready| - 1]);
      var s := ServeReady(before.daemon, ready[|ready| - 1]);
      Step(s.daemon, before.effects + s.effects, false)
  }

  /** What happens during one turn of the loop: the duration check at
      `now` (with the collaborators' behaviour should it finalize) followed
      by a `select` with these ready descriptors; or a `KeyboardInterrupt`. */
  datatype Turn = Turn(now: real, world: World, ready: seq<Ready>) | Interrupt

  /** One turn: the duration is checked before polling, and an exception
      from that check ends the loop before any descriptor is served. */
  function RunTurn(d: LegacyDaemon, t: Turn): (s: Step)
    requires t.Turn?
    ensures CheckDuration(d, t.now, t.world).effects <= s.effects
    ensures CheckDuration(d, t.now, t.world).raised <==> s.raised
    ensures s.raised ==> s == CheckDuration(d, t.now, t.world)
  {
    var check := CheckDuration(d, t.now, t.world);
    if check.raised then check
    else
      var p := ServePoll(check.daemon, t.ready);
      Step(p.daemon, check.effects + p.effects, false)
  }

  /** The loop so far and whether it has ended (an interrupt or an escaped
      exception). */
  datatype Loop = Loop(step: Step, ended: bool)

  /** Reference definition of the loop: turns one after another until an
      interrupt or an exception ends it; later turns change nothing. */
  function Turns(d: LegacyDaemon, turns: seq<Turn>): (l: Loop)
    ensures l.step.raised ==> l.ended
  {
    if turns == [] then Loop(Step(d, [], false), false)
    else
      var before := Turns(d, turns[..|turns| - 1]);
      if before.ended then before
      else
        match turns[|turns| - 1]
        case Interrupt => Loop(before.step, true)
        case Turn(_, _, _) =>
          var s := RunTurn(before.step.daemon, turns[|turns| - 1]);
          Loop(Step(s.daemon, before.step.effects + s.effects, s.raised), s.raised)
  }

  /** Once the loop has ended, further turns leave it as it was. */
  lemma {:induction false} EndedLoopIsFinal(d: LegacyDaemon, turns: seq<Turn>, i: nat)
    requires i <= |turns|
    requires Turns(d, turns[..i]).ended
    ensures Turns(d, turns) == Turns(d, turns[..i])
    decreases |turns| - i
  {
    if i < |turns| {
      assert turns[..i + 1][..i] == turns[..i];
      EndedLoopIsFinal(d, turns, i + 1);
    } else {
      assert turns[..i] == turns;
    }
  }

  /** `InputDevice.close()` of every device in order. */
  function Closes(devices: seq<DeviceInfo>): (effects: seq<Effect>)
    ensures |effects| == |devices|
    ensures forall k :: 0 <= k < |devices| ==> effects[k] == CloseDevice(devices[k].path)
  {
    seq(|devices|, k requires 0 <= k < |devices| => CloseDevice(devices[k].path))
  }

  /** How `run()` ended: it returned (no devices, or after an interrupt);
      an exception escaped it; or it is still polling when the schedule ends. */
  datatype RunEnd = Returned | Crashed | StillRunning

  /** `run()`. With no devices it returns at once, without closing
      anything. Otherwise it turns until an interrupt or an escaped
      exception ends it; the `finally` block then closes every device (close
      errors swallowed) and leaves the device list as it was. */
  method Run(d: LegacyDaemon, turns: seq<Turn>) returns (d': LegacyDaemon, effects: seq<Effect>, end: RunEnd)
    ensures d.fdToDevice == map[] ==> d' == d && effects == [] && end == Returned
    ensures d.fdToDevice != map[] ==>
      var l := Turns(d, turns);
      && d' == l.step.daemon
      && (end == StillRunning <==> !l.ended)
      && (end == Crashed <==> l.step.raised)
      && effects == l.step.effects + (if l.ended then Closes(d.devices) else [])
    ensures d'.devices == d.devices && d'.fdToDevice == d.fdToDevice && d'.keyCode == d.keyCode
  {
    if d.fdToDevice == map[] {
      return d, [], Returned;
    }
    var cur := Step(d, [], false);
    var ended := false;
    var i := 0;
    while i < |turns| && !ended
      invariant 0 <= i <= |turns|
      decreases |turns| - i
      invariant Loop(cur, ended) == Turns(d, turns[..i])
      invariant cur.daemon.devices == d.devices && cur.daemon.fdToDevice == d.fdToDevice
      invariant cur.daemon.keyCode == d.keyCode
    {
      assert turns[..i + 1][..i] == turns[..i];
      if turns[i].Interrupt? {
        ended := true;
      } else {
        var s := RunTurn(cur.daemon, turns[i]);
        SameDevices(cur.daemon, turns[i]);
        cur := Step(s.daemon, cur.effects + s.effects, s.raised);
        ended := s.raised;
      }
      i := i + 1;
    }
    if ended {
      EndedLoopIsFinal(d, turns, i);
      effects := cur.effects + Closes(d.devices);
      end := if cur.raised then Crashed else Returned;
    } else {
      assert turns[..i] == turns;
      effects := cur.effects;
      end := StillRunning;
    }
    d' := cur.daemon;
  }

  /** Handling never touches the devices or the key code. */
  lemma SameDevices(d: LegacyDaemon, t: Turn)
    requires t.Turn?
    ensures var s := RunTurn(d, t);
      s.daemon.devices == d.devices && s.daemon.fdToDevice == d.fdToDevice && s.daemon.keyCode == d.keyCode
  {
    var check := CheckDuration(d, t.now, t.world);
    if !check.raised {
      PollKeepsDevices(check.daemon, t.ready);
    }
  }

  lemma {:induction false} PollKeepsDevices(d: LegacyDaemon, ready: seq<Ready>)
    ensures var s := ServePoll(d, ready);
      s.daemon.devices == d.devices && s.daemon.fdToDevice == d.fdToDevice && s.daemon.keyCode == d.keyCode
  {
    if ready != [] {
      var before := ServePoll(d, ready[..|ready| - 1]);
      PollKeepsDevices(d, ready[..|ready| - 1]);
      var r := ready[|ready| - 1];
      if r.fd in before.daemon.fdToDevice && r.read.Batch? {
        BatchKeepsDevices(before.daemon, r.read.events);
      }
    }
  }

  lemma {:induction false} BatchKeepsDevices(d: LegacyDaemon, events: seq<Handled>)
    ensures var s := ReadBatch(d, events);
      s.daemon.devices == d.devices && s.daemon.fdToDevice == d.fdToDevice && s.daemon.keyCode == d.keyCode
  {
    if events != [] {
      BatchKeepsDevices(d, events[..|events| - 1]);
    }
  }

  /** `ensure_api_key()`: the key when `OPENAI_API_KEY` is set to a
      non-empty value, `RuntimeError` otherwise. */
  function EnsureApiKey(env: map<string, string>): (r: Result<string>)
    ensures r.Raised? <==> "OPENAI_API_KEY" !in env || env["OPENAI_API_KEY"] == ""
    ensures r.Ok? ==> r.value == env["OPENAI_API_KEY"] && r.value != ""
    ensures r.Raised? ==> r.exc == RuntimeError("OPENAI_API_KEY is not set. Check your .env file.")
  {
    if "OPENAI_API_KEY" in env && env["OPENAI_API_KEY"] != "" then Ok(env["OPENAI_API_KEY"])
    else Raised(RuntimeError("OPENAI_API_KEY is not set. Check your .env file."))
  }

  /** How `main()` ended: its return value, an exception that escaped it,
      or still running when the schedule ends. */
  datatype MainEnd = ExitCode(code: int) | Uncaught(exc: Exception) | StillListening

  /** `main()` after `.env` loading, with `env` the environment at that
      point: a missing key returns 1 before any daemon is built; an unknown
      key name escapes from the constructor; otherwise the daemon runs and
      `main` returns 0 once `run()` returns. */
  method RunMain(env: map<string, string>, s: Settings, table: map<string, int>, listed: seq<DeviceInfo>, turns: seq<Turn>)
    returns (exit: MainEnd, effects: seq<Effect>)
    ensures EnsureApiKey(env).Raised? ==> exit == ExitCode(1) && effects == []
    ensures EnsureApiKey(env).Ok? && s.pttKey !in table ==>
      exit == Uncaught(ValueError("Unknown key name: " + s.pttKey)) && effects == []
    ensures EnsureApiKey(env).Ok? && s.pttKey in table && Kept(listed, table[s.pttKey]) == [] ==>
      exit == ExitCode(0) && effects == []
    ensures EnsureApiKey(env).Ok? && s.pttKey in table && Kept(listed, table[s.pttKey]) != [] ==>
      var d := Built(s, table, listed);
      var l := Turns(d, turns);
      && effects == l.step.effects + (if l.ended then Closes(d.devices) else [])
      && (exit == ExitCode(0) <==> l.ended && !l.step.raised)
      && (exit == Uncaught(OSError) <==> l.step.raised)
      && (exit == StillListening <==> !l.ended)
    ensures exit.ExitCode? ==> exit.code == 0 || exit.code == 1
    ensures exit.Uncaught? ==> exit.exc.ValueError? || exit.exc == OSError
  {
    match EnsureApiKey(env)
    case Raised(_) =>
      return ExitCode(1), [];
    case Ok(_) =>
      var built := New(s, table, listed);
      match built
      case Raised(e) =>
        return Uncaught(e), [];
      case Ok(d) =>
        assert d == Built(s, table, listed);
        FdMapEmpty(d.devices);
        var d', runEffects, end := Run(d, turns);
        effects := runEffects;
        exit := match end
          case Returned => ExitCode(0)
          case Crashed => Uncaught(OSError)
          case StillRunning => StillListening;
  }
}

=== FILE: linux.dfy ===
/** The Linux handler: evdev devices for the push-to-talk key, a polling
    loop that turns key events into callback arguments, and `xdotool` for
    typing and releasing keys. `select`, device reads and the commands are
    collaborators; what they return is given as a schedule. */
module Linux {
  import opened Base
  import opened PyStr
  import opened Effects
  import opened Evdev
  import opened Xdotool

  datatype LinuxHandler = LinuxHandler(
    devices: seq<DeviceInfo>,
    fdToDevice: map<int, DeviceInfo>,
    keyCode: Option<int>,
    hasCallback: bool,
    running: bool)

  /** `LinuxHandler()`: no devices, no key, not running. */
  function NewHandler(): (h: LinuxHandler)
    ensures h.devices == [] && h.fdToDevice == map[] && h.keyCode.None? && !h.hasCallback && !h.running
  {
    LinuxHandler([], map[], None, false, false)
  }

  /** What reading a ready descriptor gives: a batch of events, a
      `BlockingIOError`, or another `OSError` (logged). In a batch,
      `failingCall` is the position, among the batch's callback calls, of
      the first call that raises `OSError` (the daemon's `save_wav` failing
      inside the key-up handler), if any. */
  datatype ReadOutcome = Events(events: seq<InputEvent>, failingCall: Option<nat>) | WouldBlock | ReadFailed

  /** The callback calls a batch really makes: all of them when none
      raises, and otherwise those up to and including the raising one,
      since the `except OSError` around the batch ends it there. */
  function UpToFailure(calls: seq<bool>, failingCall: Option<nat>): (made: seq<bool>)
    ensures |made| <= |calls| && made == calls[..|made|]
    ensures failingCall.None? || failingCall.value >= |calls| ==> made == calls
    ensures failingCall.Some? && failingCall.value < |calls| ==> |made| == failingCall.value + 1
  {
    if failingCall.Some? && failingCall.value < |calls| then calls[..failingCall.value + 1] else calls
  }

  /** Whether a batch ended because a callback raised. */
  predicate BatchRaised(calls: seq<bool>, failingCall: Option<nat>) {
    failingCall.Some? && failingCall.value < |calls|
  }

  datatype Ready = Ready(fd: int, read: ReadOutcome)

  /** What happens during one turn of the loop: `select` reports these
      descriptors ready; `stop_listening()` clears the flag the loop tests;
      or a `KeyboardInterrupt` arrives. */
  datatype LoopStep = Poll(ready: seq<Ready>) | StopRequested | Interrupted

  /** Callback arguments from one ready descriptor: nothing for a
      descriptor without a device or a failed read, and the batch's calls
      up to the first raising one otherwise. */
  function ReadyCallbacks(fdToDevice: map<int, DeviceInfo>, keyCode: int, hasCallback: bool, r: Ready): seq<bool> {
    if r.fd in fdToDevice && r.read.Events?
    then UpToFailure(Callbacks(r.read.events, keyCode, hasCallback), r.read.failingCall)
    else []
  }

  /** Callback arguments from one `select` result, descriptor after descriptor. */
  function PollCallbacks(fdToDevice: map<int, DeviceInfo>, keyCode: int, hasCallback: bool, ready: seq<Ready>): seq<bool> {
    if ready == [] then []
    else PollCallbacks(fdToDevice, keyCode, hasCallback, ready[..|ready| - 1])
         + ReadyCallbacks(fdToDevice, keyCode, hasCallback, ready[|ready| - 1])
  }

  /** Callback arguments of a run of loop turns that are all polls. */
  function LoopCallbacks(fdToDevice: map<int, DeviceInfo>, keyCode: int, hasCallback: bool, steps: seq<LoopStep>): seq<bool> {
    if steps == [] then []
    else
      var last := steps[|steps| - 1];
      LoopCallbacks(fdToDevice, keyCode, hasCallback, steps[..|steps| - 1])
      + (if last.Poll? then PollCallbacks(fdToDevice, keyCode, hasCallback, last.ready) else [])
  }

  /** One more polling turn adds that poll's callbacks. */
  lemma LoopCallbacksSnoc(fdToDevice: map<int, DeviceInfo>, keyCode: int, hasCallback: bool, steps: seq<LoopStep>, i: nat)
    requires i < |steps| && steps[i].Poll?
    ensures LoopCallbacks(fdToDevice, keyCode, hasCallback, steps[..i + 1])
      == LoopCallbacks(fdToDevice, keyCode, hasCallback, steps[..i]) + PollCallbacks(fdToDevice, keyCode, hasCallback, steps[i].ready)
  {
    assert steps[..i + 1][..i] == steps[..i];
  }

  /** The turn at which the loop ends: the first that is not a poll, or the
      end of the schedule when the loop is still running at the end. */
  function ExitIndex(steps: seq<LoopStep>): (n: nat)
    ensures n <= |steps|
    ensures n < |steps| ==> !steps[n].Poll?
  {
    if steps == [] then 0
    else if !steps[0].Poll? then 0
    else 1 + ExitIndex(steps[1..])
  }

  /** The loop ends at the first turn that is not a poll. */
  lemma {:induction false} ExitIndexIs(steps: seq<LoopStep>, n: nat)
    requires n <= |steps|
    requires forall k :: 0 <= k < n ==> steps[k].Poll?
    requires n < |steps| ==> !steps[n].Poll?
    ensures ExitIndex(steps) == n
  {
    if n > 0 {
      ExitIndexIs(steps[1..], n - 1);
    }
  }

  /** `_cleanup()`: every device is closed in order (errors swallowed), and
      the device list and descriptor map are emptied. */
  function Cleanup(h: LinuxHandler): (r: (LinuxHandler, seq<Effect>))
    ensures r.0 == h.(devices := [], fdToDevice := map[])
    ensures |r.1| == |h.devices|
    ensures forall k :: 0 <= k < |h.devices| ==> r.1[k] == CloseDevice(h.devices[k].path)
  {
    (h.(devices := [], fdToDevice := map[]),
     seq(|h.devices|, k requires 0 <= k < |h.devices| => CloseDevice(h.devices[k].path)))
  }

  /** `for event in device.read(): self._handle_event(event)` on one batch,
      inside the `try` whose `except OSError` ends the batch when a callback
      raises. `raised` says whether that happened. */
  method ReadDevice(events: seq<InputEvent>, keyCode: int, hasCallback: bool, failingCall: Option<nat>)
    returns (pressed: seq<bool>, raised: bool)
    ensures pressed == UpToFailure(Callbacks(events, keyCode, hasCallback), failingCall)
    ensures raised <==> BatchRaised(Callbacks(events, keyCode, hasCallback), failingCall)
    ensures raised ==> pressed != [] && |pressed| - 1 == failingCall.value
  {
    pressed := [];
    raised := false;
    var k := 0;
    while k < |events| && !raised
      invariant 0 <= k <= |events|
      invariant pressed == Callbacks(events[..k], keyCode, hasCallback)
      invariant raised <==> failingCall.Some? && |pressed| == failingCall.value + 1
      invariant failingCall.Some? ==> |pressed| <= failingCall.value + 1
    {
      assert events[..k + 1][..k] == events[..k];
      var arg := HandleEvent(events[k], keyCode, hasCallback);
      if arg.Some? {
        raised := failingCall.Some? && |pressed| == failingCall.value;
        pressed := pressed + [arg.value];
      }
      k := k + 1;
    }
    CallbacksAppend(events[..k], events[k..], keyCode, hasCallback);
    assert events[..k] + events[k..] == events;
  }

  /** One `select` result: each ready descriptor in turn; one without a
      device is skipped, and a failed read ends that descriptor only. */
  method ServePoll(fdToDevice: map<int, DeviceInfo>, keyCode: int, hasCallback: bool, ready: seq<Ready>)
    returns (pressed: seq<bool>)
    ensures pressed == PollCallbacks(fdToDevice, keyCode, hasCallback, ready)
  {
    pressed := [];
    var j := 0;
    while j < |ready|
      invariant 0 <= j <= |ready|
      invariant pressed == PollCallbacks(fdToDevice, keyCode, hasCallback, ready[..j])
    {
      var r := ready[j];
      assert ready[..j + 1][..j] == ready[..j];
      if r.fd in fdToDevice && r.read.Events? {
        var fromDevice, _ := ReadDevice(r.read.events, keyCode, hasCallback, r.read.failingCall);
        pressed := pressed + fromDevice;
      }
      j := j + 1;
    }
    assert ready[..|ready|] == ready;
  }

  /** The `while self._running` loop of `_event_loop()`: polls are served,
      one after another, until the first turn that is not a poll. */
  method ServePolls(fdToDevice: map<int, DeviceInfo>, keyCode: int, hasCallback: bool, schedule: seq<LoopStep>)
    returns (i: nat, pressed: seq<bool>)
    ensures i == ExitIndex(schedule)
    ensures pressed == LoopCallbacks(fdToDevice, keyCode, hasCallback, schedule[..i])
  {
    pressed := [];
    i := 0;
    while i < |schedule| && schedule[i].Poll?
      invariant 0 <= i <= |schedule|
      invariant forall k :: 0 <= k < i ==> schedule[k].Poll?
      invariant pressed == LoopCallbacks(fdToDevice, keyCode, hasCallback, schedule[..i])
    {
      var got := ServePoll(fdToDevice, keyCode, hasCallback, schedule[i].ready);
      LoopCallbacksSnoc(fdToDevice, keyCode, hasCallback, schedule, i);
      pressed := pressed + got;
      i := i + 1;
    }
    ExitIndexIs(schedule, i);
  }

  /** `_event_loop()`. Polls are served while the flag holds. The loop ends
      when `stop_listening()` cleared the flag or on `KeyboardInterrupt`
      (caught; the flag stays set), and the cleanup then closes the devices.
      If the schedule ends first, the loop is still running and nothing is
      closed. */
  method EventLoop(h: LinuxHandler, schedule: seq<LoopStep>) returns (h': LinuxHandler, pressed: seq<bool>, effects: seq<Effect>)
    requires h.running && h.keyCode.Some?
    ensures pressed == LoopCallbacks(h.fdToDevice, h.keyCode.value, h.hasCallback, schedule[..ExitIndex(schedule)])
    ensures ExitIndex(schedule) == |schedule| ==> h' == h && effects == []
    ensures ExitIndex(schedule) < |schedule| ==>
      && h' == h.(devices := [], fdToDevice := map[], running := schedule[ExitIndex(schedule)].Interrupted?)
      && effects == Cleanup(h).1
  {
    var i;
    i, pressed := ServePolls(h.fdToDevice, h.keyCode.value, h.hasCallback, schedule);
    if i < |schedule| {
      var cleaned := Cleanup(h);
      h' := cleaned.0.(running := schedule[i].Interrupted?);
      effects := cleaned.1;
    } else {
      h' := h;
      effects := [];
    }
  }

  /** `start_listening(key_name, callback)`. An unknown key name raises
      `ValueError` before anything changes. Otherwise the code and callback
      are stored and the devices discovered; with no device the call returns
      at once without entering the loop; with devices the flag is set and
      the loop runs. */
  method StartListening(h: LinuxHandler, table: map<string, int>, keyName: string, listed: seq<DeviceInfo>, schedule: seq<LoopStep>)
    returns (outcome: Result<LinuxHandler>, pressed: seq<bool>, effects: seq<Effect>)
    ensures keyName !in table ==> outcome.Raised? && outcome.exc.ValueError? && pressed == [] && effects == []
    ensures keyName in table && Kept(listed, table[keyName]) == [] ==>
      && outcome == Ok(h.(keyCode := Some(table[keyName]), hasCallback := true, devices := [], fdToDevice := map[]))
      && pressed == [] && effects == []
    ensures keyName in table && Kept(listed, table[keyName]) != [] ==>
      var devices := Kept(listed, table[keyName]);
      && outcome.Ok?
      && pressed == LoopCallbacks(FdMap(devices), table[keyName], true, schedule[..ExitIndex(schedule)])
      && (ExitIndex(schedule) < |schedule| ==>
            outcome.value.devices == [] && outcome.value.fdToDevice == map[] &&
            |effects| == |devices| && forall k :: 0 <= k < |devices| ==> effects[k] == CloseDevice(devices[k].path))
      && (ExitIndex(schedule) == |schedule| ==> outcome.value.running && outcome.value.devices == devices && effects == [])
  {
    match ResolveKeycode(table, keyName)
    case Raised(e) =>
      outcome, pressed, effects := Raised(e), [], [];
    case Ok(code) =>
      var devices := DiscoverDevices(listed, code);
      var h1 := h.(keyCode := Some(code), hasCallback := true, devices := devices, fdToDevice := FdMap(devices));
      if devices == [] {
        outcome, pressed, effects := Ok(h1), [], [];
      } else {
        var h2;
        h2, pressed, effects := EventLoop(h1.(running := true), schedule);
        outcome := Ok(h2);
      }
  }

  /** `stop_listening()`: only the loop flag changes. */
  function StopListening(h: LinuxHandler): (h': LinuxHandler)
    ensures !h'.running
    ensures h'.devices == h.devices && h'.fdToDevice == h.fdToDevice
    ensures h'.keyCode == h.keyCode && h'.hasCallback == h.hasCallback
  {
    h.(running := false)
  }

  /** Clearing the flag after some polls ends the loop right there: the
      callbacks are exactly those of the polls served before, nothing after
      the stop is served, and the loop ends by the stop (so `EventLoop`
      closes the devices and leaves the flag cleared). */
  lemma {:induction false} StopEndsLoop(h: LinuxHandler, polls: seq<LoopStep>, rest: seq<LoopStep>)
    requires h.keyCode.Some?
    requires forall k :: 0 <= k < |polls| ==> polls[k].Poll?
    ensures var schedule := polls + [StopRequested] + rest;
      && ExitIndex(schedule) == |polls|
      && schedule[ExitIndex(schedule)] == StopRequested
      && LoopCallbacks(h.fdToDevice, h.keyCode.value, h.hasCallback, schedule[..ExitIndex(schedule)])
         == LoopCallbacks(h.fdToDevice, h.keyCode.value, h.hasCallback, polls)
  {
    var schedule := polls + [StopRequested] + rest;
    assert schedule[|polls|] == StopRequested;
    assert forall k :: 0 <= k < |polls| ==> schedule[k] == polls[k];
    ExitIndexIs(schedule, |polls|);
    assert schedule[..|polls|] == polls;
  }

  /** The keysym `release_key` derives: every "KEY_" removed, then lowercased. */
  function Keysym(keyName: string): (keysym: string)
    ensures |keysym| <= |keyName|
    ensures forall i :: 0 <= i < |keysym| ==> !IsUpperAscii(keysym[i])
  {
    Lower(RemoveAll(keyName, "KEY_"))
  }

  /** An evdev name with the prefix maps to the lowercased rest. */
  lemma KeysymOfPrefixedName(rest: string)
    requires Occurrences(rest, "KEY_") == 0
    ensures Keysym("KEY_" + rest) == Lower(rest)
  {
    assert ("KEY_" + rest)[..4] == "KEY_";
    assert ("KEY_" + rest)[4..] == rest;
  }

  /** A derived keysym is a fixed point: deriving again changes nothing. */
  lemma KeysymIdempotent(keyName: string)
    ensures Keysym(Keysym(keyName)) == Keysym(keyName)
  {
    var k := Keysym(keyName);
    NoKNoPrefix(k);
    LowerIdempotent(RemoveAll(keyName, "KEY_"));
  }

  /** Text without the letter 'K' contains no "KEY_". */
  lemma {:induction false} NoKNoPrefix(s: string)
    requires forall i :: 0 <= i < |s| ==> s[i] != 'K'
    ensures Occurrences(s, "KEY_") == 0
    decreases |s|
  {
    if |s| >= 4 {
      assert s[..4] != "KEY_" by {
        assert s[..4][0] == s[0];
      }
      NoKNoPrefix(s[1..]);
    }
  }

  /** `release_key(key_name)`: one `keyup` of the derived keysym; a missing
      or failing `xdotool` is only logged. */
  function ReleaseKey(keyName: string): (effects: seq<Effect>)
    ensures effects == [Command(KeyupCommand(Keysym(keyName)))]
  {
    [Command(KeyupCommand(Keysym(keyName)))]
  }

  /** `type_text(text, press_enter)`: the type command, then Enter only
      after it succeeded and when asked; it never raises. */
  function TypeText(text: string, pressEnter: bool, typed: CallOutcome): (effects: seq<Effect>)
    ensures |effects| >= 1 && effects[0] == Command(TypeCommand(text))
    ensures Command(ReturnCommand) in effects <==> pressEnter && typed.Returns?
  {
    TypeThenEnter(text, pressEnter, typed)
  }
}

=== FILE: macos.dfy ===
/** The macOS handler: key names resolve through a fixed table, a
    one-character fallback and the `Key` enumeration; pressed keys are matched
    against the target; typing and key release go through a keyboard
    controller whose failures are swallowed. The listener thread and the
    controller are collaborators. */
module MacOS {
  import opened Base
  import opened PyStr

  /** A keyboard key as the input library sees it: a named special key
      (`Key.f13`), or a code with an optional virtual-key number and an
      optional character. */
  datatype PKey =
    | KeyMember(name: string)
    | KeyCode(vk: Option<int>, ch: Option<char>)

  /** The names of `KEY_MAP`, in the order they are listed. */
  const KeyMapNames: seq<string> := [
    "f1", "f2", "f3", "f4", "f5", "f6", "f7", "f8", "f9", "f10",
    "f11", "f12", "f13", "f14", "f15", "f16", "f17", "f18", "f19", "f20",
    "pause", "scroll_lock", "print_screen", "insert", "delete", "home", "end", "page_up", "page_down",
    "ctrl", "ctrl_l", "ctrl_r", "alt", "alt_l", "alt_r", "shift", "shift_l", "shift_r",
    "cmd", "cmd_l", "cmd_r"]

  /** `KEY_MAP`: each name maps to the `Key` member of the same name. */
  const KeyMap: map<string, PKey> := map n | n in KeyMapNames :: KeyMember(n)

  /** `sorted(KEY_MAP.keys())`, as the error message lists them. */
  const SortedKeyNames: seq<string> := [
    "alt", "alt_l", "alt_r", "cmd", "cmd_l", "cmd_r", "ctrl", "ctrl_l", "ctrl_r",
    "delete", "end",
    "f1", "f10", "f11", "f12", "f13", "f14", "f15", "f16", "f17", "f18", "f19",
    "f2", "f20", "f3", "f4", "f5", "f6", "f7", "f8", "f9",
    "home", "insert", "page_down", "page_up", "pause", "print_screen", "scroll_lock",
    "shift", "shift_l", "shift_r"]

  /** Characters of the table's names: lower-case letters, digits, '_'. */
  predicate NameChar(c: char) {
    'a' <= c <= 'z' || '0' <= c <= '9' || c == '_'
  }

  predicate IsLowerName(s: string) {
    forall i :: 0 <= i < |s| ==> NameChar(s[i])
  }

  lemma FunctionKeyNamesAreLower()
    ensures forall k :: 0 <= k < 20 ==> IsLowerName(KeyMapNames[k])
  {
  }

  lemma NavigationKeyNamesAreLower()
    ensures forall k :: 20 <= k < 29 ==> IsLowerName(KeyMapNames[k])
  {
  }

  lemma ModifierKeyNamesAreLower()
    ensures forall k :: 29 <= k < |KeyMapNames| ==> IsLowerName(KeyMapNames[k])
  {
  }

  /** Every key of the table is lower case, so looking up the lower-cased
      name finds an entry whatever the case of the name given. */
  lemma KeyMapIsLowerCase()
    ensures forall n :: n in KeyMap ==> Lower(n) == n
  {
    FunctionKeyNamesAreLower();
    NavigationKeyNamesAreLower();
    ModifierKeyNamesAreLower();
    forall n | n in KeyMap
      ensures Lower(n) == n
    {
      var k :| 0 <= k < |KeyMapNames| && KeyMapNames[k] == n;
      assert IsLowerName(n);
    }
  }

  /** The listing in the error message holds exactly the table's keys. */
  lemma SortedKeyNamesAreTheKeys()
    ensures forall n :: n in SortedKeyNames <==> n in KeyMap
  {
    assert forall n :: n in SortedKeyNames <==> n in KeyMapNames;
  }

  /** Python's string order: code point by code point, a proper prefix
      first. */
  predicate LexLess(a: string, b: string) {
    LexLessFrom(a, b, 0)
  }

  /** `LexLess` once the first `k` code points agree. */
  predicate LexLessFrom(a: string, b: string, k: nat)
    requires k <= |a|
    decreases |a| - k
  {
    k < |b| && (k == |a| || a[k] < b[k] || (a[k] == b[k] && LexLessFrom(a, b, k + 1)))
  }

  /** Consecutive names from position `i` on are in increasing order. */
  predicate IncreasingFrom(names: seq<string>, i: nat)
    decreases |names| - i
  {
    i + 1 >= |names| || (LexLess(names[i], names[i + 1]) && IncreasingFrom(names, i + 1))
  }

  /** The chain of neighbours gives every neighbouring pair. */
  lemma {:induction false} IncreasingPairs(names: seq<string>, i: nat)
    requires IncreasingFrom(names, i)
    ensures forall j :: i < j < |names| ==> LexLess(names[j - 1], names[j])
    decreases |names| - i
  {
    if i + 1 < |names| {
      IncreasingPairs(names, i + 1);
    }
  }

  /** The listing is in `sorted` order, with no name twice. */
  lemma SortedKeyNamesIncrease()
    ensures forall i :: 0 < i < |SortedKeyNames| ==> LexLess(SortedKeyNames[i - 1], SortedKeyNames[i])
  {
    SortedHead();
    IncreasingPairs(SortedKeyNames, 0);
  }

  /** The three stretches of the listing, checked pair by pair from the end. */
  lemma SortedTail()
    ensures IncreasingFrom(SortedKeyNames, 27)
  {
    assert IncreasingFrom(SortedKeyNames, 40);
    assert IncreasingFrom(SortedKeyNames, 39);
    assert IncreasingFrom(SortedKeyNames, 38);
    assert IncreasingFrom(SortedKeyNames, 37);
    assert IncreasingFrom(SortedKeyNames, 36);
    assert IncreasingFrom(SortedKeyNames, 35);
    assert IncreasingFrom(SortedKeyNames, 34);
    assert IncreasingFrom(SortedKeyNames, 33);
    assert IncreasingFrom(SortedKeyNames, 32);
    assert IncreasingFrom(SortedKeyNames, 31);
    assert IncreasingFrom(SortedKeyNames, 30);
    assert IncreasingFrom(SortedKeyNames, 29);
    assert IncreasingFrom(SortedKeyNames, 28);
    assert IncreasingFrom(SortedKeyNames, 27);
  }

  lemma SortedMiddle()
    ensures IncreasingFrom(SortedKeyNames, 14)
  {
    SortedTail();
    assert IncreasingFrom(SortedKeyNames, 26);
    assert IncreasingFrom(SortedKeyNames, 25);
    assert IncreasingFrom(SortedKeyNames, 24);
    assert IncreasingFrom(SortedKeyNames, 23);
    assert IncreasingFrom(SortedKeyNames, 22);
    assert IncreasingFrom(SortedKeyNames, 21);
    assert IncreasingFrom(SortedKeyNames, 20);
    assert IncreasingFrom(SortedKeyNames, 19);
    assert IncreasingFrom(SortedKeyNames, 18);
    assert IncreasingFrom(SortedKeyNames, 17);
    assert IncreasingFrom(SortedKeyNames, 16);
    assert IncreasingFrom(SortedKeyNames, 15);
    assert IncreasingFrom(SortedKeyNames, 14);
  }

  lemma SortedHead()
    ensures IncreasingFrom(SortedKeyNames, 0)
  {
    SortedMiddle();
    assert IncreasingFrom(SortedKeyNames, 13);
    assert IncreasingFrom(SortedKeyNames, 12);
    assert IncreasingFrom(SortedKeyNames, 11);
    assert IncreasingFrom(SortedKeyNames, 10);
    assert IncreasingFrom(SortedKeyNames, 9);
    assert IncreasingFrom(SortedKeyNames, 8);
    assert IncreasingFrom(SortedKeyNames, 7);
    assert IncreasingFrom(SortedKeyNames, 6);
    assert IncreasingFrom(SortedKeyNames, 5);
    assert IncreasingFrom(SortedKeyNames, 4);
    assert IncreasingFrom(SortedKeyNames, 3);
    assert IncreasingFrom(SortedKeyNames, 2);
    assert IncreasingFrom(SortedKeyNames, 1);
    assert IncreasingFrom(SortedKeyNames, 0);
  }

  /** `", ".join(names)`. */
  function CommaJoin(names: seq<string>): string {
    if names == [] then ""
    else if |names| == 1 then names[0]
    else CommaJoin(names[..|names| - 1]) + ", " + names[|names| - 1]
  }

  /** `_resolve_key(key_name)`. The lower-cased name is looked up in the
      table first; a name of exactly one character not in it becomes a key
      code for that character, case preserved; otherwise the lower-cased
      name is tried on the `Key` enumeration (`keyMembers` are the names it
      defines); anything else raises `ValueError` listing the table's keys in
      sorted order. */
  function ResolveKey(keyName: string, keyMembers: set<string>): (r: Result<PKey>)
    ensures Lower(keyName) in KeyMap ==> r == Ok(KeyMember(Lower(keyName)))
    ensures Lower(keyName) !in KeyMap && |keyName| == 1 ==> r == Ok(KeyCode(None, Some(keyName[0])))
    ensures Lower(keyName) !in KeyMap && |keyName| != 1 && Lower(keyName) in keyMembers ==>
      r == Ok(KeyMember(Lower(keyName)))
    ensures r.Raised? <==> Lower(keyName) !in KeyMap && |keyName| != 1 && Lower(keyName) !in keyMembers
    ensures r.Raised? ==>
      r.exc == ValueError("Unknown key name: " + keyName + ". Available keys: " + CommaJoin(SortedKeyNames))
  {
    var lower := Lower(keyName);
    if lower in KeyMap then Ok(KeyMap[lower])
    else if |keyName| == 1 then Ok(KeyCode(None, Some(keyName[0])))
    else if lower in keyMembers then Ok(KeyMember(lower))
    else Raised(ValueError("Unknown key name: " + keyName + ". Available keys: " + CommaJoin(SortedKeyNames)))
  }

  /** Table names resolve case-insensitively: two names that differ only in
      ASCII case resolve to the same key when either is in the table. */
  lemma ResolveIgnoresCase(a: string, b: string, keyMembers: set<string>)
    requires EqualIgnoringCase(a, b)
    requires Lower(a) in KeyMap
    ensures ResolveKey(a, keyMembers) == ResolveKey(b, keyMembers)
    ensures ResolveKey(a, keyMembers).Ok?
  {
    LowerEqualIff(a, b);
  }

  /** A single character outside the table keeps its case: "A" and "a"
      resolve to different key codes. */
  lemma SingleCharacterKeepsCase(c: char, keyMembers: set<string>)
    requires [c] !in KeyMap && Lower([c]) !in KeyMap
    ensures ResolveKey([c], keyMembers) == Ok(KeyCode(None, Some(c)))
  {
  }

  /** `_matches_key(pressed_key)`: never for a missing key on either side;
      equal keys match; two key codes match when their characters agree. */
  function MatchesKey(pressed: Option<PKey>, target: Option<PKey>): (m: bool)
    ensures pressed.None? || target.None? ==> !m
    ensures pressed.Some? && target.Some? && pressed.value == target.value ==> m
    ensures pressed.Some? && target.Some? && pressed.value.KeyMember? ==> (m <==> pressed == target)
    ensures pressed.Some? && target.Some? && pressed.value.KeyCode? && target.value.KeyCode? ==>
      (m <==> pressed.value.ch == target.value.ch)
  {
    if pressed.None? || target.None? then false
    else if pressed.value == target.value then true
    else if pressed.value.KeyCode? && target.value.KeyCode? then pressed.value.ch == target.value.ch
    else false
  }

  /** Matching is symmetric. */
  lemma MatchesKeySymmetric(a: Option<PKey>, b: Option<PKey>)
    ensures MatchesKey(a, b) == MatchesKey(b, a)
  {
  }

  datatype MacHandler = MacHandler(
    listener: bool,
    target: Option<PKey>,
    hasCallback: bool,
    keyName: string)

  /** `MacOSHandler()`: no listener, no target, no callback. */
  function NewHandler(): (h: MacHandler)
    ensures !h.listener && h.target.None? && !h.hasCallback && h.keyName == ""
  {
    MacHandler(false, None, false, "")
  }

  /** `_on_press(key)`: the callback argument, `True`, when the key matches
      and a callback is registered. */
  function OnPress(h: MacHandler, key: Option<PKey>): (arg: Option<bool>)
    ensures arg.Some? <==> MatchesKey(key, h.target) && h.hasCallback
    ensures arg.Some? ==> arg.value
  {
    if MatchesKey(key, h.target) && h.hasCallback then Some(true) else None
  }

  /** `_on_release(key)`: likewise with `False`. */
  function OnRelease(h: MacHandler, key: Option<PKey>): (arg: Option<bool>)
    ensures arg.Some? <==> MatchesKey(key, h.target) && h.hasCallback
    ensures arg.Some? ==> !arg.value
  {
    if MatchesKey(key, h.target) && h.hasCallback then Some(false) else None
  }

  /** `start_listening(key_name, callback)` up to the blocking join: the
      name is stored first, then resolved (a `ValueError` escapes with the
      name already stored and no listener), then the callback is registered
      and the listener started. */
  function StartListening(h: MacHandler, keyName: string, keyMembers: set<string>): (r: (MacHandler, Result<()>))
    ensures r.0.keyName == keyName
    ensures r.1.Raised? <==> ResolveKey(keyName, keyMembers).Raised?
    ensures r.1.Raised? ==> r.0 == h.(keyName := keyName) && r.1.exc.ValueError?
    ensures r.1.Ok? ==> r.0 == MacHandler(true, Some(ResolveKey(keyName, keyMembers).value), true, keyName)
  {
    match ResolveKey(keyName, keyMembers)
    case Raised(e) => (h.(keyName := keyName), Raised(e))
    case Ok(k) => (MacHandler(true, Some(k), true, keyName), Ok(()))
  }

  /** `stop_listening()`: stops and drops the listener if there is one;
      whether it stopped one. */
  function StopListening(h: MacHandler): (r: (MacHandler, bool))
    ensures !r.0.listener
    ensures r.1 <==> h.listener
    ensures r.0 == h.(listener := false)
  {
    (h.(listener := false), h.listener)
  }

  /** Stopping twice: the second call finds no listener and changes nothing.
      The `finally` of `start_listening` relies on this after an explicit stop. */
  lemma StopListeningIdempotent(h: MacHandler)
    ensures var once := StopListening(h).0;
      StopListening(once) == (once, false)
  {
  }

  /** A pressed target key reaches the callback as a press and its release
      as a release, while listening with a callback. */
  lemma TargetKeyRoundTrip(h: MacHandler, keyName: string, keyMembers: set<string>)
    requires ResolveKey(keyName, keyMembers).Ok?
    ensures var started := StartListening(h, keyName, keyMembers).0;
      var k := Some(ResolveKey(keyName, keyMembers).value);
      OnPress(started, k) == Some(true) && OnRelease(started, k) == Some(false)
  {
  }

  /** The calls made on the keyboard controller. */
  datatype ControllerCall = Typed(text: string) | Pressed(key: PKey) | Released(key: PKey)

  const Enter: PKey := KeyMember("enter")

  /** `type_text(text, press_enter)`: the text is typed; Enter is pressed
      and released only after the typing succeeded and when asked; a failing
      press skips the release. Every exception is swallowed. */
  function TypeText(text: string, pressEnter: bool, typed: CallOutcome, pressed: CallOutcome): (calls: seq<ControllerCall>)
    ensures |calls| >= 1 && calls[0] == Typed(text)
    ensures Pressed(Enter) in calls <==> pressEnter && typed.Returns?
    ensures Released(Enter) in calls <==> pressEnter && typed.Returns? && pressed.Returns?
    ensures |calls| == 3 ==> calls[1] == Pressed(Enter) && calls[2] == Released(Enter)
  {
    if !typed.Returns? || !pressEnter then [Typed(text)]
    else if pressed.Fails? then [Typed(text), Pressed(Enter)]
    else [Typed(text), Pressed(Enter), Released(Enter)]
  }

  /** `release_key(key_name)`: the resolved key is released; an unknown name
      or a failing release is only logged. */
  function ReleaseKey(keyName: string, keyMembers: set<string>): (calls: seq<ControllerCall>)
    ensures ResolveKey(keyName, keyMembers).Raised? <==> calls == []
    ensures ResolveKey(keyName, keyMembers).Ok? ==> calls == [Released(ResolveKey(keyName, keyMembers).value)]
  {
    match ResolveKey(keyName, keyMembers)
    case Raised(_) => []
    case Ok(k) => [Released(k)]
  }
}

=== FILE: platforms.dfy ===
/** The platform abstraction: the key-callback convention, the factory that
    picks the handler for `sys.platform`, and the per-platform default
    push-to-talk key. */
module Platforms {
  import opened Base

  /** The concrete handler classes. The Windows handler's module is not part
      of this model; only its selection is. */
  datatype HandlerKind = LinuxHandler | MacOSHandler | WindowsHandler

  /** A key transition as the callback sees it. */
  datatype KeyEdge = Down | Up

  /** The `KeyCallback` argument: `True` is key down, `False` is key up. */
  function CallbackArg(e: KeyEdge): (isPressed: bool)
    ensures isPressed <==> e == Down
  {
    e.Down?
  }

  /** Reading a callback argument back as a transition. */
  function EdgeOf(isPressed: bool): (e: KeyEdge)
    ensures e == Down <==> isPressed
  {
    if isPressed then Down else Up
  }

  lemma CallbackConvention(e: KeyEdge, isPressed: bool)
    ensures EdgeOf(CallbackArg(e)) == e
    ensures CallbackArg(EdgeOf(isPressed)) == isPressed
  {
  }

  /** `get_platform_handler()`. */
  function GetPlatformHandler(platform: string): (r: Result<HandlerKind>)
    ensures r == Ok(LinuxHandler) <==> platform == "linux"
    ensures r == Ok(MacOSHandler) <==> platform == "darwin"
    ensures r == Ok(WindowsHandler) <==> platform == "win32"
    ensures r.Raised? <==> platform !in {"linux", "darwin", "win32"}
    ensures r.Raised? ==> r.exc.NotImplementedError?
  {
    if platform == "linux" then Ok(LinuxHandler)
    else if platform == "darwin" then Ok(MacOSHandler)
    else if platform == "win32" then Ok(WindowsHandler)
    else Raised(NotImplementedError("Platform '" + platform + "' is not supported"))
  }

  /** `get_default_ptt_key()` of the platform package. */
  function DefaultPttKey(platform: string): (key: string)
    ensures platform == "linux" ==> key == "KEY_PAUSE"
    ensures platform == "darwin" ==> key == "f13"
    ensures platform !in {"linux", "darwin"} ==> key == "pause"
  {
    if platform == "linux" then "KEY_PAUSE"
    else if platform == "darwin" then "f13"
    else if platform == "win32" then "pause"
    else "pause"
  }
}

=== FILE: pystr.dfy ===
/** The parts of Python's `str` the core relies on: `isspace`, `strip`,
    `lower`, `upper`, `startswith`, `replace`, `splitlines` and `"\n".join`.
    Whitespace and line boundaries use Python's own character sets;
    case mapping is modelled for ASCII letters only. */
module PyStr {
  import Base

  /** `c.isspace()` in Python 3. */
  predicate IsSpace(c: char) {
    var n := c as int;
    (9 <= n <= 13) || (28 <= n <= 32) || n == 0x85 || n == 0xA0 || n == 0x1680
    || (0x2000 <= n <= 0x200A) || n == 0x2028 || n == 0x2029 || n == 0x202F
    || n == 0x205F || n == 0x3000
  }

  /** The characters `str.splitlines` breaks on (`\r\n` counts as one break). */
  predicate IsLineBreak(c: char) {
    var n := c as int;
    n == 10 || n == 11 || n == 12 || n == 13 || n == 28 || n == 29 || n == 30
    || n == 0x85 || n == 0x2028 || n == 0x2029
  }

  predicate NoLineBreak(s: string) {
    forall i :: 0 <= i < |s| ==> !IsLineBreak(s[i])
  }

  predicate AllSpace(s: string) {
    forall i :: 0 <= i < |s| ==> IsSpace(s[i])
  }

  predicate StartsWith(s: string, prefix: string) {
    |prefix| <= |s| && s[..|prefix|] == prefix
  }

  predicate EndsWith(s: string, suffix: string) {
    |suffix| <= |s| && s[|s| - |suffix|..] == suffix
  }

  /** A string whose first and last characters are not whitespace. */
  predicate Trimmed(s: string) {
    s == [] || (!IsSpace(s[0]) && !IsSpace(s[|s| - 1]))
  }

  /** `s.lstrip()`: the longest suffix of `s` that does not start with whitespace. */
  function LStrip(s: string): (r: string)
    ensures |r| <= |s| && r == s[|s| - |r|..]
    ensures r == [] || !IsSpace(r[0])
    ensures forall k :: 0 <= k < |s| - |r| ==> IsSpace(s[k])
  {
    if s == [] then []
    else if IsSpace(s[0]) then LStrip(s[1..])
    else s
  }

  /** `s.rstrip()`: the longest prefix of `s` that does not end with whitespace. */
  function RStrip(s: string): (r: string)
    ensures |r| <= |s| && r == s[..|r|]
    ensures r == [] || !IsSpace(r[|r| - 1])
    ensures forall k :: |r| <= k < |s| ==> IsSpace(s[k])
  {
    if s == [] then []
    else if IsSpace(s[|s| - 1]) then RStrip(s[..|s| - 1])
    else s
  }

  /** `s.strip()`: the middle of `s` left once the whitespace at both ends
      is cut off. */
  function Strip(s: string): (r: string)
    ensures Trimmed(r)
    ensures |r| <= |s|
    ensures r == [] <==> AllSpace(s)
    ensures exists i :: 0 <= i <= |s| - |r| && r == s[i..i + |r|] && AllSpace(s[..i]) && AllSpace(s[i + |r|..])
  {
    var l := LStrip(s);
    var r := RStrip(l);
    StripSlice(s, l, r);
    r
  }

  /** The witness for `Strip`: the left cut is what `LStrip` removed. */
  lemma StripSlice(s: string, l: string, r: string)
    requires |l| <= |s| && l == s[|s| - |l|..]
    requires forall k :: 0 <= k < |s| - |l| ==> IsSpace(s[k])
    requires |r| <= |l| && r == l[..|r|]
    requires forall k :: |r| <= k < |l| ==> IsSpace(l[k])
    ensures var i := |s| - |l|;
      0 <= i <= |s| - |r| && r == s[i..i + |r|] && AllSpace(s[..i]) && AllSpace(s[i + |r|..])
  {
    var i := |s| - |l|;
    assert forall k :: i + |r| <= k < |s| ==> s[k] == l[k - i];
  }

  /** A string that is already trimmed is its own strip. */
  lemma StripTrimmed(s: string)
    requires Trimmed(s)
    ensures Strip(s) == s
  {
    if s != [] {
      assert LStrip(s) == s;
      assert RStrip(s) == s;
    }
  }

  /** `strip` is idempotent. */
  lemma StripIdempotent(s: string)
    ensures Strip(Strip(s)) == Strip(s)
  {
    StripTrimmed(Strip(s));
  }

  predicate IsUpperAscii(c: char) { 'A' <= c <= 'Z' }
  predicate IsLowerAscii(c: char) { 'a' <= c <= 'z' }

  function LowerChar(c: char): char {
    if IsUpperAscii(c) then (c as int + 32) as char else c
  }

  function UpperChar(c: char): char {
    if IsLowerAscii(c) then (c as int - 32) as char else c
  }

  /** `s.lower()` on ASCII letters: same length, no upper-case letter left,
      and every other character kept. */
  function Lower(s: string): (r: string)
    ensures |r| == |s|
    ensures forall i :: 0 <= i < |r| ==> !IsUpperAscii(r[i])
    ensures forall i :: 0 <= i < |s| && !IsUpperAscii(s[i]) ==> r[i] == s[i]
  {
    seq(|s|, i requires 0 <= i < |s| => LowerChar(s[i]))
  }

  /** `s.upper()` on ASCII letters. */
  function Upper(s: string): (r: string)
    ensures |r| == |s|
    ensures forall i :: 0 <= i < |r| ==> !IsLowerAscii(r[i])
    ensures forall i :: 0 <= i < |s| && !IsLowerAscii(s[i]) ==> r[i] == s[i]
  {
    seq(|s|, i requires 0 <= i < |s| => UpperChar(s[i]))
  }

  lemma LowerIdempotent(s: string)
    ensures Lower(Lower(s)) == Lower(s)
  {
  }

  /** Two strings have the same lower-case form exactly when they agree up to
      ASCII case. */
  predicate EqualIgnoringCase(a: string, b: string) {
    |a| == |b| && forall i :: 0 <= i < |a| ==> LowerChar(a[i]) == LowerChar(b[i])
  }

  lemma LowerEqualIff(a: string, b: string)
    ensures Lower(a) == Lower(b) <==> EqualIgnoringCase(a, b)
  {
    if Lower(a) == Lower(b) {
      forall i | 0 <= i < |a| ensures LowerChar(a[i]) == LowerChar(b[i]) {
        assert Lower(a)[i] == Lower(b)[i];
      }
    }
  }

  /** Number of non-overlapping occurrences of `pat` found scanning left to right. */
  function Occurrences(s: string, pat: string): nat
    requires |pat| > 0
    decreases |s|
  {
    if |s| < |pat| then 0
    else if s[..|pat|] == pat then 1 + Occurrences(s[|pat|..], pat)
    else Occurrences(s[1..], pat)
  }

  /** `s.replace(pat, "")` for a non-empty `pat`: every occurrence found
      scanning left to right is removed, everything else kept in order. */
  function RemoveAll(s: string, pat: string): (r: string)
    requires |pat| > 0
    ensures |r| <= |s|
    ensures Occurrences(s, pat) == 0 ==> r == s
    decreases |s|
  {
    if |s| < |pat| then s
    else if s[..|pat|] == pat then RemoveAll(s[|pat|..], pat)
    else [s[0]] + RemoveAll(s[1..], pat)
  }

  /** Index of the first line boundary in `s`, or `|s|` when there is none. */
  function FirstBreak(s: string): (i: nat)
    ensures i <= |s|
    ensures i < |s| ==> IsLineBreak(s[i])
    ensures NoLineBreak(s[..i])
  {
    if s == [] then 0
    else if IsLineBreak(s[0]) then 0
    else 1 + FirstBreak(s[1..])
  }

  /** `s.splitlines()`: the lines between boundaries, without a trailing
      empty line after a final boundary. */
  function SplitLines(s: string): (lines: seq<string>)
    ensures forall j :: 0 <= j < |lines| ==> NoLineBreak(lines[j])
    ensures s == [] <==> lines == []
    decreases |s|
  {
    if s == [] then []
    else
      var i := FirstBreak(s);
      if i == |s| then [s]
      else
        var width := if s[i] == '\r' && i + 1 < |s| && s[i + 1] == '\n' then 2 else 1;
        [s[..i]] + SplitLines(s[i + width..])
  }

  /** `"\n".join(lines)`. */
  function Join(lines: seq<string>): string
  {
    if |lines| == 0 then ""
    else if |lines| == 1 then lines[0]
    else Join(lines[..|lines| - 1]) + "\n" + lines[|lines| - 1]
  }

  /** Every line followed by a newline. */
  function Terminated(lines: seq<string>): string
  {
    if lines == [] then "" else lines[0] + "\n" + Terminated(lines[1..])
  }

  lemma {:induction false} TerminatedSnoc(lines: seq<string>, x: string)
    ensures Terminated(lines + [x]) == Terminated(lines) + x + "\n"
  {
    if lines != [] {
      assert (lines + [x])[1..] == lines[1..] + [x];
      TerminatedSnoc(lines[1..], x);
    }
  }

  /** Joining with newlines and adding one final newline terminates every line. */
  lemma {:induction false} JoinNewline(lines: seq<string>)
    requires |lines| >= 1
    ensures Join(lines) + "\n" == Terminated(lines)
  {
    var n := |lines|;
    if n == 1 {
      assert Terminated(lines) == lines[0] + "\n" + Terminated([]);
    } else {
      JoinNewline(lines[..n - 1]);
      TerminatedSnoc(lines[..n - 1], lines[n - 1]);
      assert lines[..n - 1] + [lines[n - 1]] == lines;
    }
  }

  /** `splitlines` undoes `Terminated` for lines without boundaries. */
  lemma {:induction false} SplitTerminated(lines: seq<string>)
    requires forall j :: 0 <= j < |lines| ==> NoLineBreak(lines[j])
    ensures SplitLines(Terminated(lines)) == lines
  {
    if lines != [] {
      SplitLinesStep(lines[0], Terminated(lines[1..]));
      SplitTerminated(lines[1..]);
    }
  }

  /** One line followed by a newline is split off as the first line. */
  lemma SplitLinesStep(l: string, rest: string)
    requires NoLineBreak(l)
    ensures SplitLines(l + "\n" + rest) == [l] + SplitLines(rest)
  {
    var s := l + "\n" + rest;
    FirstBreakOf(l, "\n" + rest);
    assert s == l + ("\n" + rest);
    assert s[|l|] == '\n';
    assert s[..|l|] == l;
    assert s[|l| + 1..] == rest;
  }

  lemma {:induction false} FirstBreakOf(l: string, rest: string)
    requires NoLineBreak(l)
    requires rest != [] && IsLineBreak(rest[0])
    ensures FirstBreak(l + rest) == |l|
  {
    if l != [] {
      assert (l + rest)[1..] == l[1..] + rest;
      FirstBreakOf(l[1..], rest);
    } else {
      assert l + rest == rest;
    }
  }

  /** A joined text ends with the last line when there is more than one. */
  lemma JoinEndsWithLast(lines: seq<string>)
    requires |lines| >= 1
    ensures EndsWith(Join(lines), lines[|lines| - 1])
  {
  }

  /** Dropping a final empty line: the join of the rest, terminated. */
  lemma JoinTrailingEmpty(lines: seq<string>)
    requires |lines| >= 2 && lines[|lines| - 1] == ""
    ensures Join(lines) == Terminated(lines[..|lines| - 1])
  {
    JoinNewline(lines[..|lines| - 1]);
  }

  function DigitChar(d: nat): char
    requires d < 10
  {
    ('0' as int + d) as char
  }

  predicate IsDigit(c: char) { '0' <= c <= '9' }

  function DigitValue(c: char): nat
    requires IsDigit(c)
  {
    c as int - '0' as int
  }

  /** Decimal digits of a natural number, most significant first. */
  function NatToDigits(n: nat): (s: string)
    ensures |s| >= 1
    ensures forall i :: 0 <= i < |s| ==> IsDigit(s[i])
  {
    if n < 10 then [DigitChar(n)] else NatToDigits(n / 10) + [DigitChar(n % 10)]
  }

  /** Value of a string of decimal digits. */
  function DigitsValue(s: string): nat
    requires forall i :: 0 <= i < |s| ==> IsDigit(s[i])
  {
    if s == [] then 0 else 10 * DigitsValue(s[..|s| - 1]) + DigitValue(s[|s| - 1])
  }

  lemma {:induction false} DigitsRoundTrip(n: nat)
    ensures DigitsValue(NatToDigits(n)) == n
  {
    var s := NatToDigits(n);
    if n >= 10 {
      DigitsRoundTrip(n / 10);
      assert s[..|s| - 1] == NatToDigits(n / 10);
    }
  }

  /** Body of a Python integer literal accepted by `int()`: digits, with
      single underscores allowed between two digits. */
  predicate ValidDigitGroups(s: string) {
    && |s| >= 1
    && IsDigit(s[0]) && IsDigit(s[|s| - 1])
    && (forall i :: 0 <= i < |s| ==> IsDigit(s[i]) || s[i] == '_')
    && (forall i :: 0 <= i < |s| - 1 && s[i] == '_' ==> s[i + 1] != '_')
  }

  function DropUnderscores(s: string): (r: string)
    requires forall i :: 0 <= i < |s| ==> IsDigit(s[i]) || s[i] == '_'
    ensures forall i :: 0 <= i < |r| ==> IsDigit(r[i])
    ensures |r| <= |s|
  {
    if s == [] then []
    else if s[0] == '_' then DropUnderscores(s[1..])
    else [s[0]] + DropUnderscores(s[1..])
  }

  /** `int(s)` with base 10: surrounding whitespace is ignored, a sign is
      optional, anything else raises `ValueError`. */
  function ParseInt(s: string): (r: Base.Result<int>)
    ensures r.Raised? ==> r.exc.ValueError?
    ensures AllSpace(s) ==> r.Raised?
  {
    var t := Strip(s);
    var negative := |t| >= 1 && t[0] == '-';
    var body := if |t| >= 1 && (t[0] == '-' || t[0] == '+') then t[1..] else t;
    if ValidDigitGroups(body) then
      var v: int := DigitsValue(DropUnderscores(body));
      Base.Ok(if negative then -v else v)
    else Base.Raised(Base.ValueError("invalid literal for int() with base 10"))
  }

  /** `str(n)`. */
  function IntToString(n: int): string {
    if n < 0 then "-" + NatToDigits(-n) else NatToDigits(n)
  }

  lemma DropUnderscoresDigits(s: string)
    requires forall i :: 0 <= i < |s| ==> IsDigit(s[i])
    ensures DropUnderscores(s) == s
  {
  }

  /** `int(str(n)) == n`. */
  lemma ParseIntRoundTrip(n: int)
    ensures ParseInt(IntToString(n)) == Base.Ok(n)
  {
    var s := IntToString(n);
    var m: nat := if n < 0 then -n else n;
    var d := NatToDigits(m);
    assert Trimmed(s);
    StripTrimmed(s);
    DigitsRoundTrip(m);
    DropUnderscoresDigits(d);
    assert ValidDigitGroups(d);
    if n < 0 {
      assert s[1..] == d;
      assert s[0] == '-';
    } else {
      assert s == d;
      assert s[0] != '-' && s[0] != '+';
    }
  }
}

=== FILE: transcription.dfy ===
/** The transcription client: one request with the configured model and
    language (the daemon's trace records it as a `TranscribeRequest`), and
    the normalisation of whatever comes back into a string.
    The remote service is a collaborator; what the request produced is the
    parameter `Response`. */
module Transcription {
  import opened Base
  import opened PyStr

  const DefaultModel: string := "whisper-1"
  const DefaultLanguage: string := "en"

  datatype Transcriber = Transcriber(model: string, language: string, logTranscripts: bool)

  /** What the request produced: the connection failed (`APIConnectionError`),
      any other exception (opening the file included), or a response object
      whose `text` attribute is absent or falsy (`None`) or present. */
  datatype Response =
    | ConnectionFailed
    | RequestFailed
    | Reply(text: Option<string>)

  /** `Transcriber.transcribe`: every failure and every missing or empty text
      gives "", otherwise the text without surrounding whitespace. The result
      never starts or ends with whitespace, so whitespace-only text gives "". */
  function Transcribe(t: Transcriber, response: Response): (text: string)
    ensures !response.Reply? ==> text == ""
    ensures response.Reply? && response.text.None? ==> text == ""
    ensures Trimmed(text)
    ensures text != "" <==> response.Reply? && response.text.Some? && !AllSpace(response.text.value)
    ensures text != "" ==> text == Strip(response.text.value)
  {
    match response
    case ConnectionFailed => ""
    case RequestFailed => ""
    case Reply(None) => ""
    case Reply(Some(s)) => Strip(s)
  }

  /** Transcribing never yields text that a second strip would change. */
  lemma TranscriptIsStripped(t: Transcriber, response: Response)
    ensures Strip(Transcribe(t, response)) == Transcribe(t, response)
  {
    StripTrimmed(Transcribe(t, response));
  }
}

=== FILE: wav.dfy ===
/** `save_wav`: captured float samples become 16-bit PCM (clip to [-1, 1],
    scale by 32767, truncate toward zero) written as little-endian bytes with
    the header parameters passed in. Floats are idealised as `real`; the
    container layout the `wave` module writes is left to it, and only the
    parameters and the payload it is handed are modelled. */
module Wav {
  import opened Audio

  const PcmScale: int := 32767
  const SampleWidth: int := 2

  type Byte = b: int | 0 <= b < 256

  /** `np.clip(x, -1.0, 1.0)`. */
  function Clip(x: real): (y: real)
    ensures -1.0 <= y <= 1.0
    ensures -1.0 <= x <= 1.0 ==> y == x
    ensures x > 1.0 ==> y == 1.0
    ensures x < -1.0 ==> y == -1.0
  {
    if x < -1.0 then -1.0 else if x > 1.0 then 1.0 else x
  }

  /** Conversion of a float to an integer type: the fraction is dropped,
      rounding toward zero. */
  function TruncateTowardZero(x: real): int {
    if x >= 0.0 then x.Floor else -((-x).Floor)
  }

  /** One sample of `np.int16(clip(x) * 32767)`: within [-32767, 32767],
      the same sign as the clipped input, and less than one unit closer to
      zero than the exact product. */
  function ToPcm(x: real): (s: int)
    ensures -PcmScale <= s <= PcmScale
    ensures var y := Clip(x) * PcmScale as real;
            (y >= 0.0 ==> s as real <= y < s as real + 1.0) &&
            (y < 0.0 ==> s as real - 1.0 < y <= s as real)
  {
    var y := Clip(x) * PcmScale as real;
    TruncateTowardZero(y)
  }

  /** The samples of all rows, row after row (channels interleaved). */
  function PcmSamples(audio: seq<Row>): (pcm: seq<int>)
    ensures forall k :: 0 <= k < |pcm| ==> -PcmScale <= pcm[k] <= PcmScale
  {
    if audio == [] then []
    else PcmSamples(audio[..|audio| - 1]) + PcmRow(audio[|audio| - 1])
  }

  function PcmRow(row: Row): (pcm: seq<int>)
    ensures |pcm| == |row|
    ensures forall k :: 0 <= k < |row| ==> pcm[k] == ToPcm(row[k])
  {
    seq(|row|, k requires 0 <= k < |row| => ToPcm(row[k]))
  }

  /** Number of samples in all rows. */
  function SampleCount(audio: seq<Row>): nat {
    if audio == [] then 0 else SampleCount(audio[..|audio| - 1]) + |audio[|audio| - 1]|
  }

  /** A 16-bit sample as two little-endian bytes, two's complement. */
  function EncodeSample(s: int): (bytes: seq<Byte>)
    requires -32768 <= s < 32768
    ensures |bytes| == 2
  {
    var u := if s < 0 then s + 65536 else s;
    [u % 256, u / 256]
  }

  function DecodeSample(lo: Byte, hi: Byte): int {
    var u := lo + 256 * hi;
    if u >= 32768 then u - 65536 else u
  }

  /** `pcm.tobytes()` on a little-endian machine. */
  function Encode(pcm: seq<int>): (bytes: seq<Byte>)
    requires forall k :: 0 <= k < |pcm| ==> -PcmScale <= pcm[k] <= PcmScale
    ensures |bytes| == 2 * |pcm|
  {
    if pcm == [] then [] else EncodeSample(pcm[0]) + Encode(pcm[1..])
  }

  /** Reading 16-bit little-endian samples back. */
  function Decode(bytes: seq<Byte>): seq<int>
    requires |bytes| % 2 == 0
  {
    if bytes == [] then [] else [DecodeSample(bytes[0], bytes[1])] + Decode(bytes[2..])
  }

  lemma SampleRoundTrip(s: int)
    requires -32768 <= s < 32768
    ensures DecodeSample(EncodeSample(s)[0], EncodeSample(s)[1]) == s
  {
  }

  /** The payload bytes decode to exactly the PCM samples. */
  lemma {:induction false} EncodeRoundTrip(pcm: seq<int>)
    requires forall k :: 0 <= k < |pcm| ==> -PcmScale <= pcm[k] <= PcmScale
    ensures Decode(Encode(pcm)) == pcm
  {
    if pcm != [] {
      var bytes := Encode(pcm);
      SampleRoundTrip(pcm[0]);
      assert bytes[2..] == Encode(pcm[1..]);
      EncodeRoundTrip(pcm[1..]);
    }
  }

  /** The parameters handed to the `wave` writer and the frames written. */
  datatype WavFile = WavFile(channels: int, sampleWidth: int, frameRate: int, data: seq<Byte>)

  /** `save_wav(audio, sample_rate, channels)`: header parameters as given,
      sample width 2, and a payload that decodes to the clipped, scaled and
      truncated samples, two bytes each. */
  function SaveWav(audio: seq<Row>, sampleRate: int, channels: int): (w: WavFile)
    ensures w.channels == channels && w.sampleWidth == SampleWidth && w.frameRate == sampleRate
    ensures |w.data| == 2 * SampleCount(audio)
    ensures Decode(w.data) == PcmSamples(audio)
  {
    var pcm := PcmSamples(audio);
    PcmSamplesLength(audio);
    EncodeRoundTrip(pcm);
    WavFile(channels, SampleWidth, sampleRate, Encode(pcm))
  }

  lemma {:induction false} PcmSamplesLength(audio: seq<Row>)
    ensures |PcmSamples(audio)| == SampleCount(audio)
  {
    if audio != [] {
      PcmSamplesLength(audio[..|audio| - 1]);
    }
  }

  /** Every row carries one sample per channel. */
  predicate Shaped(audio: seq<Row>, channels: int) {
    forall k :: 0 <= k < |audio| ==> |audio[k]| == channels
  }

  lemma {:induction false} ShapedSampleCount(audio: seq<Row>, channels: nat)
    requires Shaped(audio, channels)
    ensures SampleCount(audio) == |audio| * channels
  {
    if audio != [] {
      ShapedSampleCount(audio[..|audio| - 1], channels);
    }
  }

  /** Frame count as the `wave` writer derives it from the payload. */
  function FrameCount(w: WavFile): int
    requires w.sampleWidth * w.channels > 0
  {
    |w.data| / (w.sampleWidth * w.channels)
  }

  /** Payload bytes of `rows` frames of `channels` 16-bit samples. */
  function PayloadBytes(rows: nat, channels: nat): nat {
    rows * channels * 2
  }

  /** For N captured rows of `channels` samples, the payload is
      N × channels × 2 bytes and the file declares N frames, that is
      N / sample rate seconds. */
  lemma PayloadSize(audio: seq<Row>, sampleRate: int, channels: nat)
    requires channels > 0 && Shaped(audio, channels)
    ensures |SaveWav(audio, sampleRate, channels).data| == PayloadBytes(|audio|, channels)
    ensures FrameCount(SaveWav(audio, sampleRate, channels)) == |audio|
  {
    ShapedSampleCount(audio, channels);
    var w := SaveWav(audio, sampleRate, channels);
    var n := |audio|;
    assert |w.data| == 2 * (n * channels);
    assert 2 * (n * channels) == n * channels * 2 == n * (SampleWidth * channels);
    MulDiv(n, SampleWidth * channels);
  }

  lemma MulDiv(a: nat, b: nat)
    requires b > 0
    ensures (a * b) / b == a
  {
    var q := (a * b) / b;
    var r := (a * b) % b;
    assert a * b == q * b + r && 0 <= r < b;
    assert (a - q) * b == r;
    if a - q >= 1 {
      MulGrows(a - q, b);
    } else if a - q <= -1 {
      MulGrows(q - a, b);
    }
  }

  lemma MulGrows(k: int, b: nat)
    requires k >= 1
    ensures k * b >= b
  {
  }
}

=== FILE: xdotool.dfy ===
/** The `xdotool` command lines the Linux typing paths run, and the order
    they run them in. The command itself is a collaborator: whether it
    succeeds is a parameter. */
module Xdotool {
  import opened Base
  import opened Effects

  /** Types `text` into the focused window without delay between keys. */
  function TypeCommand(text: string): seq<string> {
    ["xdotool", "type", "--delay", "0", "--clearmodifiers", text]
  }

  /** Presses Enter. */
  const ReturnCommand: seq<string> := ["xdotool", "key", "--clearmodifiers", "Return"]

  /** Releases a key by keysym. */
  function KeyupCommand(keysym: string): seq<string> {
    ["xdotool", "keyup", "--clearmodifiers", keysym]
  }

  /** The typing block: the type command runs first; Enter follows only
      when the type command succeeded and Enter is wanted. A missing or
      failing `xdotool` is logged, never raised. */
  function TypeThenEnter(text: string, pressEnter: bool, typed: CallOutcome): (effects: seq<Effect>)
    ensures 1 <= |effects| <= 2 && effects[0] == Command(TypeCommand(text))
    ensures Command(ReturnCommand) in effects <==> pressEnter && typed.Returns?
    ensures |effects| == 2 ==> effects[1] == Command(ReturnCommand)
  {
    if typed.Returns? && pressEnter then [Command(TypeCommand(text)), Command(ReturnCommand)]
    else [Command(TypeCommand(text))]
  }

  /** The typed text is the last argument of the type command, unchanged. */
  lemma TypedTextIsLastArgument(text: string, pressEnter: bool, typed: CallOutcome)
    ensures var argv := TypeThenEnter(text, pressEnter, typed)[0].argv;
      |argv| == 6 && argv[5] == text && argv[..5] == ["xdotool", "type", "--delay", "0", "--clearmodifiers"]
  {
  }
}
